=== FILE: README.md ===
# Apriori hash-tree engine, in Dafny

This project models the Apriori frequent-itemset engine of `DataMiningProject/src/domain/apriori`
and proves properties of that model.

- **Items.** An item is an integer or a string. Each kind has a comparison, `equals`, `hashCode`,
  `getIdForHash` and `toString`.
- **Itemsets.** An itemset is a sorted, duplicate-free set of items with a frequency counter. The
  counter takes no part in equality.
- **Hash tree of k-itemsets.** The root is a hash node. Every other node is either a bucket, a map
  from k-itemsets to counts, or a hash node with one optional child per slot. The tree supports:
  - **Insertion** walks every k-subset of an itemset in canonical order. A bucket above depth k
    takes all the completions if its current size plus their binomial count fits under
    `maxBucketSize`. Otherwise the bucket is converted into a hash node.
  - **Counting** and the **all-subsets-present check** walk the tree the same way.
  - **Support filtering** and **Apriori pruning** remove itemsets and detach emptied children.
  - **`toArray`** lists the stored itemsets.
  - **Self-join** builds the next level's candidates.
- **Driver.** It builds the level-1 tree, then repeats join, prune, count and filter until a level
  comes out empty.

The tree works on integer items: an itemset is a strictly increasing `seq<int>` of item ids, and
routing uses the id as the hash id. Trees over string items are not modelled (see "Left out"). The
string items themselves, with `String.hashCode` and `String.compareTo` over UTF-16 code units, are
in `Items`.

Modules, one per file:

| file | module | models |
|---|---|---|
| outcomes.dfy | `Outcomes` | `Option`, and `Result` for operations that throw |
| decimal.dfy | `Decimal` | decimal text of integers, with its parser |
| items.dfy | `Items` | `IntegerItem`, `StringItem`, Java's `String.hashCode` and `String.compareTo` |
| itemsets.dfy | `ItemSets` | `ItemSet`: constructors, `incFrequency`, sorted-set insertion, equality, `toString` |
| combinations.dfy | `Combinations` | `generateNextCombinations`, `generateFinalItemSets`, the binomial coefficient |
| nodes.dfy | `Nodes` | the node datatype, the hash slot, the routing invariant, lookups, `putInBucket` |
| insert.dfy | `Insertion` | `add`, `addToBucket`, `addToChildren`, `convertToHashNode` |
| bounds.dfy | `Bounds` | the bucket size limit, and every operation keeping it |
| count.dfy | `Counting` | `countCandidates` on nodes, `incFrequencies` |
| presence.dfy | `Presence` | `areAllSubsetsPresent` and `areAllSubsetsPresentInChildren` |
| trim.dfy | `Trimming` | the shared shape of `removeNoMinSupport` and `prune` on nodes |
| enumerate.dfy | `Enumeration` | `toArray` on nodes |
| hashtree.dfy | `HashTrees` | `HashTree` and its public operations |
| join.dfy | `Joining` | `generateNextCandidateTree` |
| apriori.dfy | `Apriori` | the `Apriori` constructor's level loop and its two getters |

Most operations are pure functions over immutable nodes. A Java method that mutates a node becomes
a function that returns the new node. Each operation is paired with a lemma that says what a lookup
finds afterwards. `Find` walks an itemset's route to a bucket, and `Keys` is the set of stored
itemsets. Operations that iterate a `HashMap` or `HashSet` in unspecified order are methods that
pick elements with `:|`. Their contracts do not depend on the order: `PutInBucket`, `ListBucket`
and `ToArray`.

## Model

| member | source | states |
|---|---|---|
| `Items.Equals` | DataMiningProject/src/domain/apriori/IntegerItem.java:36-43 | `equals` throws `IllegalArgumentException` exactly when the argument is of the other kind; otherwise it answers value equality |
| `Items.GetIdForHash` | DataMiningProject/src/domain/apriori/StringItem.java:14-16 | the hash id is the integer itself for an integer item; for a string item it is a signed 32-bit value congruent, modulo 2^32, to the base-31 polynomial of the string's UTF-16 code units |
| `Items.StringHashCodeIsPolynomial` | DataMiningProject/src/domain/apriori/StringItem.java:14-16 | `String.hashCode` is the polynomial hash with base 31 over the string's UTF-16 code units, reduced modulo 2^32, as Java computes it with wrap-around |
| `Items.SurrogatePairHash` | DataMiningProject/src/domain/apriori/StringItem.java:14-16 | a character outside the Basic Multilingual Plane counts as its two surrogate code units: U+1F600 hashes to 31 · 0xD83D + 0xDE00 |
| `Items.BmpUnits` | DataMiningProject/src/domain/apriori/StringItem.java:14-16 | a string of Basic Multilingual Plane characters is its own sequence of UTF-16 code units |
| `Items.Utf16Injective` | DataMiningProject/src/domain/apriori/StringItem.java:19-28 | distinct strings have distinct UTF-16 encodings, so comparing code units decides string equality |
| `Items.SurrogatesSortLow` | DataMiningProject/src/domain/apriori/StringItem.java:22 | `compareTo` orders by code units, not code points: U+FF5E sorts after U+1F600 |
| `Items.CompareIsOrder` | DataMiningProject/src/domain/apriori/StringItem.java:19-28 | on items of one kind, `compareTo` is antisymmetric, is zero exactly on equal items, and is transitive |
| `Items.IntegerOrderIsNumeric` | DataMiningProject/src/domain/apriori/IntegerItem.java:19-28 | integer items compare by the numeric order of their ids |
| `Items.EqualsAgreesWithCompare` | DataMiningProject/src/domain/apriori/IntegerItem.java:36-43 | on items of one kind, `equals` holds exactly when `compareTo` returns 0 |
| `Items.EqualItemsShareHashId` | DataMiningProject/src/domain/apriori/StringItem.java:46-48 | items of one kind that `compareTo` finds equal have the same hash id and the same `hashCode` |
| `Items.IntegerToStringRoundTrip` | DataMiningProject/src/domain/apriori/IntegerItem.java:31-33 | the `toString` of an integer item reads back as the same integer |
| `Decimal.IntRoundTrip` | DataMiningProject/src/domain/apriori/ItemSet.java:33 | the decimal text of an integer, as Java's string concatenation renders it, reads back as that integer |
| `ItemSets.Empty` | DataMiningProject/src/domain/apriori/ItemSet.java:9-12 | a new itemset has no items and frequency 0 |
| `ItemSets.Copy` | DataMiningProject/src/domain/apriori/ItemSet.java:14-16 | the copy constructor copies the items but not the frequency, which starts at 0 |
| `ItemSets.IncFrequency` | DataMiningProject/src/domain/apriori/ItemSet.java:18-20 | `incFrequency` raises the frequency by exactly 1 and leaves the items alone |
| `ItemSets.Add` | DataMiningProject/src/domain/apriori/ItemSet.java:7 | adding an item keeps the itemset sorted and duplicate-free, adds exactly that item, and keeps the frequency |
| `ItemSets.EqualIsSameItems` | DataMiningProject/src/domain/apriori/ItemSet.java:7 | set equality on sorted itemsets is equality of their items, whatever the frequencies |
| `ItemSets.FrequencyIgnoredByEqual` | DataMiningProject/src/domain/apriori/ItemSet.java:9 | counting or copying an itemset leaves it equal to the original |
| `ItemSets.ToStringRoundTrip` | DataMiningProject/src/domain/apriori/ItemSet.java:27-36 | the `{ i1 i2 … }:f` rendering reads back as the same items and frequency, so it loses nothing |
| `Combinations.FinalMembers` | DataMiningProject/src/domain/apriori/Node.java:350-373 | `generateFinalItemSets` yields exactly the k-itemsets that start with `chosen` and continue with items of `remaining` in order |
| `Combinations.FinalCount` | DataMiningProject/src/domain/apriori/Node.java:217 | the number of those itemsets is the binomial coefficient C(\|remaining\|, k − \|chosen\|) that `addToBucket` consults |
| `Combinations.NextSorted` | DataMiningProject/src/domain/apriori/Node.java:330-347 | every next combination adds one item to `chosen`, keeps only the larger items as remaining, and keeps \|chosen\| + \|remaining\| ≥ k, which the binomial call needs |
| `Combinations.ExtendsSplit` | DataMiningProject/src/domain/apriori/Node.java:336-344 | the completions of a combination are the completions that pick the first remaining item next, together with those that skip it |
| `Nodes.Slot` | DataMiningProject/src/domain/apriori/Node.java:397-399 | the corrected hash: the remainder of the id modulo the fan-out, always a valid child index |
| `Nodes.JavaSlotInRange` | DataMiningProject/src/domain/apriori/Node.java:397-399 | Java's `%` gives a valid index exactly when the id is non-negative or a multiple of the fan-out, and then agrees with `Slot` |
| `Nodes.JavaSlotNegativeItem` | DataMiningProject/src/domain/apriori/Node.java:397-399 | the item −1 in a node with three children hashes to slot −1 |
| `Nodes.FindKeys` | DataMiningProject/src/domain/apriori/Node.java:231-242 | in a well-formed subtree, following an itemset's route finds a count exactly when the itemset is stored below the node |
| `Nodes.NoChildrenIffEmpty` | DataMiningProject/src/domain/apriori/Node.java:72-80 | when every present child holds something, a hash node has no child exactly when it stores nothing |
| `Nodes.Put` | DataMiningProject/src/domain/apriori/Node.java:245-250 | `putInBucket` adds a new itemset at count 0, adds 1 to a known one, and leaves every other count alone |
| `Nodes.PutInBucket` | DataMiningProject/src/domain/apriori/Node.java:252-255 | putting a set of itemsets one by one, in any order, gives the order-independent `PutAll` |
| `Insertion.Convert` | DataMiningProject/src/domain/apriori/Node.java:377-393 | `convertToHashNode` leaves a hash node with one slot per child, and each slot holds exactly the itemsets whose item at this depth hashes to it |
| `Insertion.ConvertFind` | DataMiningProject/src/domain/apriori/Node.java:377-393 | converting keeps every itemset and its count where a lookup finds them |
| `Insertion.ConvertWf` | DataMiningProject/src/domain/apriori/Node.java:377-393 | converting a bucket above depth k keeps the routing invariant and the set of stored itemsets |
| `Insertion.AddAt` | DataMiningProject/src/domain/apriori/Node.java:201-206 | `add(chosen, remaining)` keeps the routing invariant and adds exactly the k-itemsets that `chosen` and `remaining` make |
| `Insertion.AddToBucketChoice` | DataMiningProject/src/domain/apriori/Node.java:210-228 | a bucket above depth k takes all the completions when the bucket size plus the binomial count fits under the limit; otherwise it is converted and the next combinations go to its children |
| `Insertion.AddToBucket` | DataMiningProject/src/domain/apriori/Node.java:210-228 | adding to a bucket keeps the routing invariant and stores exactly the bucket's itemsets together with all completions of `chosen` by `remaining` |
| `Insertion.AddToChildren` | DataMiningProject/src/domain/apriori/Node.java:231-242 | passing the next combinations to the children keeps the routing invariant and adds exactly their completions |
| `Insertion.AddToChild` | DataMiningProject/src/domain/apriori/Node.java:234-240 | one next combination, sent to the child its new item hashes to, adds exactly that combination's completions and keeps the routing invariant |
| `Insertion.AddAtFind` | DataMiningProject/src/domain/apriori/Node.java:201-250 | after `add`, each k-itemset made from `chosen` and `remaining` gains 1, or enters at 0 if new, and every other count is unchanged |
| `Insertion.AddToChildrenFind` | DataMiningProject/src/domain/apriori/Node.java:231-242 | the same effect, one next combination at a time, from the i-th on |
| `Bounds.AddAtBounded` | DataMiningProject/src/domain/apriori/Node.java:210-228 | `add` leaves every bucket above depth k within `maxBucketSize` (or empty); only a bucket at depth k takes itemsets without checking the limit |
| `Bounds.ConvertBounded` | DataMiningProject/src/domain/apriori/Node.java:377-393 | converting a bucket that is within the limit gives child buckets within the limit |
| `Bounds.FilterBounded` | DataMiningProject/src/domain/apriori/Node.java:89-154 | removal and pruning keep every bucket within the limit |
| `Bounds.AddAllBounded` | DataMiningProject/src/domain/apriori/HashTree.java:52-55 | `addAll` keeps the tree within the bucket limit |
| `Bounds.CountCandidatesBounded` | DataMiningProject/src/domain/apriori/HashTree.java:58-62 | counting keeps the tree within the bucket limit |
| `Counting.CountAt` | DataMiningProject/src/domain/apriori/Node.java:297-327 | `countCandidates(chosen, remaining)` keeps the routing invariant and the set of stored itemsets |
| `Counting.CountAtFind` | DataMiningProject/src/domain/apriori/Node.java:297-327 | after counting a transaction, each stored k-itemset it contains gains exactly 1, and every other lookup is unchanged |
| `Counting.CountAtShape` | DataMiningProject/src/domain/apriori/Node.java:297-327 | counting makes no structural change: the tree without its counts is the same |
| `Counting.IncEvery` | DataMiningProject/src/domain/apriori/Node.java:172-183 | `incFrequencies` on nodes keeps the stored itemsets and the structure |
| `Counting.IncEveryFind` | DataMiningProject/src/domain/apriori/Node.java:172-183 | after `incFrequencies`, every stored itemset's count is 1 higher, and absent itemsets stay absent |
| `Presence.PresentIff` | DataMiningProject/src/domain/apriori/Node.java:260-276 | with an empty child slot counted as missing, the check holds exactly when every k-itemset that `chosen` and `remaining` make is stored |
| `Presence.SkippingIff` | DataMiningProject/src/domain/apriori/Node.java:260-294 | as written, the check holds exactly when every k-itemset that `chosen` and `remaining` make is either stored or routed into an empty child slot, which is never looked at |
| `Presence.SkipEmptyCounterexample` | DataMiningProject/src/domain/apriori/Node.java:281-294 | as written, the check answers true for the candidate {1, 2} against a tree that holds only {1}, though {2} is missing |
| `Trimming.Filter` | DataMiningProject/src/domain/apriori/Node.java:89-113 | filtering keeps node kinds and slot counts, leaves no empty child behind, only removes itemsets, and reports removal exactly when nothing is left |
| `Trimming.FilterFind` | DataMiningProject/src/domain/apriori/Node.java:131-154 | after filtering, a lookup finds the same count if the itemset passed the test, and nothing otherwise |
| `Trimming.FilterWf` | DataMiningProject/src/domain/apriori/Node.java:89-154 | filtering keeps the routing invariant |
| `Enumeration.ListBucket` | DataMiningProject/src/domain/apriori/Node.java:159-161 | a bucket lists each of its itemsets exactly once, with its count |
| `Enumeration.ToArray` | DataMiningProject/src/domain/apriori/Node.java:157-169 | `toArray` lists every itemset stored below the node exactly once, each with the count a lookup finds |
| `HashTrees.New` | DataMiningProject/src/domain/apriori/HashTree.java:23-29 | a new tree is valid, keeps the given settings, and holds nothing |
| `HashTrees.IsEmpty` | DataMiningProject/src/domain/apriori/HashTree.java:37-39 | an empty root means nothing is stored; when every present child holds something, the converse holds too |
| `HashTrees.Add` | DataMiningProject/src/domain/apriori/HashTree.java:44-47 | an itemset with at least k items adds each of its k-itemsets; a shorter one changes nothing |
| `HashTrees.AddLookup` | DataMiningProject/src/domain/apriori/HashTree.java:44-47 | after `add`, each k-subset of the itemset gains 1, or enters at 0, and no other count changes |
| `HashTrees.AddAllLookup` | DataMiningProject/src/domain/apriori/HashTree.java:52-55 | after `addAll`, a sorted k-itemset contained in n of the itemsets is counted n times, the first time entering at 0 |
| `HashTrees.CountCandidates` | DataMiningProject/src/domain/apriori/HashTree.java:58-62 | counting keeps the tree valid and the set of stored itemsets |
| `HashTrees.CountCandidatesLookup` | DataMiningProject/src/domain/apriori/HashTree.java:58-62 | after counting, each stored k-itemset has gained the number of transactions that contain it; transactions shorter than k are skipped |
| `HashTrees.TransactionLookup` | DataMiningProject/src/domain/apriori/HashTree.java:59-61 | one transaction adds 1 to exactly the stored k-itemsets it contains, and a transaction shorter than k changes nothing |
| `HashTrees.RemoveNoMinSupport` | DataMiningProject/src/domain/apriori/HashTree.java:66-68 | removal leaves no empty child and reports that the tree is now empty exactly when nothing is left |
| `HashTrees.RemoveLookup` | DataMiningProject/src/domain/apriori/Node.java:89-113 | exactly the stored itemsets with count at least the minimum support remain, with their counts |
| `HashTrees.AreAllSubsetsFrequentIff` | DataMiningProject/src/domain/apriori/HashTree.java:86-88 | the corrected check holds exactly when every k-subset of the itemset is in the tree |
| `HashTrees.AreAllSubsetsFrequentAsWrittenIff` | DataMiningProject/src/domain/apriori/HashTree.java:86-88 | the check as written holds exactly when every k-subset of the itemset is in the tree or has a route that runs into an empty child slot |
| `HashTrees.Prune` | DataMiningProject/src/domain/apriori/HashTree.java:73-82 | `prune` throws `IllegalArgumentException`, with the source's message, exactly when the other tree's k is not this k − 1; otherwise it only removes itemsets |
| `HashTrees.PruneLookup` | DataMiningProject/src/domain/apriori/Node.java:131-154 | with the corrected check, after pruning against the (k−1)-tree, exactly the candidates all of whose (k−1)-subsets that tree holds remain, with their counts |
| `HashTrees.CorrectedCheckIsStricter` | DataMiningProject/src/domain/apriori/Node.java:281-294 | every itemset the corrected check accepts, the check as written accepts too |
| `HashTrees.PruneAsWritten` | DataMiningProject/src/domain/apriori/Node.java:131-154 | `prune` with the check as written throws exactly when the other tree's k is not this k − 1; otherwise it only removes itemsets |
| `HashTrees.PruneAsWrittenLookup` | DataMiningProject/src/domain/apriori/Node.java:131-154 | the prune as written keeps, with its count, exactly each candidate that the check as written accepts. So it keeps every candidate the corrected prune keeps, and otherwise finds nothing or the original count |
| `HashTrees.IncFrequenciesLookup` | DataMiningProject/src/domain/apriori/HashTree.java:137-139 | after `incFrequencies`, every stored itemset's count is 1 higher |
| `HashTrees.ToArray` | DataMiningProject/src/domain/apriori/HashTree.java:130-134 | `toArray` lists every stored itemset exactly once, with its count |
| `Joining.Join` | DataMiningProject/src/domain/apriori/HashTree.java:115-119 | the join is sorted, and its items are those of the first itemset plus the last item of the second |
| `Joining.JoinShape` | DataMiningProject/src/domain/apriori/HashTree.java:100-119 | two distinct joinable k-itemsets join to their shared prefix followed by both last items, so the join has k + 1 items |
| `Joining.JoinDeterminesPair` | DataMiningProject/src/domain/apriori/HashTree.java:96-121 | a candidate comes from only one pair, so no candidate is added twice |
| `Joining.GenerateNextCandidateTree` | DataMiningProject/src/domain/apriori/HashTree.java:92-127 | the result is a (k+1)-tree with the same settings that holds exactly the joins of all joinable pairs, each at count 0, within the bucket limit |
| `Apriori.SupportAntiMonotone` | DataMiningProject/src/domain/apriori/Apriori.java:39-41 | an itemset occurs in no more transactions than any of its parts, which is why pruning loses nothing |
| `Apriori.FirstLevelLookup` | DataMiningProject/src/domain/apriori/Apriori.java:30-33 | level 1 holds exactly the items that occur in some transaction and in at least the minimum support of them, each with its number of occurrences |
| `Apriori.FirstLevelEmptyIff` | DataMiningProject/src/domain/apriori/Apriori.java:30-36 | level 1 comes out empty, and the loop is never entered, exactly when no single item is frequent |
| `Apriori.RoundLookup` | DataMiningProject/src/domain/apriori/Apriori.java:40-45 | with the corrected check, after prune, count and filter, a candidate remains, with its support, exactly when all its k-subsets were frequent and it has the minimum support |
| `Apriori.RoundAsWrittenAgrees` | DataMiningProject/src/domain/apriori/Apriori.java:40-45 | against a correct level k with a positive minimum support, the round that prunes with the check as written ends with the same lookups as the corrected round |
| `Apriori.SplitJoin` | DataMiningProject/src/domain/apriori/HashTree.java:100-119 | every sorted itemset of two or more items is the join of two of its own subsets, one item shorter |
| `Apriori.NextLevel` | DataMiningProject/src/domain/apriori/Apriori.java:36-47 | from a correct level k, one round yields a correct level k + 1 |
| `Apriori.Run` | DataMiningProject/src/domain/apriori/Apriori.java:22-49 | level k, at index k − 1, holds every frequent k-itemset with its support, and only sorted k-itemsets whose support reaches the minimum. Every level but the last holds something, the last holds nothing, and nothing longer is frequent. The loop terminates |
| `Apriori.LevelExact` | DataMiningProject/src/domain/apriori/Apriori.java:43-45 | with a positive minimum support, each level is exactly the map from frequent k-itemsets to their supports |
| `Apriori.RunAsWritten` | DataMiningProject/src/domain/apriori/Apriori.java:30-47 | as written, the constructor completes exactly when no item is frequent; otherwise `prune` throws, with k 2 as both the previous and the current level. When it completes, the list holds only the empty level-1 tree |
| `Apriori.GetFrequentKItemSets` | DataMiningProject/src/domain/apriori/Apriori.java:52-56 | the k-itemsets come from the tree at index k − 1, each once with its count; any other k throws `IndexOutOfBoundsException` |
| `Apriori.ListingIsFrequent` | DataMiningProject/src/domain/apriori/Apriori.java:52-56 | for a mined level with positive minimum support, the listing names exactly the frequent k-itemsets, each with its support |
| `Apriori.GetAllFrequentItemSets` | DataMiningProject/src/domain/apriori/Apriori.java:59-66 | the listings of all trees name exactly what the trees hold, each with a count found in its tree. When the trees hold lengths 1, 2, …, no itemset is listed twice, and the listing is in level order: no itemset follows a longer one |

## Left out

- Reading transactions, printing, and `System.exit` are not modelled. An integer item compared
  with a string item ends the process in the source; here that is the precondition `SameKind`.
- `HashTree.toString`, `printTree` and `Node.toString` are not modelled. They are debug dumps
  driven by a mutable indentation field.
- `CombinatoricsUtils.binomialCoefficient` is a foreign call. The model uses `Choose`, defined by
  Pascal's rule. The library throws when the coefficient does not fit in a `long`; `Choose` is
  unbounded, so that overflow is not modelled.
- `Insertion.AddAt`: the capacity test is written with the number of generated completions. By
  `Combinations.FinalCount` that number equals the binomial coefficient, and
  `Insertion.AddToBucketChoice` states the branch with the coefficient itself.
- The iteration order of `HashMap` and `HashSet` is unspecified. Buckets are maps. Putting a set,
  listing a bucket and the driver's transaction set are order-independent in the model. The order
  of `toArray`'s output within one bucket is not fixed.
- `Nodes.ValidConfig` requires k ≥ 1 and at least one child per node. With zero children, Java's
  `%` divides by zero. With k = 0, the root's first combination already has too many items.
- The transactions are a sequence of sorted integer itemsets, standing for Java's `Set<ItemSet>`.
  Support counts a transaction as often as it occurs in the sequence, so a duplicate-free sequence
  gives the set's count.
- Integer item ids and counts are unbounded. Java's `int` ids and frequencies would wrap past
  2^31 − 1. `String.hashCode`, which the tree hashes, is modelled with its 32-bit wrap-around.
- The join compares the prefix items of two itemsets with `!=` (HashTree.java:107). That is
  reference identity, so two equal items held by different objects block a join. The model
  compares values, which is what the algorithm needs.
- Apriori.java:7-8 imports `HashTree` and `ItemSet` from `domain.apriori.structures`, an unfinished
  draft. So Apriori.java:30 resolves to that package's `HashTree(int absoluteMinSupport, int level)`
  constructor, with the two arguments swapped. That class has no `addAll`, `incFrequencies`,
  `removeNoMinSupport`, `generateNextCandidateTree`, `prune`, `countCandidates` or `toArray`, which
  Apriori.java:31-45, 54 and 63 call. The model reads the driver as using this package's
  `HashTree`, built with the four-argument constructor and the driver's `childrenPerNode` and
  `maxBucketSize`. The `structures` package is not part of this model.
- `Apriori.GetFrequentKItemSets` and `Apriori.GetAllFrequentItemSets` read Apriori.java:54 and 63 as
  `itemSets.addAll(tree.toArray())`. This package's `toArray` returns a `List<ItemSet>`
  (HashTree.java:130), so `Arrays.asList` of it is a one-element list of lists, which `addAll` on
  a `List<ItemSet>` does not accept. The model drops the `Arrays.asList` wrapper and appends the
  tree's itemsets.
- Trees over string items are not modelled. The tree stores itemsets as increasing sequences of
  ids ordered numerically, while string itemsets are ordered by `String.compareTo`, and distinct
  strings can share a hash id ("Aa" and "BB" both hash to 2112). The tree model covers integer
  items only.
- `Items.StringHashCode` and `Items.StringCompare` take a Dafny string, a sequence of Unicode
  scalar values, and encode it to UTF-16 first. A Java string holding an unpaired surrogate has no
  Dafny counterpart, so such strings are not modelled.
- `HashTrees.PruneLookup` states the prune with the corrected check, which the driver's model uses.
  The prune as written is `HashTrees.PruneAsWritten`, and `HashTrees.PruneAsWrittenLookup` relates
  the two.
- `Apriori.RoundLookup` states the round with the corrected prune. `Apriori.RoundAsWrittenAgrees`
  shows that the round with the check as written gives the same lookups from a correct level with
  a positive minimum support. With a minimum support of 0 or less the two rounds can differ, and
  that case is not stated.
- The `Item` base class (its `id` field and `getID`) is not part of this model. Items are the
  `Items.Item` datatype.
- `HashTrees.AreAllSubsetsFrequent` is the corrected check, which treats an empty slot as a
  missing subset. The source's version is `HashTrees.AreAllSubsetsFrequentAsWritten`; see Findings.

## Findings

| source | as written | input that shows it | evidently intended | confidence | as-written member | corrected member |
|---|---|---|---|---|---|---|
| DataMiningProject/src/domain/apriori/Node.java:288-290 | `areAllSubsetsPresentInChildren` skips a combination whose child slot is empty, so a missing subset counts as present | a 1-itemset tree with three slots holding only {1}, asked about {1, 2}: answers true, though {2} is not stored | an empty slot means its k-itemsets are missing, so the check answers false | high, not executed | `Presence.SkipEmptyCounterexample` | `Presence.PresentIff` |
| DataMiningProject/src/domain/apriori/Apriori.java:41 | the candidate tree is pruned against itself, and `prune` throws unless given the (k−1)-tree | any transactions with at least one frequent item: `prune` throws `IllegalArgumentException` with previous k 2 and current k 2 | prune against `kMinusOneItemSetTree` | high, not executed | `Apriori.RunAsWritten` | `Apriori.Run` |
| DataMiningProject/src/domain/apriori/Node.java:397-399 | `hash` uses Java's `%`, which keeps the sign of the id, so a negative id gives a negative slot | the integer item −1 in a node with three children: slot −1, an `ArrayIndexOutOfBoundsException`; a string whose `hashCode` is negative does the same | a slot in 0 … n − 1, as the floor remainder gives | medium, not executed | `Nodes.JavaSlotNegativeItem` | `Nodes.Slot` |

=== FILE: apriori.dfy ===
/**
 * The Apriori driver: the tree of frequent 1-itemsets, then level after level the self-join of
 * the last tree, pruned against it, counted against the transactions and trimmed to the minimum
 * support, until a level comes out empty.
 */
module Apriori {
  import opened Outcomes
  import opened ItemSets
  import opened Combinations
  import opened Nodes
  import opened HashTrees
  import Joining
  import Enumeration
  import Bounds

  /** Every transaction is a sorted itemset. */
  predicate WellFormed(transactions: seq<seq<int>>) {
    forall i :: 0 <= i < |transactions| ==> Increasing(transactions[i])
  }

  /** A sorted itemset that occurs in at least one transaction and in at least `minSupport` of them. */
  predicate Frequent(s: seq<int>, transactions: seq<seq<int>>, minSupport: int) {
    Increasing(s) && Support(s, transactions) >= 1 && Support(s, transactions) >= minSupport
  }

  /** The items that occur in some transaction. */
  function Alphabet(transactions: seq<seq<int>>): set<int>
    decreases |transactions|
  {
    if |transactions| == 0 then {} else Elements(transactions[0]) + Alphabet(transactions[1..])
  }

  /** An itemset that some transaction contains is made of items of the alphabet. */
  lemma {:induction false} SupportedInAlphabet(s: seq<int>, transactions: seq<seq<int>>)
    requires Support(s, transactions) >= 1
    ensures Elements(s) <= Alphabet(transactions)
    decreases |transactions|
  {
    if !SubsetOf(s, transactions[0]) {
      SupportedInAlphabet(s, transactions[1..]);
    }
  }

  /** Containment is transitive. */
  lemma SubsetTrans(c: seq<int>, s: seq<int>, t: seq<int>)
    requires SubsetOf(c, s) && SubsetOf(s, t)
    ensures SubsetOf(c, t)
  {
    forall i | 0 <= i < |c| ensures c[i] in t {
      var j :| 0 <= j < |s| && s[j] == c[i];
    }
  }

  /** The Apriori property: an itemset occurs in no more transactions than any of its parts. */
  lemma {:induction false} SupportAntiMonotone(c: seq<int>, s: seq<int>, transactions: seq<seq<int>>)
    requires SubsetOf(c, s)
    ensures Support(s, transactions) <= Support(c, transactions)
    decreases |transactions|
  {
    if |transactions| > 0 {
      if SubsetOf(s, transactions[0]) {
        SubsetTrans(c, s, transactions[0]);
      }
      SupportAntiMonotone(c, s, transactions[1..]);
    }
  }

  /**
   * What the tree of level k holds, for any minimum support: only sorted k-itemsets made of the
   * alphabet, each with its support as count, and that at least the minimum support; and every
   * frequent k-itemset. The root keeps no empty child, and no bucket above depth k exceeds the limit.
   */
  ghost predicate Level(t: HashTree, k: int, transactions: seq<seq<int>>, cfg: Config) {
    Valid(t) && t.cfg == cfg.(k := k) && Compact(t.root) && Bounds.TreeBounded(t) &&
    (forall s :: s in Contents(t) ==> Elements(s) <= Alphabet(transactions)) &&
    (forall s :: Lookup(t, s).Some? ==>
      |s| == k && Increasing(s) && Lookup(t, s).value == Support(s, transactions) && Support(s, transactions) >= cfg.minSupport) &&
    (forall s :: |s| == k && Frequent(s, transactions, cfg.minSupport) ==> Lookup(t, s) == Some(Support(s, transactions)))
  }

  /** With a positive minimum support a level holds exactly the frequent k-itemsets, with their supports. */
  lemma LevelExact(t: HashTree, k: int, transactions: seq<seq<int>>, cfg: Config, s: seq<int>)
    requires Level(t, k, transactions, cfg) && cfg.minSupport >= 1
    ensures Lookup(t, s) == if |s| == k && Frequent(s, transactions, cfg.minSupport) then Some(Support(s, transactions)) else None
  {
  }

  /** A level that holds something has no more items per itemset than the alphabet has items. */
  lemma LevelBound(t: HashTree, k: int, transactions: seq<seq<int>>, cfg: Config)
    requires Level(t, k, transactions, cfg) && Contents(t) != {}
    ensures k <= |Alphabet(transactions)|
  {
    var s :| s in Contents(t);
    LookupContents(t, s);
    LengthBoundedBy(s, Alphabet(transactions));
  }

  /**
   * Level 1 (`new HashTree(1, ...)`, `addAll`, `incFrequencies`, `removeNoMinSupport`): every item
   * of a transaction enters at 0 and is counted once per further transaction holding it, then
   * once more for all; what falls short of the minimum support is removed.
   */
  function FirstLevel(transactions: seq<seq<int>>, cfg: Config): (r: HashTree)
    requires WellFormed(transactions) && cfg.numChildren >= 1
    ensures Valid(r) && r.cfg == cfg.(k := 1) && Compact(r.root)
  {
    var t := New(1, cfg.minSupport, cfg.maxBucketSize, cfg.numChildren);
    RemoveNoMinSupport(IncFrequencies(AddAll(t, transactions))).0
  }

  /** Level 1 holds exactly the items that occur at all and at least the minimum support times, with their supports. */
  lemma FirstLevelLookup(transactions: seq<seq<int>>, cfg: Config, s: seq<int>)
    requires WellFormed(transactions) && cfg.numChildren >= 1
    ensures Lookup(FirstLevel(transactions, cfg), s) ==
      if |s| == 1 && Frequent(s, transactions, cfg.minSupport) then Some(Support(s, transactions)) else None
  {
    var t := New(1, cfg.minSupport, cfg.maxBucketSize, cfg.numChildren);
    var added := AddAll(t, transactions);
    var counted := IncFrequencies(added);
    RemoveLookup(counted, s);
    IncFrequenciesLookup(added, s);
    if |s| == 1 {
      AddAllLookup(t, transactions, s);
      LookupContents(t, s);
    } else {
      LookupContents(added, s);
      if s in Contents(added) {
        StoredShape(added.cfg, added.root, 0, s);
      }
    }
  }

  /** Level 1 keeps every bucket above depth 1 within the limit. */
  lemma FirstLevelBounded(transactions: seq<seq<int>>, cfg: Config)
    requires WellFormed(transactions) && cfg.numChildren >= 1
    ensures Bounds.TreeBounded(FirstLevel(transactions, cfg))
  {
    var t0 := New(1, cfg.minSupport, cfg.maxBucketSize, cfg.numChildren);
    Bounds.NewBounded(1, cfg.minSupport, cfg.maxBucketSize, cfg.numChildren);
    Bounds.AddAllBounded(t0, transactions);
    Bounds.IncFrequenciesBounded(AddAll(t0, transactions));
    Bounds.TrimBounded(IncFrequencies(AddAll(t0, transactions)), t0);
  }

  /** Level 1 is a level. */
  lemma FirstLevelIsLevel(transactions: seq<seq<int>>, cfg: Config)
    requires WellFormed(transactions) && cfg.numChildren >= 1
    ensures Level(FirstLevel(transactions, cfg), 1, transactions, cfg)
  {
    var t := FirstLevel(transactions, cfg);
    FirstLevelBounded(transactions, cfg);
    forall s ensures Lookup(t, s) == if |s| == 1 && Frequent(s, transactions, cfg.minSupport) then Some(Support(s, transactions)) else None {
      FirstLevelLookup(transactions, cfg, s);
    }
    forall s | s in Contents(t) ensures Elements(s) <= Alphabet(transactions) {
      LookupContents(t, s);
      SupportedInAlphabet(s, transactions);
    }
  }

  /** A sorted itemset of two or more items is the join of itself without its last item and itself without the one before. */
  lemma SplitJoin(s: seq<int>)
    requires Increasing(s) && |s| >= 2
    ensures var n := |s|; var a := s[..n - 1]; var b := s[..n - 2] + [s[n - 1]];
      KSubset(a, s, n - 1) && KSubset(b, s, n - 1) && a != b && Joining.Joinable(a, b) && Joining.Join(a, b) == s
  {
    DropLastSubset(s);
    DropSecondLastSubset(s);
    SplitJoinable(s);
    SplitJoinIs(s);
  }

  lemma DropLastSubset(s: seq<int>)
    requires Increasing(s) && |s| >= 1
    ensures KSubset(s[..|s| - 1], s, |s| - 1)
  {
    var a := s[..|s| - 1];
    assert forall i :: 0 <= i < |a| ==> a[i] == s[i];
  }

  lemma DropSecondLastSubset(s: seq<int>)
    requires Increasing(s) && |s| >= 2
    ensures KSubset(s[..|s| - 2] + [s[|s| - 1]], s, |s| - 1)
  {
    var n := |s|;
    var b := s[..n - 2] + [s[n - 1]];
    assert forall i :: 0 <= i < n - 2 ==> b[i] == s[i];
    assert b[n - 2] == s[n - 1];
    assert Increasing(b) by {
      forall i, j | 0 <= i < j < |b| ensures b[i] < b[j] {
        if j == n - 2 {
          assert s[i] < s[n - 1];
        }
      }
    }
    assert SubsetOf(b, s) by {
      forall i | 0 <= i < |b| ensures b[i] in s {
        if i < n - 2 {
          assert b[i] == s[i];
        }
      }
    }
  }

  lemma SplitJoinable(s: seq<int>)
    requires Increasing(s) && |s| >= 2
    ensures var n := |s|; var a := s[..n - 1]; var b := s[..n - 2] + [s[n - 1]];
      a != b && Joining.Joinable(a, b)
  {
    var n := |s|;
    var a := s[..n - 1];
    var b := s[..n - 2] + [s[n - 1]];
    assert a[n - 2] == s[n - 2] != s[n - 1] == b[n - 2];
    assert a[..n - 2] == b[..n - 2];
  }

  lemma SplitJoinIs(s: seq<int>)
    requires Increasing(s) && |s| >= 2
    ensures var n := |s|; var a := s[..n - 1]; var b := s[..n - 2] + [s[n - 1]];
      Increasing(a) && Joining.Join(a, b) == s
  {
    var n := |s|;
    var a := s[..n - 1];
    var b := s[..n - 2] + [s[n - 1]];
    DropLastSubset(s);
    var j := Joining.Join(a, b);
    assert Elements(j) == Elements(s) by {
      assert s == a + [s[n - 1]];
    }
    IncreasingUnique(j, s);
  }

  /** Every frequent (k+1)-itemset is the join of two frequent k-itemsets all of whose k-itemsets are frequent. */
  lemma FrequentIsCandidate(prev: HashTree, k: int, transactions: seq<seq<int>>, cfg: Config, s: seq<int>)
    requires Level(prev, k, transactions, cfg) && k >= 1
    requires |s| == k + 1 && Frequent(s, transactions, cfg.minSupport)
    ensures forall a :: a in Contents(prev) ==> |a| == k && Increasing(a)
    ensures s in Joining.JoinAll(Contents(prev), k)
    ensures forall c :: KSubset(c, s, k) ==> Lookup(prev, c).Some?
  {
    forall a | a in Contents(prev) ensures |a| == k && Increasing(a) {
      LookupContents(prev, a);
    }
    forall c | KSubset(c, s, k) ensures Lookup(prev, c).Some? {
      SupportAntiMonotone(c, s, transactions);
    }
    SplitJoin(s);
    var a := s[..k];
    var b := s[..k - 1] + [s[k]];
    LookupContents(prev, a);
    LookupContents(prev, b);
    Joining.InJoinAll(Contents(prev), k, a, b);
  }

  /** The items of a join are items of the two itemsets joined. */
  lemma JoinInAlphabet(c: set<seq<int>>, k: int, s: seq<int>, alphabet: set<int>)
    requires k >= 1 && forall a :: a in c ==> |a| == k && Increasing(a)
    requires forall a :: a in c ==> Elements(a) <= alphabet
    requires s in Joining.JoinAll(c, k)
    ensures Elements(s) <= alphabet
  {
    var a, b :| a in c && b in c && a != b && Joining.Joinable(a, b) && s == Joining.Join(a, b);
    assert b[|b| - 1] in Elements(b);
  }

  /**
   * One round of the loop, with the candidates pruned against the previous level: join, prune,
   * count, trim.
   */
  method NextLevel(prev: HashTree, k: int, transactions: seq<seq<int>>, cfg: Config) returns (r: HashTree)
    requires WellFormed(transactions) && Level(prev, k, transactions, cfg) && k >= 1
    ensures Level(r, k + 1, transactions, cfg)
  {
    var candidates := Joining.GenerateNextCandidateTree(prev);
    var pruned := Prune(candidates, prev);
    var counted := CountCandidates(pruned.value, transactions);
    r := RemoveNoMinSupport(counted).0;
    NextLevelIsLevel(prev, k, transactions, cfg, candidates, r);
  }

  /** The tree one round makes from the candidates. */
  function Round(candidates: HashTree, prev: HashTree, transactions: seq<seq<int>>): (r: HashTree)
    requires Valid(candidates) && Valid(prev) && prev.cfg.k == candidates.cfg.k - 1 && WellFormed(transactions)
    ensures Valid(r) && r.cfg == candidates.cfg && Compact(r.root)
  {
    RemoveNoMinSupport(CountCandidates(Prune(candidates, prev).value, transactions)).0
  }

  /** After a round a (k+1)-itemset is kept, with its support, exactly when it is a candidate all of whose k-itemsets were kept and it has the minimum support. */
  lemma RoundLookup(candidates: HashTree, prev: HashTree, transactions: seq<seq<int>>, s: seq<int>)
    requires Valid(candidates) && Valid(prev) && prev.cfg.k == candidates.cfg.k - 1 && WellFormed(transactions)
    requires forall x :: x in Contents(candidates) ==> Lookup(candidates, x) == Some(0)
    ensures Lookup(Round(candidates, prev, transactions), s) ==
      if s in Contents(candidates) && (forall c :: KSubset(c, s, prev.cfg.k) ==> Lookup(prev, c).Some?)
        && Support(s, transactions) >= candidates.cfg.minSupport
      then Some(Support(s, transactions)) else None
  {
    var pruned := Prune(candidates, prev).value;
    var counted := CountCandidates(pruned, transactions);
    PruneLookup(candidates, prev, s);
    RemoveLookup(counted, s);
    LookupContents(candidates, s);
    LookupContents(pruned, s);
    if s in Contents(pruned) {
      StoredShape(pruned.cfg, pruned.root, 0, s);
      CountCandidatesLookup(pruned, transactions, s);
    } else {
      LookupContents(counted, s);
    }
  }

  /** A round that prunes with `areAllSubsetsFrequent` as written, passing over empty child slots. */
  function RoundAsWritten(candidates: HashTree, prev: HashTree, transactions: seq<seq<int>>): (r: HashTree)
    requires Valid(candidates) && Valid(prev) && prev.cfg.k == candidates.cfg.k - 1 && WellFormed(transactions)
    ensures Valid(r) && r.cfg == candidates.cfg && Compact(r.root)
  {
    RemoveNoMinSupport(CountCandidates(PruneAsWritten(candidates, prev).value, transactions)).0
  }

  /**
   * Against a correct level k with a positive minimum support, the round as written ends with the
   * same itemsets and counts as the corrected round: a candidate that keeps a missing k-itemset
   * past the prune is less frequent than that k-itemset, so the support filter removes it.
   */
  lemma RoundAsWrittenAgrees(candidates: HashTree, prev: HashTree, k: int, transactions: seq<seq<int>>, cfg: Config, s: seq<int>)
    requires WellFormed(transactions) && Level(prev, k, transactions, cfg) && cfg.minSupport >= 1
    requires Valid(candidates) && candidates.cfg == cfg.(k := k + 1)
    requires forall x :: x in Contents(candidates) ==> Lookup(candidates, x) == Some(0)
    ensures Lookup(RoundAsWritten(candidates, prev, transactions), s) == Lookup(Round(candidates, prev, transactions), s)
  {
    var pw := PruneAsWritten(candidates, prev).value;
    PruneAsWrittenLookup(candidates, prev, s);
    if Lookup(pw, s).Some? {
      RoundAsWrittenKept(candidates, prev, k, transactions, cfg, s);
    } else {
      RoundAsWrittenDropped(candidates, prev, transactions, s);
    }
  }

  /** A candidate the prune as written keeps ends with the corrected round's outcome. */
  lemma RoundAsWrittenKept(candidates: HashTree, prev: HashTree, k: int, transactions: seq<seq<int>>, cfg: Config, s: seq<int>)
    requires WellFormed(transactions) && Level(prev, k, transactions, cfg) && cfg.minSupport >= 1
    requires Valid(candidates) && candidates.cfg == cfg.(k := k + 1)
    requires forall x :: x in Contents(candidates) ==> Lookup(candidates, x) == Some(0)
    requires Lookup(PruneAsWritten(candidates, prev).value, s).Some?
    ensures Lookup(RoundAsWritten(candidates, prev, transactions), s) == Lookup(Round(candidates, prev, transactions), s)
  {
    KeptRoundValue(candidates, prev, transactions, s);
    RoundLookup(candidates, prev, transactions, s);
    if !(forall c :: KSubset(c, s, k) ==> Lookup(prev, c).Some?) {
      MissingSubsetInfrequent(prev, k, transactions, cfg, s);
    }
  }

  /** A candidate the prune as written keeps is counted and then filtered by its support alone. */
  lemma KeptRoundValue(candidates: HashTree, prev: HashTree, transactions: seq<seq<int>>, s: seq<int>)
    requires Valid(candidates) && Valid(prev) && prev.cfg.k == candidates.cfg.k - 1 && WellFormed(transactions)
    requires forall x :: x in Contents(candidates) ==> Lookup(candidates, x) == Some(0)
    requires Lookup(PruneAsWritten(candidates, prev).value, s).Some?
    ensures s in Contents(candidates)
    ensures Lookup(RoundAsWritten(candidates, prev, transactions), s) ==
      if Support(s, transactions) >= candidates.cfg.minSupport then Some(Support(s, transactions)) else None
  {
    var pw := PruneAsWritten(candidates, prev).value;
    var counted := CountCandidates(pw, transactions);
    PruneAsWrittenLookup(candidates, prev, s);
    LookupContents(candidates, s);
    LookupContents(pw, s);
    StoredShape(pw.cfg, pw.root, 0, s);
    CountCandidatesLookup(pw, transactions, s);
    RemoveLookup(counted, s);
  }

  /** A k-itemset missing from a correct level bounds the support of every itemset containing it below the minimum. */
  lemma MissingSubsetInfrequent(prev: HashTree, k: int, transactions: seq<seq<int>>, cfg: Config, s: seq<int>)
    requires Level(prev, k, transactions, cfg) && cfg.minSupport >= 1
    requires !(forall c :: KSubset(c, s, k) ==> Lookup(prev, c).Some?)
    ensures Support(s, transactions) < cfg.minSupport
  {
    var c :| KSubset(c, s, k) && Lookup(prev, c).None?;
    SupportAntiMonotone(c, s, transactions);
  }

  /** A candidate the prune as written drops is missing after both rounds. */
  lemma RoundAsWrittenDropped(candidates: HashTree, prev: HashTree, transactions: seq<seq<int>>, s: seq<int>)
    requires Valid(candidates) && Valid(prev) && prev.cfg.k == candidates.cfg.k - 1 && WellFormed(transactions)
    requires Lookup(PruneAsWritten(candidates, prev).value, s).None?
    ensures Lookup(RoundAsWritten(candidates, prev, transactions), s) == None
    ensures Lookup(Round(candidates, prev, transactions), s) == None
  {
    var pw := PruneAsWritten(candidates, prev).value;
    var p := Prune(candidates, prev).value;
    PruneAsWrittenLookup(candidates, prev, s);
    PruneLookup(candidates, prev, s);
    var cw := CountCandidates(pw, transactions);
    var c := CountCandidates(p, transactions);
    LookupContents(pw, s);
    LookupContents(cw, s);
    RemoveLookup(cw, s);
    LookupContents(p, s);
    LookupContents(c, s);
    RemoveLookup(c, s);
  }

  lemma NextLevelIsLevel(prev: HashTree, k: int, transactions: seq<seq<int>>, cfg: Config, candidates: HashTree, r: HashTree)
    requires WellFormed(transactions) && Level(prev, k, transactions, cfg) && k >= 1
    requires Valid(candidates) && candidates.cfg == prev.cfg.(k := k + 1)
    requires forall a :: a in Contents(prev) ==> |a| == k && Increasing(a)
    requires Contents(candidates) == Joining.JoinAll(Contents(prev), k)
    requires forall x :: x in Contents(candidates) ==> Lookup(candidates, x) == Some(0)
    requires Bounds.TreeBounded(candidates)
    requires r == Round(candidates, prev, transactions)
    ensures Level(r, k + 1, transactions, cfg)
  {
    var pruned := Prune(candidates, prev).value;
    var counted := CountCandidates(pruned, transactions);
    Bounds.TrimBounded(candidates, prev);
    Bounds.CountCandidatesBounded(pruned, transactions);
    Bounds.TrimBounded(counted, prev);
    forall s ensures Lookup(r, s).Some? ==>
      |s| == k + 1 && Increasing(s) && Lookup(r, s).value == Support(s, transactions) && Support(s, transactions) >= cfg.minSupport
    {
      RoundLookup(candidates, prev, transactions, s);
      if s in Contents(candidates) {
        StoredShape(candidates.cfg, candidates.root, 0, s);
      }
    }
    forall s | |s| == k + 1 && Frequent(s, transactions, cfg.minSupport) ensures Lookup(r, s) == Some(Support(s, transactions)) {
      FrequentIsCandidate(prev, k, transactions, cfg, s);
      RoundLookup(candidates, prev, transactions, s);
    }
    forall s | s in Contents(r) ensures Elements(s) <= Alphabet(transactions) {
      LookupContents(r, s);
      RoundLookup(candidates, prev, transactions, s);
      JoinInAlphabet(Contents(prev), k, s, Alphabet(transactions));
    }
  }

  /** No sorted itemset at least as long as the first empty level is frequent. */
  lemma NothingLonger(t: HashTree, n: int, transactions: seq<seq<int>>, cfg: Config, s: seq<int>)
    requires Level(t, n, transactions, cfg) && n >= 1 && Contents(t) == {}
    requires Increasing(s) && |s| >= n
    ensures !Frequent(s, transactions, cfg.minSupport)
  {
    if Frequent(s, transactions, cfg.minSupport) {
      var p := s[..n];
      assert SubsetOf(p, s);
      SupportAntiMonotone(p, s, transactions);
      assert Frequent(p, transactions, cfg.minSupport);
      LookupContents(t, p);
      assert false;
    }
  }

  /**
   * The trees the constructor keeps: one per level from 1 on, each a level as above, and every
   * one but the last holding something.
   */
  ghost predicate Mined(levels: seq<HashTree>, transactions: seq<seq<int>>, cfg: Config) {
    |levels| >= 1 &&
    (forall i :: 0 <= i < |levels| ==> Level(levels[i], i + 1, transactions, cfg)) &&
    (forall i :: 0 <= i < |levels| - 1 ==> Contents(levels[i]) != {})
  }

  /** A further level after a last level that holds something keeps the list mined. */
  lemma MinedExtend(levels: seq<HashTree>, transactions: seq<seq<int>>, cfg: Config, t: HashTree)
    requires Mined(levels, transactions, cfg) && Contents(levels[|levels| - 1]) != {}
    requires Level(t, |levels| + 1, transactions, cfg)
    ensures Mined(levels + [t], transactions, cfg)
  {
  }

  /**
   * The constructor, with each candidate tree pruned against the previous level: one tree per
   * level from 1 on, each holding the frequent itemsets of its length with their supports; every
   * level but the last holds something, the last holds nothing, and nothing longer is frequent.
   */
  method Run(transactions: seq<seq<int>>, absoluteMinSupport: int, childrenPerNode: int, maxBucketSize: int)
    returns (levels: seq<HashTree>)
    requires WellFormed(transactions) && childrenPerNode >= 1
    ensures Mined(levels, transactions, Config(1, absoluteMinSupport, maxBucketSize, childrenPerNode))
    ensures Contents(levels[|levels| - 1]) == {}
    ensures forall s :: Increasing(s) && |s| >= |levels| ==> !Frequent(s, transactions, absoluteMinSupport)
  {
    var cfg := Config(1, absoluteMinSupport, maxBucketSize, childrenPerNode);
    var t := FirstLevel(transactions, cfg);
    FirstLevelIsLevel(transactions, cfg);
    levels := [t];
    while !IsEmpty(t)
      invariant |levels| >= 1 && t == levels[|levels| - 1]
      invariant Level(t, |levels|, transactions, cfg)
      invariant Mined(levels, transactions, cfg)
      decreases |Alphabet(transactions)| + 1 - |levels|
    {
      LevelBound(t, |levels|, transactions, cfg);
      var next := NextLevel(t, |levels|, transactions, cfg);
      MinedExtend(levels, transactions, cfg, next);
      t := next;
      levels := levels + [t];
    }
    forall s | Increasing(s) && |s| >= |levels| ensures !Frequent(s, transactions, absoluteMinSupport) {
      NothingLonger(t, |levels|, transactions, cfg, s);
    }
  }

  /**
   * The `Apriori` constructor as written: it prunes each candidate tree against itself, which
   * always throws. So it completes only when no item is frequent.
   */
  method RunAsWritten(transactions: seq<seq<int>>, absoluteMinSupport: int, childrenPerNode: int, maxBucketSize: int)
    returns (r: Result<seq<HashTree>>)
    requires WellFormed(transactions) && childrenPerNode >= 1
    ensures r.Success? <==> forall x :: !Frequent([x], transactions, absoluteMinSupport)
    ensures r.Failure? ==> r.error == IllegalArgument(PruneMessage(2, 2))
    ensures r.Success? ==> |r.value| == 1 && ByLength(r.value) && Contents(r.value[0]) == {}
  {
    var cfg := Config(1, absoluteMinSupport, maxBucketSize, childrenPerNode);
    var t := FirstLevel(transactions, cfg);
    FirstLevelEmptyIff(transactions, cfg);
    if IsEmpty(t) {
      r := Success([t]);
    } else {
      var candidates := Joining.GenerateNextCandidateTree(t);
      var pruned := Prune(candidates, candidates);
      r := Failure(pruned.error);
    }
  }

  /** Level 1 comes out empty exactly when no single item is frequent. */
  lemma FirstLevelEmptyIff(transactions: seq<seq<int>>, cfg: Config)
    requires WellFormed(transactions) && cfg.numChildren >= 1
    ensures Valid(FirstLevel(transactions, cfg))
    ensures IsEmpty(FirstLevel(transactions, cfg)) <==> forall x :: !Frequent([x], transactions, cfg.minSupport)
  {
    var t := FirstLevel(transactions, cfg);
    if IsEmpty(t) {
      forall x ensures !Frequent([x], transactions, cfg.minSupport) {
        FirstLevelMissing(transactions, cfg, x);
      }
    } else {
      FirstLevelWitness(transactions, cfg);
    }
  }

  lemma FirstLevelMissing(transactions: seq<seq<int>>, cfg: Config, x: int)
    requires WellFormed(transactions) && cfg.numChildren >= 1 && IsEmpty(FirstLevel(transactions, cfg))
    ensures !Frequent([x], transactions, cfg.minSupport)
  {
    FirstLevelLookup(transactions, cfg, [x]);
    LookupContents(FirstLevel(transactions, cfg), [x]);
  }

  lemma FirstLevelWitness(transactions: seq<seq<int>>, cfg: Config)
    requires WellFormed(transactions) && cfg.numChildren >= 1 && !IsEmpty(FirstLevel(transactions, cfg))
    ensures exists x :: Frequent([x], transactions, cfg.minSupport)
  {
    var s := SomeMember(FirstLevel(transactions, cfg));
    FirstLevelMember(transactions, cfg, s);
    SingletonWitness(s, transactions, cfg.minSupport);
  }

  lemma SomeMember(t: HashTree) returns (s: seq<int>)
    requires Valid(t) && Compact(t.root) && !IsEmpty(t)
    ensures s in Contents(t)
  {
    s :| s in Contents(t);
  }

  lemma SingletonWitness(s: seq<int>, transactions: seq<seq<int>>, minSupport: int)
    requires |s| == 1 && Frequent(s, transactions, minSupport)
    ensures exists x :: Frequent([x], transactions, minSupport)
  {
    var x := s[0];
    assert [x] == s;
  }

  lemma FirstLevelMember(transactions: seq<seq<int>>, cfg: Config, s: seq<int>)
    requires WellFormed(transactions) && cfg.numChildren >= 1 && s in Contents(FirstLevel(transactions, cfg))
    ensures |s| == 1 && Frequent(s, transactions, cfg.minSupport)
  {
    LookupContents(FirstLevel(transactions, cfg), s);
    FirstLevelLookup(transactions, cfg, s);
  }

  /** `getFrequentKItemSets`: the k-th tree's itemsets; an index outside the list throws. */
  method GetFrequentKItemSets(levels: seq<HashTree>, k: int) returns (r: Result<seq<ItemSet>>)
    requires forall i :: 0 <= i < |levels| ==> Valid(levels[i])
    ensures r.Success? <==> 1 <= k <= |levels|
    ensures r.Failure? ==> r.error == IndexOutOfBounds(k - 1, |levels|)
    ensures r.Success? ==>
      Enumeration.ItemsOf(r.value) == Contents(levels[k - 1]) && Enumeration.Distinct(r.value) &&
      forall i :: 0 <= i < |r.value| ==> Lookup(levels[k - 1], r.value[i].items) == Some(r.value[i].frequency)
  {
    if 1 <= k <= |levels| {
      var items := HashTrees.ToArray(levels[k - 1]);
      r := Success(items);
    } else {
      r := Failure(IndexOutOfBounds(k - 1, |levels|));
    }
  }

  /** The listing of a mined level names exactly the frequent k-itemsets, each with its support. */
  lemma ListingIsFrequent(t: HashTree, k: int, transactions: seq<seq<int>>, cfg: Config, r: seq<ItemSet>)
    requires Level(t, k, transactions, cfg) && cfg.minSupport >= 1
    requires Enumeration.ItemsOf(r) == Contents(t)
    requires forall i :: 0 <= i < |r| ==> Lookup(t, r[i].items) == Some(r[i].frequency)
    ensures forall s :: s in Enumeration.ItemsOf(r) <==> |s| == k && Frequent(s, transactions, cfg.minSupport)
    ensures forall i :: 0 <= i < |r| ==> r[i].frequency == Support(r[i].items, transactions)
  {
    forall s ensures s in Enumeration.ItemsOf(r) <==> |s| == k && Frequent(s, transactions, cfg.minSupport) {
      LevelExact(t, k, transactions, cfg, s);
      LookupContents(t, s);
    }
  }

  /** Everything the trees hold. */
  function AllContents(levels: seq<HashTree>): set<seq<int>>
    decreases |levels|
  {
    if |levels| == 0 then {} else AllContents(levels[..|levels| - 1]) + Contents(levels[|levels| - 1])
  }

  /** An itemset is held by the list of trees exactly when one of the trees holds it. */
  lemma {:induction false} AllContentsIff(levels: seq<HashTree>, s: seq<int>)
    ensures s in AllContents(levels) <==> exists i :: 0 <= i < |levels| && s in Contents(levels[i])
    decreases |levels|
  {
    if |levels| > 0 {
      var init := levels[..|levels| - 1];
      AllContentsIff(init, s);
      if s in AllContents(init) {
        var i :| 0 <= i < |init| && s in Contents(init[i]);
        assert levels[i] == init[i];
      }
      if exists i :: 0 <= i < |levels| && s in Contents(levels[i]) {
        var i :| 0 <= i < |levels| && s in Contents(levels[i]);
        if i < |levels| - 1 {
          assert init[i] == levels[i];
        }
      }
    }
  }

  /** The trees hold itemsets of lengths 1, 2, ... in order, as the constructor lays them out. */
  predicate ByLength(levels: seq<HashTree>) {
    forall i :: 0 <= i < |levels| ==> Valid(levels[i]) && levels[i].cfg.k == i + 1
  }

  /** A listing whose itemsets never get shorter: all 1-itemsets first, then the 2-itemsets, and so on. */
  predicate LengthOrdered(r: seq<ItemSet>) {
    forall p, q :: 0 <= p < q < |r| ==> |r[p].items| <= |r[q].items|
  }

  /** One of the first `n` trees holds the listed itemset with the listed count. */
  predicate CountedIn(levels: seq<HashTree>, n: int, x: ItemSet)
    requires 0 <= n <= |levels| && forall i :: 0 <= i < |levels| ==> Valid(levels[i])
  {
    exists i :: 0 <= i < n && Lookup(levels[i], x.items) == Some(x.frequency)
  }

  /** `getAllFrequentItemSets`: the listings of the trees, one after the other. */
  method GetAllFrequentItemSets(levels: seq<HashTree>) returns (r: seq<ItemSet>)
    requires forall i :: 0 <= i < |levels| ==> Valid(levels[i])
    ensures Enumeration.ItemsOf(r) == AllContents(levels)
    ensures forall p :: 0 <= p < |r| ==> CountedIn(levels, |levels|, r[p])
    ensures ByLength(levels) ==> Enumeration.Distinct(r) && LengthOrdered(r)
  {
    r := [];
    var idx := 0;
    while idx < |levels|
      invariant 0 <= idx <= |levels|
      invariant Enumeration.ItemsOf(r) == AllContents(levels[..idx])
      invariant forall p :: 0 <= p < |r| ==> CountedIn(levels, idx, r[p])
      invariant ByLength(levels) ==> Enumeration.Distinct(r) && LengthOrdered(r) && forall p :: 0 <= p < |r| ==> |r[p].items| <= idx
    {
      var sub := HashTrees.ToArray(levels[idx]);
      AppendLevel(levels, idx, r, sub);
      r := r + sub;
      idx := idx + 1;
    }
    assert levels[..idx] == levels;
  }

  /** Appending the listing of tree `idx` extends the listing of the trees before it. */
  lemma AppendLevel(levels: seq<HashTree>, idx: int, r: seq<ItemSet>, sub: seq<ItemSet>)
    requires forall i :: 0 <= i < |levels| ==> Valid(levels[i])
    requires 0 <= idx < |levels|
    requires Enumeration.ItemsOf(r) == AllContents(levels[..idx])
    requires forall p :: 0 <= p < |r| ==> CountedIn(levels, idx, r[p])
    requires ByLength(levels) ==> Enumeration.Distinct(r) && LengthOrdered(r) && forall p :: 0 <= p < |r| ==> |r[p].items| <= idx
    requires Enumeration.ItemsOf(sub) == Contents(levels[idx]) && Enumeration.Distinct(sub)
    requires forall i :: 0 <= i < |sub| ==> Lookup(levels[idx], sub[i].items) == Some(sub[i].frequency)
    ensures Enumeration.ItemsOf(r + sub) == AllContents(levels[..idx + 1])
    ensures forall p :: 0 <= p < |r + sub| ==> CountedIn(levels, idx + 1, (r + sub)[p])
    ensures ByLength(levels) ==> Enumeration.Distinct(r + sub) && LengthOrdered(r + sub)
    ensures ByLength(levels) ==> forall p :: 0 <= p < |r + sub| ==> |(r + sub)[p].items| <= idx + 1
  {
    Enumeration.ItemsOfConcat(r, sub);
    assert levels[..idx + 1][..idx] == levels[..idx];
    forall p | 0 <= p < |r + sub| ensures CountedIn(levels, idx + 1, (r + sub)[p]) {
      if p >= |r| {
        assert Lookup(levels[idx], sub[p - |r|].items) == Some(sub[p - |r|].frequency);
      } else {
        assert CountedIn(levels, idx, r[p]);
        var i :| 0 <= i < idx && Lookup(levels[i], r[p].items) == Some(r[p].frequency);
      }
    }
    if ByLength(levels) {
      forall q | 0 <= q < |sub| ensures |sub[q].items| == idx + 1 {
        assert sub[q].items in Enumeration.ItemsOf(sub);
        StoredShape(levels[idx].cfg, levels[idx].root, 0, sub[q].items);
      }
      forall a, c | 0 <= a < c < |r + sub| ensures (r + sub)[a].items != (r + sub)[c].items {
        if a < |r| && c >= |r| {
          assert |(r + sub)[a].items| <= idx;
        }
      }
      forall a, c | 0 <= a < c < |r + sub| ensures |(r + sub)[a].items| <= |(r + sub)[c].items| {
        if c >= |r| {
          assert |(r + sub)[c].items| == idx + 1;
          if a < |r| {
            assert |(r + sub)[a].items| <= idx;
          }
        }
      }
    }
  }
}

=== FILE: bounds.dfy ===
/**
 * The bucket limit: a bucket above depth k never holds more itemsets than `maxBucketSize`. Only a
 * bucket at depth k, where every itemset is complete, takes itemsets without looking at the limit.
 */
module Bounds {
  import opened Outcomes
  import opened ItemSets
  import opened Combinations
  import opened Nodes
  import opened Insertion
  import Trimming
  import Counting
  import opened HashTrees

  /** Every bucket above depth k is empty or within the limit. */
  predicate Bounded(cfg: Config, node: Node, level: nat) {
    match node
    case Bucket(b) => level < cfg.k ==> |b| == 0 || |b| <= cfg.maxBucketSize
    case Hash(ch) => forall j :: 0 <= j < |ch| && ch[j].Some? ==> Bounded(cfg, ch[j].value, level + 1)
  }

  /** Putting a set of itemsets grows a bucket by at most their number. */
  lemma PutAllCard(b: map<seq<int>, nat>, items: set<seq<int>>)
    ensures |PutAll(b, items)| <= |b| + |items|
  {
    assert PutAll(b, items).Keys == b.Keys + items;
  }

  /** A part of a bucket is no larger than the bucket. */
  lemma PartCard(cfg: Config, b: map<seq<int>, nat>, level: nat, j: int)
    requires ValidConfig(cfg) && forall s :: s in b ==> |s| > level
    ensures Part(cfg, b, level, j).Some? ==> |Part(cfg, b, level, j).value.bucket| <= |b|
  {
    var p := Part(cfg, b, level, j);
    if p.Some? {
      SubsetCard(p.value.bucket.Keys, b.Keys);
    }
  }

  /** Converting a bucket within the limit spreads it over child buckets within the limit. */
  lemma ConvertBounded(cfg: Config, b: map<seq<int>, nat>, level: nat)
    requires ValidConfig(cfg) && forall s :: s in b ==> |s| > level
    requires |b| == 0 || |b| <= cfg.maxBucketSize
    ensures Bounded(cfg, Convert(cfg, b, level), level)
  {
    var ch := Convert(cfg, b, level).children;
    forall j | 0 <= j < |ch| && ch[j].Some? ensures Bounded(cfg, ch[j].value, level + 1) {
      assert ch[j] == Part(cfg, b, level, j);
      PartCard(cfg, b, level, j);
    }
  }

  /** `add` keeps every bucket above depth k within the limit. */
  lemma {:induction false} AddAtBounded(cfg: Config, node: Node, chosen: seq<int>, remaining: seq<int>)
    requires ValidConfig(cfg) && Wf(cfg, node, |chosen|) && |chosen| <= cfg.k
    requires node.Bucket? ==> |chosen| + |remaining| >= cfg.k
    requires Increasing(chosen + remaining)
    requires Bounded(cfg, node, |chosen|)
    ensures Bounded(cfg, AddAt(cfg, node, chosen, remaining), |chosen|)
    decreases cfg.k - |chosen|, 1, 0
  {
    match node
    case Bucket(b) =>
      if |chosen| < cfg.k {
        var extra := FinalItemSets(chosen, remaining, cfg.k);
        if |b| + |extra| <= cfg.maxBucketSize {
          FitsBranch(cfg, b, chosen, remaining);
          PutAllCard(b, extra);
        } else {
          OverflowBranch(cfg, b, chosen, remaining);
          OverflowBounded(cfg, b, chosen, remaining);
        }
      }
    case Hash(ch) =>
      assert AddAt(cfg, node, chosen, remaining) == Hash(AddToChildren(cfg, ch, chosen, remaining, 0));
      AddToChildrenBounded(cfg, ch, chosen, remaining, 0);
  }

  lemma {:induction false} OverflowBounded(cfg: Config, b: map<seq<int>, nat>, chosen: seq<int>, remaining: seq<int>)
    requires ValidConfig(cfg) && Wf(cfg, Bucket(b), |chosen|) && |chosen| < cfg.k
    requires Increasing(chosen + remaining)
    requires |b| == 0 || |b| <= cfg.maxBucketSize
    ensures Bounded(cfg, Overflow(cfg, b, chosen, remaining), |chosen|)
    decreases cfg.k - |chosen|, 0, |remaining| + 1
  {
    ConvertWf(cfg, b, |chosen|);
    ConvertBounded(cfg, b, |chosen|);
    var h := Convert(cfg, b, |chosen|);
    AddToChildrenBounded(cfg, h.children, chosen, remaining, 0);
  }

  lemma {:induction false} AddToChildrenBounded(cfg: Config, ch: seq<Option<Node>>, chosen: seq<int>, remaining: seq<int>, i: nat)
    requires ValidConfig(cfg) && Wf(cfg, Hash(ch), |chosen|)
    requires Increasing(chosen + remaining) && i <= |remaining|
    requires Bounded(cfg, Hash(ch), |chosen|)
    ensures Bounded(cfg, Hash(AddToChildren(cfg, ch, chosen, remaining, i)), |chosen|)
    decreases cfg.k - |chosen|, 0, |remaining| - i
  {
    var next := NextCombinations(chosen, remaining, cfg.k);
    RemainingSorted(chosen, remaining);
    IncreasingSuffix(remaining, i);
    if i < |next| {
      AddToChildBounded(cfg, ch, chosen, remaining, i);
      AddToChildrenBounded(cfg, AddToChild(cfg, ch, chosen, remaining, i), chosen, remaining, i + 1);
    }
  }

  lemma {:induction false} AddToChildBounded(cfg: Config, ch: seq<Option<Node>>, chosen: seq<int>, remaining: seq<int>, i: nat)
    requires ValidConfig(cfg) && Wf(cfg, Hash(ch), |chosen|) && Increasing(chosen + remaining)
    requires i < |NextCombinations(chosen, remaining, cfg.k)|
    requires Bounded(cfg, Hash(ch), |chosen|)
    ensures Bounded(cfg, Hash(AddToChild(cfg, ch, chosen, remaining, i)), |chosen|)
    decreases cfg.k - |chosen|, 0, |remaining| - i - 1
  {
    var c := NextCombinations(chosen, remaining, cfg.k)[i];
    var j := Slot(c.chosen[|c.chosen| - 1], cfg.numChildren);
    var child := if ch[j].Some? then ch[j].value else Bucket(map[]);
    NextSorted(chosen, remaining, cfg.k, i);
    var added := AddAt(cfg, child, c.chosen, c.remaining);
    assert AddToChild(cfg, ch, chosen, remaining, i) == ch[j := Some(added)];
    AddAtBounded(cfg, child, c.chosen, c.remaining);
    ReplaceBounded(cfg, ch, |chosen|, j, added);
  }

  /** Replacing one child by a bounded subtree keeps a hash node bounded. */
  lemma ReplaceBounded(cfg: Config, ch: seq<Option<Node>>, level: nat, j: int, x: Node)
    requires Bounded(cfg, Hash(ch), level) && Bounded(cfg, x, level + 1) && 0 <= j < |ch|
    ensures Bounded(cfg, Hash(ch[j := Some(x)]), level)
  {
    var ch' := ch[j := Some(x)];
    forall m | 0 <= m < |ch'| && ch'[m].Some? ensures Bounded(cfg, ch'[m].value, level + 1) {
      if m != j {
        assert ch'[m] == ch[m];
      }
    }
  }

  /** Filtering only ever removes itemsets, so it keeps every bucket within the limit. */
  lemma {:induction false} FilterBounded(cfg: Config, node: Node, level: nat, keep: (seq<int>, nat) -> bool)
    requires Bounded(cfg, node, level)
    ensures Bounded(cfg, Trimming.Filter(node, keep).0, level)
    decreases node
  {
    match node
    case Bucket(b) =>
      var kept := Trimming.Filter(node, keep).0.bucket;
      SubsetCard(kept.Keys, b.Keys);
    case Hash(ch) =>
      var ch' := Trimming.Filter(node, keep).0.children;
      forall j | 0 <= j < |ch'| && ch'[j].Some? ensures Bounded(cfg, ch'[j].value, level + 1) {
        FilterBounded(cfg, ch[j].value, level + 1, keep);
      }
  }

  /** Two subtrees of one shape hold buckets of the same sizes, so one is bounded when the other is. */
  lemma {:induction false} SkeletonBounded(cfg: Config, a: Node, b: Node, level: nat)
    requires Counting.Skeleton(a) == Counting.Skeleton(b) && Bounded(cfg, a, level)
    ensures Bounded(cfg, b, level)
    decreases b
  {
    match b
    case Bucket(mb) =>
      assert Counting.Skeleton(a).bucket.Keys == a.bucket.Keys;
      assert Counting.Skeleton(b).bucket.Keys == mb.Keys;
    case Hash(ch) =>
      var ca := a.children;
      forall j | 0 <= j < |ch| && ch[j].Some? ensures Bounded(cfg, ch[j].value, level + 1) {
        assert Counting.Skeleton(a).children[j] == Counting.Skeleton(b).children[j];
        SkeletonBounded(cfg, ca[j].value, ch[j].value, level + 1);
      }
  }

  /** The tree's buckets above depth k are within the limit. */
  predicate TreeBounded(t: HashTree) {
    Bounded(t.cfg, t.root, 0)
  }

  /** A new tree is bounded: its root has no children. */
  lemma NewBounded(k: int, minSupport: int, maxBucketSize: int, numChildren: int)
    requires k >= 1 && numChildren >= 1
    ensures TreeBounded(New(k, minSupport, maxBucketSize, numChildren))
  {
  }

  /** `add` keeps the tree bounded. */
  lemma AddBounded(t: HashTree, items: seq<int>)
    requires Valid(t) && Increasing(items) && TreeBounded(t)
    ensures TreeBounded(HashTrees.Add(t, items))
  {
    if |items| >= t.cfg.k {
      assert [] + items == items;
      AddAtBounded(t.cfg, t.root, [], items);
    }
  }

  /** `addAll` keeps the tree bounded. */
  lemma {:induction false} AddAllBounded(t: HashTree, sets: seq<seq<int>>)
    requires Valid(t) && (forall i :: 0 <= i < |sets| ==> Increasing(sets[i])) && TreeBounded(t)
    ensures TreeBounded(AddAll(t, sets))
    decreases |sets|
  {
    if |sets| > 0 {
      AddBounded(t, sets[0]);
      AddAllBounded(HashTrees.Add(t, sets[0]), sets[1..]);
    }
  }

  /** `countCandidates` changes no shape, so it keeps the tree bounded. */
  lemma {:induction false} CountCandidatesBounded(t: HashTree, transactions: seq<seq<int>>)
    requires Valid(t) && (forall i :: 0 <= i < |transactions| ==> Increasing(transactions[i])) && TreeBounded(t)
    ensures TreeBounded(CountCandidates(t, transactions))
    decreases |transactions|
  {
    if |transactions| > 0 {
      var x := transactions[0];
      if |x| >= t.cfg.k {
        assert [] + x == x;
        Counting.CountAtShape(t.cfg, t.root, [], x);
        SkeletonBounded(t.cfg, t.root, Counting.CountAt(t.cfg, t.root, [], x), 0);
      }
      CountCandidatesBounded(CountTransaction(t, x), transactions[1..]);
    }
  }

  /** `incFrequencies` keeps the tree bounded. */
  lemma IncFrequenciesBounded(t: HashTree)
    requires Valid(t) && TreeBounded(t)
    ensures TreeBounded(IncFrequencies(t))
  {
    SkeletonBounded(t.cfg, t.root, IncFrequencies(t).root, 0);
  }

  /** `removeNoMinSupport` and a successful `prune` keep the tree bounded. */
  lemma TrimBounded(t: HashTree, previous: HashTree)
    requires Valid(t) && Valid(previous) && TreeBounded(t)
    ensures TreeBounded(RemoveNoMinSupport(t).0)
    ensures Prune(t, previous).Success? ==> TreeBounded(Prune(t, previous).value)
  {
    RemoveBounded(t);
    if previous.cfg.k == t.cfg.k - 1 {
      PruneBounded(t, previous);
    }
  }

  lemma RemoveBounded(t: HashTree)
    requires Valid(t) && TreeBounded(t)
    ensures TreeBounded(RemoveNoMinSupport(t).0)
  {
    var ms := t.cfg.minSupport;
    FilterBounded(t.cfg, t.root, 0, (s, n) => n >= ms);
  }

  lemma PruneBounded(t: HashTree, previous: HashTree)
    requires Valid(t) && Valid(previous) && TreeBounded(t) && previous.cfg.k == t.cfg.k - 1
    ensures Prune(t, previous).Success? && TreeBounded(Prune(t, previous).value)
  {
    FilterBounded(t.cfg, t.root, 0, (s, n) => Increasing(s) && AreAllSubsetsFrequent(previous, s));
  }
}

=== FILE: combinations.dfy ===
/** Choosing the k-itemsets contained in a sorted itemset, one item at a time, as the hash-tree nodes do. */
module Combinations {
  import opened ItemSets

  /** The binomial coefficient C(n, r), by Pascal's rule. */
  function Choose(n: nat, r: nat): nat {
    if r == 0 then 1 else if n == 0 then 0 else Choose(n - 1, r - 1) + Choose(n - 1, r)
  }

  /** A partly built itemset: the items chosen so far, and the items still available for the rest. */
  datatype Combination = Combination(chosen: seq<int>, remaining: seq<int>)

  /**
   * `generateNextCombinations`: one combination per item that can still be picked next, namely
   * every remaining item that leaves enough larger items behind it to complete a k-itemset.
   */
  function NextCombinations(chosen: seq<int>, remaining: seq<int>, k: int): seq<Combination>
    requires |chosen| < k
  {
    var count := |remaining| - (k - |chosen|) + 1;
    if count <= 0 then []
    else seq(count, i requires 0 <= i < count => Combination(chosen + [remaining[i]], remaining[i + 1..]))
  }

  /** `generateFinalItemSets`: every k-itemset made of `chosen` followed by items of `remaining`. */
  function FinalItemSets(chosen: seq<int>, remaining: seq<int>, k: int): set<seq<int>>
    requires |chosen| <= k
    decreases k - |chosen|, 1, 0
  {
    if |chosen| == k then {chosen} else FinalOf(chosen, remaining, k, 0)
  }

  /** The final itemsets of the next combinations from index `i` on. */
  function FinalOf(chosen: seq<int>, remaining: seq<int>, k: int, i: nat): set<seq<int>>
    requires |chosen| < k
    decreases k - |chosen|, 0, |remaining| - i
  {
    var next := NextCombinations(chosen, remaining, k);
    if i >= |next| then {}
    else FinalItemSets(next[i].chosen, next[i].remaining, k) + FinalOf(chosen, remaining, k, i + 1)
  }

  /**
   * The reference definition: `s` is a k-itemset that starts with `chosen` and continues with
   * items of `remaining` in increasing order.
   */
  predicate Extends(s: seq<int>, chosen: seq<int>, remaining: seq<int>, k: int) {
    |s| == k && |chosen| <= k && s[..|chosen|] == chosen && Increasing(s[|chosen|..])
    && forall i :: |chosen| <= i < k ==> s[i] in remaining
  }

  /** `c` is one of the k-itemsets of the sorted itemset `t`. */
  predicate KSubset(c: seq<int>, t: seq<int>, k: int) {
    |c| == k && Increasing(c) && SubsetOf(c, t)
  }

  lemma ExtendsEmpty(c: seq<int>, t: seq<int>, k: int)
    requires k >= 0
    ensures Extends(c, [], t, k) <==> KSubset(c, t, k)
  {
    if |c| == k {
      assert c[0..] == c;
    }
  }

  lemma IncreasingSuffix(s: seq<int>, i: nat)
    requires Increasing(s) && i <= |s|
    ensures Increasing(s[i..])
  {
    forall a, b | 0 <= a < b < |s[i..]| ensures s[i..][a] < s[i..][b] {
      assert s[i..][a] == s[i + a] && s[i..][b] == s[i + b];
    }
  }

  lemma AfterHead(x: int, s: seq<int>)
    requires Increasing(s) && |s| >= 1 && x in s[1..]
    ensures s[0] < x
  {
    var m :| 0 <= m < |s[1..]| && s[1..][m] == x;
    assert s[1 + m] == x;
  }

  /** An extension whose next item is the first remaining one picks that item. */
  lemma ExtendsPick(s: seq<int>, chosen: seq<int>, remaining: seq<int>, k: int)
    requires |chosen| < k && |remaining| >= 1 && Increasing(remaining)
    requires Extends(s, chosen, remaining, k) && s[|chosen|] == remaining[0]
    ensures Extends(s, chosen + [remaining[0]], remaining[1..], k)
  {
    var L := |chosen|;
    var h := remaining[0];
    var t := s[L..];
    assert forall y :: y in remaining ==> y == h || y in remaining[1..] by {
      assert remaining == [h] + remaining[1..];
    }
    assert s[..L + 1] == chosen + [h] by {
      assert s[..L + 1] == s[..L] + [s[L]];
    }
    assert s[L + 1..] == t[1..];
    IncreasingSuffix(t, 1);
    forall i | L + 1 <= i < k ensures s[i] in remaining[1..] {
      assert t[0] == s[L] && t[i - L] == s[i];
      assert t[0] < t[i - L];
      assert s[i] in remaining && s[i] != h;
    }
  }

  /** An extension whose next item is not the first remaining one avoids that item altogether. */
  lemma ExtendsSkip(s: seq<int>, chosen: seq<int>, remaining: seq<int>, k: int)
    requires |chosen| < k && |remaining| >= 1 && Increasing(remaining)
    requires Extends(s, chosen, remaining, k) && s[|chosen|] != remaining[0]
    ensures Extends(s, chosen, remaining[1..], k)
  {
    var L := |chosen|;
    var h := remaining[0];
    var t := s[L..];
    assert forall y :: y in remaining ==> y == h || y in remaining[1..] by {
      assert remaining == [h] + remaining[1..];
    }
    assert h < s[L] by {
      AfterHead(s[L], remaining);
    }
    forall i | L <= i < k ensures s[i] in remaining[1..] {
      if i > L {
        assert t[0] == s[L] && t[i - L] == s[i];
        assert t[0] < t[i - L];
      }
    }
  }

  /** An extension that picks the first remaining item is an extension, and not one that avoids it. */
  lemma PickedExtends(s: seq<int>, chosen: seq<int>, remaining: seq<int>, k: int)
    requires |chosen| < k && |remaining| >= 1 && Increasing(remaining)
    requires Extends(s, chosen + [remaining[0]], remaining[1..], k)
    ensures Extends(s, chosen, remaining, k) && !Extends(s, chosen, remaining[1..], k)
  {
    var L := |chosen|;
    var h := remaining[0];
    assert s[..L] == (chosen + [h])[..L];
    assert s[L] == h by {
      assert s[..L + 1][L] == s[L];
    }
    var t := s[L..];
    assert t[1..] == s[L + 1..];
    forall a, b | 0 <= a < b < |t| ensures t[a] < t[b] {
      assert t[b] == s[L + b] && s[L + b] in remaining[1..];
      AfterHead(s[L + b], remaining);
      if a > 0 {
        assert t[a] == t[1..][a - 1] && t[b] == t[1..][b - 1];
      }
    }
    forall i | L <= i < k ensures s[i] in remaining {
      if i > L {
        assert s[i] in remaining[1..];
      }
    }
    assert !Extends(s, chosen, remaining[1..], k) by {
      if s[L] in remaining[1..] {
        AfterHead(s[L], remaining);
      }
    }
  }

  /** An extension that avoids the first remaining item is an extension. */
  lemma SkippedExtends(s: seq<int>, chosen: seq<int>, remaining: seq<int>, k: int)
    requires |remaining| >= 1 && Extends(s, chosen, remaining[1..], k)
    ensures Extends(s, chosen, remaining, k)
  {
    forall i | |chosen| <= i < k ensures s[i] in remaining {
      assert s[i] in remaining[1..];
    }
  }

  /**
   * Splitting on the first remaining item: an extension either picks it next or avoids it,
   * and never both.
   */
  lemma ExtendsSplit(s: seq<int>, chosen: seq<int>, remaining: seq<int>, k: int)
    requires |chosen| < k && |remaining| >= 1 && Increasing(remaining)
    ensures Extends(s, chosen, remaining, k) <==>
      Extends(s, chosen + [remaining[0]], remaining[1..], k) || Extends(s, chosen, remaining[1..], k)
    ensures !(Extends(s, chosen + [remaining[0]], remaining[1..], k) && Extends(s, chosen, remaining[1..], k))
  {
    if Extends(s, chosen, remaining, k) {
      if s[|chosen|] == remaining[0] {
        ExtendsPick(s, chosen, remaining, k);
      } else {
        ExtendsSkip(s, chosen, remaining, k);
      }
    }
    if Extends(s, chosen + [remaining[0]], remaining[1..], k) {
      PickedExtends(s, chosen, remaining, k);
    }
    if Extends(s, chosen, remaining[1..], k) {
      SkippedExtends(s, chosen, remaining, k);
    }
  }

  /** Too few items remain: nothing can be completed. */
  lemma ExtendsTooFew(s: seq<int>, chosen: seq<int>, remaining: seq<int>, k: int)
    requires Increasing(remaining) && |remaining| < k - |chosen|
    ensures !Extends(s, chosen, remaining, k)
  {
    if Extends(s, chosen, remaining, k) {
      var t := s[|chosen|..];
      assert SubsetOf(t, remaining) by {
        forall i | 0 <= i < |t| ensures t[i] in remaining {
          assert t[i] == s[|chosen| + i];
        }
      }
      SubsetShorter(t, remaining);
      assert false;
    }
  }

  /** The first items of `remaining` complete `chosen` whenever there are enough of them. */
  lemma ExtendsWitness(chosen: seq<int>, remaining: seq<int>, k: int)
    requires |chosen| <= k <= |chosen| + |remaining| && Increasing(remaining)
    ensures Extends(chosen + remaining[..k - |chosen|], chosen, remaining, k)
  {
    var s := chosen + remaining[..k - |chosen|];
    assert s[..|chosen|] == chosen;
    assert s[|chosen|..] == remaining[..k - |chosen|];
    var w := remaining[..k - |chosen|];
    forall a, b | 0 <= a < b < |w| ensures w[a] < w[b] {
    }
    forall i | |chosen| <= i < k ensures s[i] in remaining {
      assert s[i] == remaining[i - |chosen|];
    }
  }

  /** An extension of a sorted start by larger items is sorted. */
  lemma ExtendsIncreasing(s: seq<int>, chosen: seq<int>, remaining: seq<int>, k: int)
    requires Increasing(chosen + remaining) && Extends(s, chosen, remaining, k)
    ensures Increasing(s)
  {
    var L := |chosen|;
    var u := chosen + remaining;
    forall a, b | 0 <= a < b < |s| ensures s[a] < s[b] {
      if b < L {
        assert s[a] == u[a] && s[b] == u[b];
      } else if a < L {
        var m :| 0 <= m < |remaining| && remaining[m] == s[b];
        assert s[a] == u[a] && s[b] == u[L + m];
      } else {
        assert s[a] == s[L..][a - L] && s[b] == s[L..][b - L];
      }
    }
  }

  lemma ChooseTooMany(n: nat, r: nat)
    requires n < r
    ensures Choose(n, r) == 0
  {
  }

  /**
   * `generateFinalItemSets` yields exactly the extensions of `chosen` by items of `remaining`.
   */
  lemma {:induction false} FinalMembers(chosen: seq<int>, remaining: seq<int>, k: int)
    requires |chosen| <= k && Increasing(remaining)
    ensures forall s :: s in FinalItemSets(chosen, remaining, k) <==> Extends(s, chosen, remaining, k)
    decreases k - |chosen|, 1, 0
  {
    if |chosen| == k {
      forall s | Extends(s, chosen, remaining, k) ensures s == chosen {
        assert s == s[..|chosen|];
      }
    } else {
      FinalOfMembers(chosen, remaining, k, 0);
      assert remaining[0..] == remaining;
    }
  }

  lemma {:induction false} FinalOfMembers(chosen: seq<int>, remaining: seq<int>, k: int, i: nat)
    requires |chosen| < k && Increasing(remaining) && i <= |remaining|
    ensures forall s :: s in FinalOf(chosen, remaining, k, i) <==> Extends(s, chosen, remaining[i..], k)
    decreases k - |chosen|, 0, |remaining| - i
  {
    var next := NextCombinations(chosen, remaining, k);
    IncreasingSuffix(remaining, i);
    if i >= |next| {
      forall s ensures !Extends(s, chosen, remaining[i..], k) {
        ExtendsTooFew(s, chosen, remaining[i..], k);
      }
    } else {
      var rest := remaining[i..];
      assert rest[0] == remaining[i] && rest[1..] == remaining[i + 1..];
      IncreasingSuffix(remaining, i + 1);
      FinalMembers(next[i].chosen, next[i].remaining, k);
      FinalOfMembers(chosen, remaining, k, i + 1);
      forall s ensures s in FinalOf(chosen, remaining, k, i) <==> Extends(s, chosen, rest, k) {
        ExtendsSplit(s, chosen, rest, k);
      }
    }
  }

  /**
   * The binomial coefficient the bucket consults before filling itself is exactly the number of
   * itemsets `generateFinalItemSets` produces.
   */
  lemma {:induction false} FinalCount(chosen: seq<int>, remaining: seq<int>, k: int)
    requires |chosen| <= k && Increasing(remaining)
    ensures |FinalItemSets(chosen, remaining, k)| == Choose(|remaining|, k - |chosen|)
    decreases k - |chosen|, 1, 0, 0
  {
    if |chosen| < k {
      FinalOfCount(chosen, remaining, k, 0);
    }
  }

  lemma {:induction false} FinalOfCount(chosen: seq<int>, remaining: seq<int>, k: int, i: nat)
    requires |chosen| < k && Increasing(remaining) && i <= |remaining|
    ensures |FinalOf(chosen, remaining, k, i)| == Choose(|remaining| - i, k - |chosen|)
    decreases k - |chosen|, 0, |remaining| - i, 1
  {
    if i >= |NextCombinations(chosen, remaining, k)| {
      NoneLeftCount(chosen, remaining, k, i);
    } else {
      FinalOfCount(chosen, remaining, k, i + 1);
      FinalOfStep(chosen, remaining, k, i);
    }
  }

  /** One step of the count: the completions through `remaining[i]` plus those that skip it. */
  lemma {:induction false} FinalOfStep(chosen: seq<int>, remaining: seq<int>, k: int, i: nat)
    requires |chosen| < k && Increasing(remaining) && i < |NextCombinations(chosen, remaining, k)|
    requires |FinalOf(chosen, remaining, k, i + 1)| == Choose(|remaining| - i - 1, k - |chosen|)
    ensures |FinalOf(chosen, remaining, k, i)| == Choose(|remaining| - i, k - |chosen|)
    decreases k - |chosen|, 0, |remaining| - i, 0
  {
    NextShape(chosen, remaining, k, i);
    HeadAt(chosen, remaining, k, i);
    CountStep(chosen, remaining, k, i);
  }

  /** The completions that pick `remaining[i]` next number C(|remaining| - i - 1, k - |chosen| - 1). */
  lemma {:induction false} HeadAt(chosen: seq<int>, remaining: seq<int>, k: int, i: nat)
    requires |chosen| < k && Increasing(remaining) && i < |remaining|
    ensures |FinalItemSets(chosen + [remaining[i]], remaining[i + 1..], k)| == Choose(|remaining| - i - 1, k - |chosen| - 1)
    decreases k - |chosen|, 0, |remaining| - i - 1, 2
  {
    IncreasingSuffix(remaining, i + 1);
    HeadCount(chosen, remaining[i], remaining[i + 1..], k);
  }

  /** The completions that pick `x` next number C(|rest|, k - |chosen| - 1). */
  lemma {:induction false} HeadCount(chosen: seq<int>, x: int, rest: seq<int>, k: int)
    requires |chosen| < k && Increasing(rest)
    ensures |FinalItemSets(chosen + [x], rest, k)| == Choose(|rest|, k - |chosen| - 1)
    decreases k - |chosen|, 0, |rest|, 1
  {
    FinalCount(chosen + [x], rest, k);
  }

  /** Past the last next combination too few items remain, and there are no completions. */
  lemma NoneLeftCount(chosen: seq<int>, remaining: seq<int>, k: int, i: nat)
    requires |chosen| < k && i <= |remaining| && i >= |NextCombinations(chosen, remaining, k)|
    ensures |FinalOf(chosen, remaining, k, i)| == Choose(|remaining| - i, k - |chosen|)
  {
    ChooseTooMany(|remaining| - i, k - |chosen|);
  }

  lemma NextShape(chosen: seq<int>, remaining: seq<int>, k: int, i: nat)
    requires |chosen| < k && i < |NextCombinations(chosen, remaining, k)|
    ensures i < |remaining| - (k - |chosen|) + 1
    ensures NextCombinations(chosen, remaining, k)[i] == Combination(chosen + [remaining[i]], remaining[i + 1..])
  {
  }

  /** Pascal's rule on the counts of completions. */
  lemma CountStep(chosen: seq<int>, remaining: seq<int>, k: int, i: nat)
    requires |chosen| < k && Increasing(remaining) && i < |NextCombinations(chosen, remaining, k)|
    requires |FinalItemSets(chosen + [remaining[i]], remaining[i + 1..], k)| == Choose(|remaining| - i - 1, k - |chosen| - 1)
    requires |FinalOf(chosen, remaining, k, i + 1)| == Choose(|remaining| - i - 1, k - |chosen|)
    ensures |FinalOf(chosen, remaining, k, i)| == Choose(|remaining| - i, k - |chosen|)
  {
    FinalOfSplit(chosen, remaining, k, i);
    ChooseStep(|remaining| - i, k - |chosen|);
  }

  /** The completions from the `i`-th next combination on: those of the `i`-th, then the rest, never overlapping. */
  lemma FinalOfSplit(chosen: seq<int>, remaining: seq<int>, k: int, i: nat)
    requires |chosen| < k && Increasing(remaining) && i < |NextCombinations(chosen, remaining, k)|
    ensures NextCombinations(chosen, remaining, k)[i] == Combination(chosen + [remaining[i]], remaining[i + 1..])
    ensures |FinalOf(chosen, remaining, k, i)| ==
      |FinalItemSets(chosen + [remaining[i]], remaining[i + 1..], k)| + |FinalOf(chosen, remaining, k, i + 1)|
  {
    var next := NextCombinations(chosen, remaining, k);
    var a := FinalItemSets(next[i].chosen, next[i].remaining, k);
    var b := FinalOf(chosen, remaining, k, i + 1);
    assert FinalOf(chosen, remaining, k, i) == a + b;
    FinalDisjoint(chosen, remaining, k, i);
    DisjointCard(a, b);
  }

  /** Pascal's rule. */
  lemma ChooseStep(n: nat, r: nat)
    requires n >= 1 && r >= 1
    ensures Choose(n, r) == Choose(n - 1, r - 1) + Choose(n - 1, r)
  {
  }

  /** The completions that pick `remaining[i]` next share nothing with those that skip it. */
  lemma FinalDisjoint(chosen: seq<int>, remaining: seq<int>, k: int, i: nat)
    requires |chosen| < k && Increasing(remaining) && i < |NextCombinations(chosen, remaining, k)|
    ensures
      var next := NextCombinations(chosen, remaining, k);
      FinalItemSets(next[i].chosen, next[i].remaining, k) * FinalOf(chosen, remaining, k, i + 1) == {}
  {
    var next := NextCombinations(chosen, remaining, k);
    var rest := remaining[i..];
    IncreasingSuffix(remaining, i);
    IncreasingSuffix(remaining, i + 1);
    assert rest[0] == remaining[i] && rest[1..] == remaining[i + 1..];
    FinalMembers(next[i].chosen, next[i].remaining, k);
    FinalOfMembers(chosen, remaining, k, i + 1);
    forall s | s in FinalItemSets(next[i].chosen, next[i].remaining, k) ensures s !in FinalOf(chosen, remaining, k, i + 1) {
      ExtendsSplit(s, chosen, rest, k);
    }
  }

  /** Disjoint sets add up. */
  lemma {:induction false} DisjointCard<T>(a: set<T>, b: set<T>)
    requires a * b == {}
    ensures |a + b| == |a| + |b|
    decreases |a|
  {
    if a != {} {
      var x :| x in a;
      assert x !in a * b;
      DisjointCard(a - {x}, b);
      assert (a - {x}) + b == (a + b) - {x};
    }
  }

  /** Leaving out the items between the chosen ones and `remaining[i]` keeps the order. */
  lemma DropMiddle(chosen: seq<int>, remaining: seq<int>, i: nat)
    requires Increasing(chosen + remaining) && i < |remaining|
    ensures Increasing(chosen + [remaining[i]] + remaining[i + 1..])
  {
    var L := |chosen|;
    var u := chosen + remaining;
    var v := chosen + [remaining[i]] + remaining[i + 1..];
    assert forall a :: 0 <= a < L ==> v[a] == u[a];
    assert forall a :: L <= a < |v| ==> v[a] == u[a + i];
  }

  /** Each next combination is again a sorted start followed by enough larger items. */
  lemma NextSorted(chosen: seq<int>, remaining: seq<int>, k: int, i: nat)
    requires |chosen| < k && Increasing(chosen + remaining) && i < |NextCombinations(chosen, remaining, k)|
    ensures i < |remaining|
    ensures NextCombinations(chosen, remaining, k)[i] == Combination(chosen + [remaining[i]], remaining[i + 1..])
    ensures Increasing(NextCombinations(chosen, remaining, k)[i].chosen + NextCombinations(chosen, remaining, k)[i].remaining)
    ensures |NextCombinations(chosen, remaining, k)[i].chosen| + |NextCombinations(chosen, remaining, k)[i].remaining| >= k
  {
    DropMiddle(chosen, remaining, i);
  }

  /** The items still available are themselves sorted. */
  lemma RemainingSorted(chosen: seq<int>, remaining: seq<int>)
    requires Increasing(chosen + remaining)
    ensures Increasing(remaining)
  {
    assert (chosen + remaining)[|chosen|..] == remaining;
    IncreasingSuffix(chosen + remaining, |chosen|);
  }

  /** An extension repeats the chosen items in front. */
  lemma ExtendsPrefix(s: seq<int>, chosen: seq<int>, remaining: seq<int>, k: int, m: nat)
    requires Extends(s, chosen, remaining, k) && m < |chosen|
    ensures s[m] == chosen[m]
  {
    assert s[..|chosen|][m] == s[m];
  }

  /** With k items chosen, the only extension is the chosen itemset itself. */
  lemma ExtendsComplete(s: seq<int>, chosen: seq<int>, remaining: seq<int>, k: int)
    requires |chosen| == k
    ensures Extends(s, chosen, remaining, k) <==> s == chosen
  {
    if s == chosen {
      assert s[..|chosen|] == s;
    }
    if Extends(s, chosen, remaining, k) {
      assert s == s[..|chosen|];
    }
  }
}

=== FILE: count.dfy ===
/**
 * Counting candidates against one transaction: the transaction's k-itemsets are walked down the tree
 * exactly as insertion walks them, and every one that is stored somewhere has its count raised.
 */
module Counting {
  import opened Outcomes
  import opened ItemSets
  import opened Combinations
  import opened Nodes

  /** Raises the count of every stored itemset that is among `items`; nothing is added. */
  function IncAll(b: map<seq<int>, nat>, items: set<seq<int>>): (r: map<seq<int>, nat>)
    ensures r.Keys == b.Keys
    ensures forall s :: s in b ==> r[s] == if s in items then b[s] + 1 else b[s]
  {
    map s | s in b :: if s in items then b[s] + 1 else b[s]
  }

  /** The node with every count forgotten: what stays the same when only counts change. */
  function Skeleton(node: Node): Node {
    match node
    case Bucket(b) => Bucket(map s | s in b :: 0)
    case Hash(ch) => Hash(seq(|ch|, j requires 0 <= j < |ch| => if ch[j].Some? then Some(Skeleton(ch[j].value)) else None))
  }

  /**
   * `countCandidates(chosen, remaining)` on a node at depth |chosen|: with all k items chosen the
   * itemset itself is looked up; a bucket counts every completion it holds; a hash node passes the
   * next combinations to the children they hash to, skipping empty slots.
   */
  function CountAt(cfg: Config, node: Node, chosen: seq<int>, remaining: seq<int>): (r: Node)
    requires ValidConfig(cfg) && Wf(cfg, node, |chosen|) && |chosen| <= cfg.k
    requires Increasing(chosen + remaining)
    ensures Wf(cfg, r, |chosen|) && Keys(r) == Keys(node)
    decreases cfg.k - |chosen|, 1, 0
  {
    match node
    case Bucket(b) =>
      if |chosen| == cfg.k then Bucket(IncAll(b, {chosen}))
      else Bucket(IncAll(b, FinalItemSets(chosen, remaining, cfg.k)))
    case Hash(ch) => Hash(CountChildren(cfg, ch, chosen, remaining, 0))
  }

  /** The hash-node loop of `countCandidates`, from the `i`-th next combination on. */
  function CountChildren(cfg: Config, ch: seq<Option<Node>>, chosen: seq<int>, remaining: seq<int>, i: nat)
    : (r: seq<Option<Node>>)
    requires ValidConfig(cfg) && Wf(cfg, Hash(ch), |chosen|)
    requires Increasing(chosen + remaining) && i <= |remaining|
    ensures Wf(cfg, Hash(r), |chosen|) && Keys(Hash(r)) == Keys(Hash(ch))
    decreases cfg.k - |chosen|, 0, |remaining| - i
  {
    var next := NextCombinations(chosen, remaining, cfg.k);
    if i >= |next| then ch
    else
      var c := next[i];
      var j := Slot(c.chosen[|c.chosen| - 1], cfg.numChildren);
      if ch[j].None? then CountChildren(cfg, ch, chosen, remaining, i + 1)
      else
        NextSorted(chosen, remaining, cfg.k, i);
        var counted := CountAt(cfg, ch[j].value, c.chosen, c.remaining);
        SameKeysStep(cfg, ch, |chosen|, j, counted);
        CountChildren(cfg, ch[j := Some(counted)], chosen, remaining, i + 1)
  }

  /** Replacing a child by one with the same itemsets keeps the node well-formed with the same itemsets. */
  lemma SameKeysStep(cfg: Config, ch: seq<Option<Node>>, level: nat, j: int, x: Node)
    requires ValidConfig(cfg) && Wf(cfg, Hash(ch), level) && 0 <= j < |ch| && ch[j].Some?
    requires Wf(cfg, x, level + 1) && Keys(x) == Keys(ch[j].value)
    ensures Wf(cfg, Hash(ch[j := Some(x)]), level) && Keys(Hash(ch[j := Some(x)])) == Keys(Hash(ch))
  {
    KeysUpdate(ch, j, x);
    assert Keys(ch[j].value) <= Keys(Hash(ch));
    var ch' := ch[j := Some(x)];
    forall m | 0 <= m < |ch'| && ch'[m].Some?
      ensures Wf(cfg, ch'[m].value, level + 1) && forall s :: s in Keys(ch'[m].value) ==> RoutesTo(cfg, s, level, m)
    {
      if m != j {
        assert ch'[m] == ch[m];
      }
    }
  }

  /** A stored itemset is counted again: a present count goes up by one, an absent one stays absent. */
  function Count(f: Option<nat>): (r: Option<nat>)
    ensures r.Some? <==> f.Some?
    ensures f.Some? ==> r.value == f.value + 1
  {
    match f
    case None => None
    case Some(n) => Some(n + 1)
  }

  /** Counting only raises counts of stored itemsets that `chosen` and `remaining` make, each by one. */
  lemma {:induction false} CountAtFind(cfg: Config, node: Node, chosen: seq<int>, remaining: seq<int>, s: seq<int>)
    requires ValidConfig(cfg) && Wf(cfg, node, |chosen|) && |chosen| <= cfg.k
    requires Increasing(chosen + remaining)
    ensures Find(cfg, CountAt(cfg, node, chosen, remaining), |chosen|, s) ==
      if Extends(s, chosen, remaining, cfg.k) then Count(Find(cfg, node, |chosen|, s)) else Find(cfg, node, |chosen|, s)
    decreases cfg.k - |chosen|, 1, 0
  {
    RemainingSorted(chosen, remaining);
    match node
    case Bucket(b) =>
      if |chosen| == cfg.k {
        ExtendsComplete(s, chosen, remaining, cfg.k);
      } else {
        FinalMembers(chosen, remaining, cfg.k);
      }
    case Hash(ch) =>
      CountChildrenFind(cfg, ch, chosen, remaining, 0, s);
      assert remaining[0..] == remaining;
  }

  lemma {:induction false} CountChildrenFind(cfg: Config, ch: seq<Option<Node>>, chosen: seq<int>, remaining: seq<int>, i: nat, s: seq<int>)
    requires ValidConfig(cfg) && Wf(cfg, Hash(ch), |chosen|)
    requires Increasing(chosen + remaining) && i <= |remaining|
    ensures Find(cfg, Hash(CountChildren(cfg, ch, chosen, remaining, i)), |chosen|, s) ==
      if Extends(s, chosen, remaining[i..], cfg.k) then Count(Find(cfg, Hash(ch), |chosen|, s)) else Find(cfg, Hash(ch), |chosen|, s)
    decreases cfg.k - |chosen|, 0, |remaining| - i
  {
    var L := |chosen|;
    var next := NextCombinations(chosen, remaining, cfg.k);
    RemainingSorted(chosen, remaining);
    IncreasingSuffix(remaining, i);
    if i >= |next| {
      ExtendsTooFew(s, chosen, remaining[i..], cfg.k);
    } else {
      var c := next[i];
      var j := Slot(c.chosen[|c.chosen| - 1], cfg.numChildren);
      var rest := remaining[i..];
      assert rest[0] == remaining[i] && rest[1..] == remaining[i + 1..];
      assert c == Combination(chosen + [rest[0]], rest[1..]);
      ExtendsSplit(s, chosen, rest, cfg.k);
      if Extends(s, c.chosen, c.remaining, cfg.k) {
        ExtendsPrefix(s, c.chosen, c.remaining, cfg.k, L);
      }
      if ch[j].None? {
        CountChildrenFind(cfg, ch, chosen, remaining, i + 1, s);
        if Extends(s, c.chosen, c.remaining, cfg.k) {
          EmptySlotFind(cfg, ch, L, j, c.chosen, c.remaining, s);
        }
      } else {
        NextSorted(chosen, remaining, cfg.k, i);
        var counted := CountAt(cfg, ch[j].value, c.chosen, c.remaining);
        SameKeysStep(cfg, ch, L, j, counted);
        var ch' := ch[j := Some(counted)];
        assert CountChildren(cfg, ch, chosen, remaining, i) == CountChildren(cfg, ch', chosen, remaining, i + 1);
        CountChildrenFind(cfg, ch', chosen, remaining, i + 1, s);
        CountAtFind(cfg, ch[j].value, c.chosen, c.remaining, s);
        ReplaceFind(cfg, ch, L, j, counted, s);
      }
    }
  }

  /** An itemset that hashes to an empty slot is not stored below the node. */
  lemma EmptySlotFind(cfg: Config, ch: seq<Option<Node>>, level: nat, j: int, chosen: seq<int>, remaining: seq<int>, s: seq<int>)
    requires ValidConfig(cfg) && 0 <= j < |ch| && ch[j].None?
    requires |chosen| == level + 1 && Slot(chosen[level], cfg.numChildren) == j
    requires Extends(s, chosen, remaining, cfg.k)
    ensures Find(cfg, Hash(ch), level, s) == None
  {
    ExtendsPrefix(s, chosen, remaining, cfg.k, level);
  }

  /** Replacing the child in slot `j` only affects the itemsets routed through that slot. */
  lemma ReplaceFind(cfg: Config, ch: seq<Option<Node>>, level: nat, j: int, x: Node, s: seq<int>)
    requires ValidConfig(cfg) && 0 <= j < |ch| && ch[j].Some?
    ensures Find(cfg, Hash(ch[j := Some(x)]), level, s) ==
      if RoutesTo(cfg, s, level, j) then Find(cfg, x, level + 1, s) else Find(cfg, Hash(ch), level, s)
    ensures RoutesTo(cfg, s, level, j) ==> Find(cfg, Hash(ch), level, s) == Find(cfg, ch[j].value, level + 1, s)
  {
  }

  /** Counting never changes the shape of the tree or which itemsets it holds, only counts. */
  lemma {:induction false} CountAtShape(cfg: Config, node: Node, chosen: seq<int>, remaining: seq<int>)
    requires ValidConfig(cfg) && Wf(cfg, node, |chosen|) && |chosen| <= cfg.k
    requires Increasing(chosen + remaining)
    ensures Skeleton(CountAt(cfg, node, chosen, remaining)) == Skeleton(node)
    decreases cfg.k - |chosen|, 1, 0
  {
    match node
    case Bucket(b) =>
    case Hash(ch) =>
      CountChildrenShape(cfg, ch, chosen, remaining, 0);
  }

  lemma {:induction false} CountChildrenShape(cfg: Config, ch: seq<Option<Node>>, chosen: seq<int>, remaining: seq<int>, i: nat)
    requires ValidConfig(cfg) && Wf(cfg, Hash(ch), |chosen|)
    requires Increasing(chosen + remaining) && i <= |remaining|
    ensures Skeleton(Hash(CountChildren(cfg, ch, chosen, remaining, i))) == Skeleton(Hash(ch))
    decreases cfg.k - |chosen|, 0, |remaining| - i
  {
    var next := NextCombinations(chosen, remaining, cfg.k);
    if i < |next| {
      var c := next[i];
      var j := Slot(c.chosen[|c.chosen| - 1], cfg.numChildren);
      if ch[j].None? {
        CountChildrenShape(cfg, ch, chosen, remaining, i + 1);
      } else {
        NextSorted(chosen, remaining, cfg.k, i);
        var counted := CountAt(cfg, ch[j].value, c.chosen, c.remaining);
        SameKeysStep(cfg, ch, |chosen|, j, counted);
        var ch' := ch[j := Some(counted)];
        assert CountChildren(cfg, ch, chosen, remaining, i) == CountChildren(cfg, ch', chosen, remaining, i + 1);
        CountChildrenShape(cfg, ch', chosen, remaining, i + 1);
        CountAtShape(cfg, ch[j].value, c.chosen, c.remaining);
        SkeletonReplace(ch, j, counted);
      }
    }
  }

  /** Replacing a child by one of the same shape keeps the node's shape. */
  lemma SkeletonReplace(ch: seq<Option<Node>>, j: int, x: Node)
    requires 0 <= j < |ch| && ch[j].Some? && Skeleton(x) == Skeleton(ch[j].value)
    ensures Skeleton(Hash(ch[j := Some(x)])) == Skeleton(Hash(ch))
  {
    var ch' := ch[j := Some(x)];
    var a := Skeleton(Hash(ch')).children;
    var b := Skeleton(Hash(ch)).children;
    assert |a| == |b|;
    forall m | 0 <= m < |a| ensures a[m] == b[m] {
      if m != j {
        assert ch'[m] == ch[m];
      }
    }
  }

  /** `incFrequencies`: every stored itemset is counted once more; the tree keeps its shape. */
  function IncEvery(node: Node): (r: Node)
    ensures Keys(r) == Keys(node)
    ensures Skeleton(r) == Skeleton(node)
  {
    match node
    case Bucket(b) =>
      var r := Bucket(IncAll(b, b.Keys));
      assert Skeleton(r) == Skeleton(node);
      r
    case Hash(ch) =>
      var ch' := seq(|ch|, j requires 0 <= j < |ch| => if ch[j].Some? then Some(IncEvery(ch[j].value)) else None);
      assert Keys(Hash(ch')) == Keys(node) by {
        forall s | s in Keys(Hash(ch')) ensures s in Keys(node) {
          var j :| 0 <= j < |ch'| && ch'[j].Some? && s in Keys(ch'[j].value);
        }
        forall s | s in Keys(node) ensures s in Keys(Hash(ch')) {
          var j :| 0 <= j < |ch| && ch[j].Some? && s in Keys(ch[j].value);
          assert ch'[j] == Some(IncEvery(ch[j].value));
        }
      }
      assert Skeleton(Hash(ch')).children == Skeleton(node).children;
      Hash(ch')
  }

  /** After `incFrequencies` every lookup that found a count finds it one higher. */
  lemma {:induction false} IncEveryFind(cfg: Config, node: Node, level: nat, s: seq<int>)
    requires ValidConfig(cfg)
    ensures Find(cfg, IncEvery(node), level, s) == Count(Find(cfg, node, level, s))
    decreases node
  {
    match node
    case Bucket(b) =>
    case Hash(ch) =>
      if |s| > level {
        var j := Slot(s[level], cfg.numChildren);
        if j < |ch| && ch[j].Some? {
          IncEveryFind(cfg, ch[j].value, level + 1, s);
        }
      }
  }

  /** `incFrequencies` keeps a well-formed subtree well-formed. */
  lemma {:induction false} IncEveryWf(cfg: Config, node: Node, level: nat)
    requires ValidConfig(cfg) && Wf(cfg, node, level)
    ensures Wf(cfg, IncEvery(node), level)
    decreases node
  {
    match node
    case Bucket(b) =>
    case Hash(ch) =>
      var ch' := IncEvery(node).children;
      forall j | 0 <= j < |ch'| && ch'[j].Some?
        ensures Wf(cfg, ch'[j].value, level + 1) && forall s :: s in Keys(ch'[j].value) ==> RoutesTo(cfg, s, level, j)
      {
        IncEveryWf(cfg, ch[j].value, level + 1);
      }
  }
}

=== FILE: decimal.dfy ===
/** Decimal rendering of integers, as `Integer.toString` produces it, and its inverse. */
module Decimal {
  import opened Outcomes

  predicate IsDigit(c: char) {
    '0' <= c <= '9'
  }

  function DigitChar(d: nat): (c: char)
    requires d < 10
    ensures IsDigit(c) && (c as int) - ('0' as int) == d
  {
    ['0', '1', '2', '3', '4', '5', '6', '7', '8', '9'][d]
  }

  function DigitValue(c: char): nat
    requires IsDigit(c)
  {
    (c as int) - ('0' as int)
  }

  /** The decimal form of a natural number: no sign and no leading zero. */
  function NatToString(n: nat): (s: string)
    ensures |s| >= 1
    ensures forall i :: 0 <= i < |s| ==> IsDigit(s[i])
    ensures |s| > 1 ==> s[0] != '0'
    decreases n
  {
    if n < 10 then [DigitChar(n)] else NatToString(n / 10) + [DigitChar(n % 10)]
  }

  /** The decimal form of an integer: a minus sign before the digits of a negative value. */
  function IntToString(i: int): (s: string)
    ensures |s| >= 1
    ensures i < 0 <==> s[0] == '-'
    ensures forall j :: 0 <= j < |s| ==> IsDigit(s[j]) || (j == 0 && s[j] == '-')
  {
    if i < 0 then "-" + NatToString(-i) else NatToString(i)
  }

  /** Reads a non-empty string of decimal digits. */
  function ParseDigits(s: string): (r: Option<nat>)
    ensures r.Some? ==> |s| >= 1
    decreases |s|
  {
    if |s| == 0 || !IsDigit(s[|s| - 1]) then None
    else if |s| == 1 then Some(DigitValue(s[0]))
    else
      match ParseDigits(s[..|s| - 1])
      case None => None
      case Some(high) => Some(high * 10 + DigitValue(s[|s| - 1]))
  }

  /** Reads an optionally negative decimal integer. */
  function ParseInt(s: string): Option<int> {
    if |s| >= 1 && s[0] == '-' then
      match ParseDigits(s[1..])
      case None => None
      case Some(n) => Some(-(n as int))
    else
      match ParseDigits(s)
      case None => None
      case Some(n) => Some(n)
  }

  lemma {:induction false} NatRoundTrip(n: nat)
    ensures ParseDigits(NatToString(n)) == Some(n)
    decreases n
  {
    if n >= 10 {
      var s := NatToString(n);
      assert s[..|s| - 1] == NatToString(n / 10);
      NatRoundTrip(n / 10);
    }
  }

  /** Rendering an integer and reading it back gives the same integer. */
  lemma IntRoundTrip(i: int)
    ensures ParseInt(IntToString(i)) == Some(i)
  {
    if i < 0 {
      NegativeRoundTrip(i);
    } else {
      NonNegativeRoundTrip(i);
    }
  }

  lemma NegativeRoundTrip(i: int)
    requires i < 0
    ensures ParseInt(IntToString(i)) == Some(i)
  {
    var s := IntToString(i);
    var digits := NatToString(-i);
    assert s == "-" + digits;
    assert s[1..] == digits;
    NatRoundTrip(-i);
  }

  lemma NonNegativeRoundTrip(i: int)
    requires i >= 0
    ensures ParseInt(IntToString(i)) == Some(i)
  {
    var s := IntToString(i);
    assert s == NatToString(i);
    assert s[0] != '-' by {
      assert IsDigit(s[0]);
    }
    NatRoundTrip(i);
  }

  /** Distinct integers have distinct decimal forms. */
  lemma IntToStringInjective(i: int, j: int)
    requires IntToString(i) == IntToString(j)
    ensures i == j
  {
    IntRoundTrip(i);
    IntRoundTrip(j);
  }
}

=== FILE: enumerate.dfy ===
/**
 * `toArray`: lists every stored itemset with its count. A bucket lists its itemsets in whatever order
 * its map yields them; a hash node lists its children in slot order.
 */
module Enumeration {
  import opened Outcomes
  import opened ItemSets
  import opened Nodes

  /** The itemsets a list names. */
  function ItemsOf(r: seq<ItemSet>): set<seq<int>> {
    set x | x in r :: x.items
  }

  /** No itemset is listed twice. */
  predicate Distinct(r: seq<ItemSet>) {
    forall i, j :: 0 <= i < j < |r| ==> r[i].items != r[j].items
  }

  /** Every listed itemset carries the count a lookup finds for it. */
  predicate CountsAgree(cfg: Config, node: Node, level: nat, r: seq<ItemSet>)
    requires ValidConfig(cfg)
  {
    forall i :: 0 <= i < |r| ==> Find(cfg, node, level, r[i].items) == Some(r[i].frequency)
  }

  lemma ItemsOfAppend(r: seq<ItemSet>, x: ItemSet)
    ensures ItemsOf(r + [x]) == ItemsOf(r) + {x.items}
  {
    assert forall y :: y in r + [x] <==> y in r || y == x;
  }

  lemma ItemsOfConcat(r: seq<ItemSet>, t: seq<ItemSet>)
    ensures ItemsOf(r + t) == ItemsOf(r) + ItemsOf(t)
  {
    assert forall y :: y in r + t <==> y in r || y in t;
  }

  /** The bucket's itemsets, one by one in an arbitrary order, each with its count. */
  method ListBucket(b: map<seq<int>, nat>) returns (r: seq<ItemSet>)
    ensures ItemsOf(r) == b.Keys
    ensures Distinct(r)
    ensures forall i :: 0 <= i < |r| ==> r[i].items in b && b[r[i].items] == r[i].frequency
  {
    r := [];
    var todo := b.Keys;
    while todo != {}
      invariant PartlyListed(b, todo, r)
      decreases |todo|
    {
      if forall t :: t !in todo {
        assert false;
      }
      var s :| s in todo;
      ListOne(b, todo, r, s);
      r := r + [ItemSet(s, b[s])];
      todo := todo - {s};
    }
  }

  /** The itemsets of `b` not in `todo` are listed once each, with their counts. */
  ghost predicate PartlyListed(b: map<seq<int>, nat>, todo: set<seq<int>>, r: seq<ItemSet>) {
    todo <= b.Keys &&
    (forall s :: s in b <==> s in todo || s in ItemsOf(r)) &&
    (forall s :: s in todo ==> s !in ItemsOf(r)) &&
    Distinct(r) &&
    forall i :: 0 <= i < |r| ==> r[i].items in b && b[r[i].items] == r[i].frequency
  }

  /** Listing one more itemset of the bucket moves it from `todo` to the list. */
  lemma ListOne(b: map<seq<int>, nat>, todo: set<seq<int>>, r: seq<ItemSet>, s: seq<int>)
    requires PartlyListed(b, todo, r) && s in todo
    ensures PartlyListed(b, todo - {s}, r + [ItemSet(s, b[s])])
  {
    ItemsOfAppend(r, ItemSet(s, b[s]));
    assert forall i :: 0 <= i < |r| ==> r[i].items in ItemsOf(r);
  }

  /** The itemsets of the children before slot `idx` are listed, each once, with their counts. */
  ghost predicate ListedBefore(cfg: Config, ch: seq<Option<Node>>, level: nat, idx: int, r: seq<ItemSet>)
    requires ValidConfig(cfg)
  {
    (forall s :: s in ItemsOf(r) <==> s in Keys(Hash(ch)) && |s| > level && Slot(s[level], cfg.numChildren) < idx) &&
    Distinct(r) && CountsAgree(cfg, Hash(ch), level, r)
  }

  /** Appending the listing of the child in slot `idx` extends the listing to slot `idx + 1`. */
  lemma ListChild(cfg: Config, ch: seq<Option<Node>>, level: nat, idx: int, r: seq<ItemSet>, sub: seq<ItemSet>)
    requires ValidConfig(cfg) && Wf(cfg, Hash(ch), level) && 0 <= idx < |ch| && ch[idx].Some?
    requires ListedBefore(cfg, ch, level, idx, r)
    requires ItemsOf(sub) == Keys(ch[idx].value) && Distinct(sub) && CountsAgree(cfg, ch[idx].value, level + 1, sub)
    ensures ListedBefore(cfg, ch, level, idx + 1, r + sub)
  {
    ListChildItems(cfg, ch, level, idx, r, sub);
    ListChildCounts(cfg, ch, level, idx, r, sub);
    ListChildDistinct(cfg, ch, level, idx, r, sub);
  }

  lemma ListChildItems(cfg: Config, ch: seq<Option<Node>>, level: nat, idx: int, r: seq<ItemSet>, sub: seq<ItemSet>)
    requires ValidConfig(cfg) && Wf(cfg, Hash(ch), level) && 0 <= idx < |ch| && ch[idx].Some?
    requires ListedBefore(cfg, ch, level, idx, r) && ItemsOf(sub) == Keys(ch[idx].value)
    ensures forall s :: s in ItemsOf(r + sub) <==> s in Keys(Hash(ch)) && |s| > level && Slot(s[level], cfg.numChildren) < idx + 1
  {
    var child := ch[idx].value;
    assert forall s :: s in Keys(child) ==> RoutesTo(cfg, s, level, idx);
    assert forall s :: s in Keys(child) ==> s in Keys(Hash(ch));
    forall s | s in Keys(Hash(ch)) && |s| > level && Slot(s[level], cfg.numChildren) == idx ensures s in Keys(child) {
      var m :| 0 <= m < |ch| && ch[m].Some? && s in Keys(ch[m].value);
    }
    ItemsOfConcat(r, sub);
  }

  lemma ListChildCounts(cfg: Config, ch: seq<Option<Node>>, level: nat, idx: int, r: seq<ItemSet>, sub: seq<ItemSet>)
    requires ValidConfig(cfg) && Wf(cfg, Hash(ch), level) && 0 <= idx < |ch| && ch[idx].Some?
    requires CountsAgree(cfg, Hash(ch), level, r)
    requires ItemsOf(sub) == Keys(ch[idx].value) && CountsAgree(cfg, ch[idx].value, level + 1, sub)
    ensures CountsAgree(cfg, Hash(ch), level, r + sub)
  {
    var child := ch[idx].value;
    assert forall s :: s in Keys(child) ==> RoutesTo(cfg, s, level, idx);
    forall i | 0 <= i < |sub| ensures Find(cfg, Hash(ch), level, sub[i].items) == Some(sub[i].frequency) {
      assert sub[i].items in ItemsOf(sub);
    }
  }

  lemma ListChildDistinct(cfg: Config, ch: seq<Option<Node>>, level: nat, idx: int, r: seq<ItemSet>, sub: seq<ItemSet>)
    requires ValidConfig(cfg) && Wf(cfg, Hash(ch), level) && 0 <= idx < |ch| && ch[idx].Some?
    requires ListedBefore(cfg, ch, level, idx, r)
    requires ItemsOf(sub) == Keys(ch[idx].value) && Distinct(sub)
    ensures Distinct(r + sub)
  {
    var child := ch[idx].value;
    assert forall s :: s in Keys(child) ==> RoutesTo(cfg, s, level, idx);
    forall i | 0 <= i < |r| ensures r[i].items !in Keys(child) {
      assert r[i].items in ItemsOf(r);
    }
    forall a, c | 0 <= a < c < |r + sub| ensures (r + sub)[a].items != (r + sub)[c].items {
      if a < |r| && c >= |r| {
        assert sub[c - |r|].items in ItemsOf(sub);
      }
    }
  }

  /** An empty slot adds nothing: no stored itemset hashes to it. */
  lemma SkipEmpty(cfg: Config, ch: seq<Option<Node>>, level: nat, idx: int, r: seq<ItemSet>)
    requires ValidConfig(cfg) && Wf(cfg, Hash(ch), level) && 0 <= idx < |ch| && ch[idx].None?
    requires ListedBefore(cfg, ch, level, idx, r)
    ensures ListedBefore(cfg, ch, level, idx + 1, r)
  {
    forall s | s in Keys(Hash(ch)) ensures |s| > level && Slot(s[level], cfg.numChildren) != idx {
      var m :| 0 <= m < |ch| && ch[m].Some? && s in Keys(ch[m].value);
    }
  }

  /** Once all slots are passed, every stored itemset is listed. */
  lemma ListedAll(cfg: Config, ch: seq<Option<Node>>, level: nat, r: seq<ItemSet>)
    requires ValidConfig(cfg) && Wf(cfg, Hash(ch), level) && ListedBefore(cfg, ch, level, |ch|, r)
    ensures ItemsOf(r) == Keys(Hash(ch))
  {
    forall s | s in Keys(Hash(ch)) ensures |s| > level && Slot(s[level], cfg.numChildren) < |ch| {
      var m :| 0 <= m < |ch| && ch[m].Some? && s in Keys(ch[m].value);
    }
  }

  /** `toArray`: every itemset stored below the node exactly once, with its count. */
  method ToArray(cfg: Config, node: Node, level: nat) returns (r: seq<ItemSet>)
    requires ValidConfig(cfg) && Wf(cfg, node, level)
    ensures ItemsOf(r) == Keys(node)
    ensures Distinct(r)
    ensures CountsAgree(cfg, node, level, r)
    decreases node
  {
    match node
    case Bucket(b) =>
      r := ListBucket(b);
    case Hash(ch) =>
      r := [];
      var idx := 0;
      while idx < |ch|
        invariant 0 <= idx <= |ch|
        invariant ListedBefore(cfg, ch, level, idx, r)
      {
        if ch[idx].Some? {
          var sub := ToArray(cfg, ch[idx].value, level + 1);
          ListChild(cfg, ch, level, idx, r, sub);
          r := r + sub;
        } else {
          SkipEmpty(cfg, ch, level, idx, r);
        }
        idx := idx + 1;
      }
      ListedAll(cfg, ch, level, r);
  }
}

=== FILE: hashtree.dfy ===
/**
 * The k-itemset hash tree: a hash node at the root and the settings every node shares. Every
 * operation guards or delegates to the root, starting from depth 0 with nothing chosen.
 */
module HashTrees {
  import opened Outcomes
  import opened ItemSets
  import opened Combinations
  import opened Nodes
  import Insertion
  import Counting
  import Presence
  import Trimming
  import Enumeration
  import Decimal

  datatype HashTree = HashTree(cfg: Config, root: Node)

  /** The root is a hash node at depth 0 and the whole tree is well-formed. */
  predicate Valid(t: HashTree) {
    ValidConfig(t.cfg) && t.root.Hash? && Wf(t.cfg, t.root, 0)
  }

  /** The count stored for `s`, if the tree holds it. */
  function Lookup(t: HashTree, s: seq<int>): Option<nat>
    requires Valid(t)
  {
    Find(t.cfg, t.root, 0, s)
  }

  /** Everything the tree holds. */
  function Contents(t: HashTree): set<seq<int>> {
    Keys(t.root)
  }

  /** A lookup succeeds exactly for the itemsets the tree holds. */
  lemma LookupContents(t: HashTree, s: seq<int>)
    requires Valid(t)
    ensures Lookup(t, s).Some? <==> s in Contents(t)
  {
    FindKeys(t.cfg, t.root, 0, s);
  }

  /** Every itemset stored in a valid tree is a sorted k-itemset. */
  lemma {:induction false} StoredShape(cfg: Config, node: Node, level: nat, s: seq<int>)
    requires ValidConfig(cfg) && Wf(cfg, node, level) && s in Keys(node)
    ensures |s| == cfg.k && Increasing(s)
    decreases node
  {
    match node
    case Bucket(b) =>
    case Hash(ch) =>
      var j :| 0 <= j < |ch| && ch[j].Some? && s in Keys(ch[j].value);
      StoredShape(cfg, ch[j].value, level + 1, s);
  }

  /** The constructor: a root hash node with every child slot empty. */
  function New(k: int, minSupport: int, maxBucketSize: int, numChildren: int): (t: HashTree)
    requires k >= 1 && numChildren >= 1
    ensures Valid(t) && t.cfg == Config(k, minSupport, maxBucketSize, numChildren)
    ensures Contents(t) == {}
  {
    var t := HashTree(Config(k, minSupport, maxBucketSize, numChildren), Hash(seq(numChildren, _ => None)));
    NoChildrenNoKeys(t.root.children);
    t
  }

  /**
   * `isEmpty`: the root has no child at all. Then nothing is stored; and when every present child
   * holds something, as it does after a removal pass, the converse holds as well.
   */
  function IsEmpty(t: HashTree): (r: bool)
    requires Valid(t)
    ensures r ==> Contents(t) == {}
    ensures Compact(t.root) ==> (r <==> Contents(t) == {})
  {
    var r := forall j :: 0 <= j < |t.root.children| ==> t.root.children[j].None?;
    assert r ==> Contents(t) == {} by {
      if r {
        NoChildrenNoKeys(t.root.children);
      }
    }
    assert Compact(t.root) ==> (r <==> Contents(t) == {}) by {
      if Compact(t.root) {
        NoChildrenIffEmpty(t.root.children);
      }
    }
    r
  }

  /** `add`: an itemset of at least k items adds each of its k-itemsets; a shorter one is ignored. */
  function Add(t: HashTree, items: seq<int>): (r: HashTree)
    requires Valid(t) && Increasing(items)
    ensures Valid(r) && r.cfg == t.cfg
    ensures Contents(r) == Contents(t) + set s | s in FinalItemSets([], items, t.cfg.k) && |items| >= t.cfg.k
  {
    if |items| >= t.cfg.k then
      assert [] + items == items;
      HashTree(t.cfg, Insertion.AddAt(t.cfg, t.root, [], items))
    else t
  }

  /** After `add`, each k-itemset of `items` is counted (entering at 0), and nothing else changes. */
  lemma AddLookup(t: HashTree, items: seq<int>, s: seq<int>)
    requires Valid(t) && Increasing(items)
    ensures Lookup(Add(t, items), s) == if KSubset(s, items, t.cfg.k) then Bump(Lookup(t, s)) else Lookup(t, s)
  {
    ExtendsEmpty(s, items, t.cfg.k);
    if |items| >= t.cfg.k {
      assert [] + items == items;
      Insertion.AddAtFind(t.cfg, t.root, [], items, s);
    } else if KSubset(s, items, t.cfg.k) {
      SubsetShorter(s, items);
    }
  }

  /** `addAll`: adds the itemsets one after the other, in the order the set yields them. */
  function AddAll(t: HashTree, sets: seq<seq<int>>): (r: HashTree)
    requires Valid(t) && forall i :: 0 <= i < |sets| ==> Increasing(sets[i])
    ensures Valid(r) && r.cfg == t.cfg
    decreases |sets|
  {
    if |sets| == 0 then t else AddAll(Add(t, sets[0]), sets[1..])
  }

  /** The number of transactions that contain every item of `s`. */
  function Support(s: seq<int>, transactions: seq<seq<int>>): (n: nat)
    ensures n <= |transactions|
  {
    if |transactions| == 0 then 0
    else (if SubsetOf(s, transactions[0]) then 1 else 0) + Support(s, transactions[1..])
  }

  /** `n` more occurrences of an itemset: the first one, if new, enters at 0. */
  function BumpTimes(f: Option<nat>, n: nat): (r: Option<nat>)
    ensures n == 0 ==> r == f
    ensures n > 0 ==> r == Some(if f.Some? then f.value + n else n - 1)
    decreases n
  {
    if n == 0 then f else BumpTimes(Bump(f), n - 1)
  }

  /** After `addAll`, each sorted k-itemset is counted once per set containing it. */
  lemma {:induction false} AddAllLookup(t: HashTree, sets: seq<seq<int>>, s: seq<int>)
    requires Valid(t) && forall i :: 0 <= i < |sets| ==> Increasing(sets[i])
    requires |s| == t.cfg.k && Increasing(s)
    ensures Lookup(AddAll(t, sets), s) == BumpTimes(Lookup(t, s), Support(s, sets))
    decreases |sets|
  {
    if |sets| > 0 {
      var t' := Add(t, sets[0]);
      AddLookup(t, sets[0], s);
      AddAllLookup(t', sets[1..], s);
    }
  }

  /** `n` more occurrences of an itemset that is only counted when it is stored. */
  function CountTimes(f: Option<nat>, n: nat): (r: Option<nat>)
    ensures r.Some? <==> f.Some?
    ensures f.Some? ==> r.value == f.value + n
  {
    match f
    case None => None
    case Some(m) => Some(m + n)
  }

  /** `countCandidates`: counts each transaction of at least k items against the tree. */
  function CountCandidates(t: HashTree, transactions: seq<seq<int>>): (r: HashTree)
    requires Valid(t) && forall i :: 0 <= i < |transactions| ==> Increasing(transactions[i])
    ensures Valid(r) && r.cfg == t.cfg && Contents(r) == Contents(t)
    decreases |transactions|
  {
    if |transactions| == 0 then t
    else CountCandidates(CountTransaction(t, transactions[0]), transactions[1..])
  }

  /** One pass of the loop in `countCandidates`: a transaction shorter than k is passed over. */
  function CountTransaction(t: HashTree, x: seq<int>): (r: HashTree)
    requires Valid(t) && Increasing(x)
    ensures Valid(r) && r.cfg == t.cfg && Contents(r) == Contents(t)
  {
    if |x| >= t.cfg.k then
      assert [] + x == x;
      HashTree(t.cfg, Counting.CountAt(t.cfg, t.root, [], x))
    else t
  }

  /** One transaction adds one to exactly the stored k-itemsets it contains. */
  lemma TransactionLookup(t: HashTree, x: seq<int>, s: seq<int>)
    requires Valid(t) && Increasing(x) && |s| == t.cfg.k && Increasing(s)
    ensures Lookup(CountTransaction(t, x), s) == CountTimes(Lookup(t, s), if SubsetOf(s, x) then 1 else 0)
  {
    if |x| >= t.cfg.k {
      CountedLookup(t, x, s);
    } else if SubsetOf(s, x) {
      SubsetShorter(s, x);
    }
  }

  /** A transaction of at least k items is counted against the whole tree. */
  lemma CountedLookup(t: HashTree, x: seq<int>, s: seq<int>)
    requires Valid(t) && Increasing(x) && |x| >= t.cfg.k && |s| == t.cfg.k && Increasing(s)
    ensures Lookup(CountTransaction(t, x), s) == CountTimes(Lookup(t, s), if SubsetOf(s, x) then 1 else 0)
  {
    assert [] + x == x;
    assert CountTransaction(t, x).root == Counting.CountAt(t.cfg, t.root, [], x);
    Counting.CountAtFind(t.cfg, t.root, [], x, s);
    ExtendsEmpty(s, x, t.cfg.k);
  }

  /** After `countCandidates`, each stored k-itemset has gained one per transaction containing it. */
  lemma {:induction false} CountCandidatesLookup(t: HashTree, transactions: seq<seq<int>>, s: seq<int>)
    requires Valid(t) && forall i :: 0 <= i < |transactions| ==> Increasing(transactions[i])
    requires |s| == t.cfg.k && Increasing(s)
    ensures Lookup(CountCandidates(t, transactions), s) == CountTimes(Lookup(t, s), Support(s, transactions))
    decreases |transactions|
  {
    if |transactions| > 0 {
      TransactionLookup(t, transactions[0], s);
      CountCandidatesLookup(CountTransaction(t, transactions[0]), transactions[1..], s);
    }
  }

  /** `removeNoMinSupport`: keeps the itemsets counted at least the minimum support, and reports emptiness. */
  function RemoveNoMinSupport(t: HashTree): (r: (HashTree, bool))
    requires Valid(t)
    ensures Valid(r.0) && r.0.cfg == t.cfg && Compact(r.0.root)
    ensures r.1 <==> Contents(r.0) == {}
  {
    var ms := t.cfg.minSupport;
    var f := Trimming.Filter(t.root, (s, n) => n >= ms);
    Trimming.FilterWf(t.cfg, t.root, 0, (s, n) => n >= ms);
    (HashTree(t.cfg, f.0), f.1)
  }

  /** After `removeNoMinSupport` exactly the itemsets meeting the minimum support remain, with their counts. */
  lemma RemoveLookup(t: HashTree, s: seq<int>)
    requires Valid(t)
    ensures var f := Lookup(t, s);
      Lookup(RemoveNoMinSupport(t).0, s) == if f.Some? && f.value >= t.cfg.minSupport then f else None
  {
    var ms := t.cfg.minSupport;
    Trimming.FilterFind(t.cfg, t.root, 0, (s, n) => n >= ms, s);
  }

  /** `areAllSubsetsFrequent`, with an empty child slot counting as a missing subset. */
  function AreAllSubsetsFrequent(t: HashTree, items: seq<int>): (r: bool)
    requires Valid(t) && Increasing(items)
  {
    assert [] + items == items;
    Presence.SubsetsPresent(t.cfg, t.root, [], items, false)
  }

  /** `areAllSubsetsFrequent` as `Node.areAllSubsetsPresentInChildren` is written, passing over empty child slots. */
  function AreAllSubsetsFrequentAsWritten(t: HashTree, items: seq<int>): bool
    requires Valid(t) && Increasing(items)
  {
    assert [] + items == items;
    Presence.SubsetsPresent(t.cfg, t.root, [], items, true)
  }

  /** The check answers exactly whether every k-itemset of `items` is in the tree. */
  lemma AreAllSubsetsFrequentIff(t: HashTree, items: seq<int>)
    requires Valid(t) && Increasing(items)
    ensures AreAllSubsetsFrequent(t, items) <==> forall c :: KSubset(c, items, t.cfg.k) ==> Lookup(t, c).Some?
  {
    assert [] + items == items;
    Presence.PresentIff(t.cfg, t.root, [], items);
    forall c ensures Extends(c, [], items, t.cfg.k) <==> KSubset(c, items, t.cfg.k) {
      ExtendsEmpty(c, items, t.cfg.k);
    }
  }

  /**
   * The check as written answers exactly whether every k-itemset of `items` is in the tree or is
   * routed into an empty child slot.
   */
  lemma AreAllSubsetsFrequentAsWrittenIff(t: HashTree, items: seq<int>)
    requires Valid(t) && Increasing(items)
    ensures AreAllSubsetsFrequentAsWritten(t, items) <==>
      forall c :: KSubset(c, items, t.cfg.k) ==> Lookup(t, c).Some? || Presence.Blocked(t.cfg, t.root, 0, c)
  {
    assert [] + items == items;
    Presence.SkippingIff(t.cfg, t.root, [], items);
    forall c ensures Extends(c, [], items, t.cfg.k) <==> KSubset(c, items, t.cfg.k) {
      ExtendsEmpty(c, items, t.cfg.k);
    }
  }

  /** The message of the exception `prune` throws when given a tree of the wrong level. */
  function PruneMessage(previousK: int, k: int): string {
    "To prune the hash tree, it must be given the hash tree for frequent (k-1)-itemsets.\n" +
    "previous tree k: " + Decimal.IntToString(previousK) + "\n" +
    "current tree k: " + Decimal.IntToString(k) + "\n"
  }

  /**
   * `prune`: given the tree of (k-1)-itemsets, keeps the candidates all of whose (k-1)-itemsets
   * it holds; given a tree of any other level, throws.
   */
  function Prune(t: HashTree, previous: HashTree): (r: Result<HashTree>)
    requires Valid(t) && Valid(previous)
    ensures r.Failure? <==> previous.cfg.k != t.cfg.k - 1
    ensures r.Failure? ==> r.error == IllegalArgument(PruneMessage(previous.cfg.k, t.cfg.k))
    ensures r.Success? ==> Valid(r.value) && r.value.cfg == t.cfg && Contents(r.value) <= Contents(t)
  {
    if previous.cfg.k != t.cfg.k - 1 then Failure(IllegalArgument(PruneMessage(previous.cfg.k, t.cfg.k)))
    else
      var keep := (s, n) => Increasing(s) && AreAllSubsetsFrequent(previous, s);
      Trimming.FilterWf(t.cfg, t.root, 0, keep);
      Success(HashTree(t.cfg, Trimming.Filter(t.root, keep).0))
  }

  /** After a successful `prune` exactly the candidates whose (k-1)-itemsets are all frequent remain. */
  lemma PruneLookup(t: HashTree, previous: HashTree, s: seq<int>)
    requires Valid(t) && Valid(previous) && previous.cfg.k == t.cfg.k - 1
    ensures Prune(t, previous).Success?
    ensures Lookup(Prune(t, previous).value, s) ==
      if Lookup(t, s).Some? && forall c :: KSubset(c, s, previous.cfg.k) ==> Lookup(previous, c).Some?
      then Lookup(t, s) else None
  {
    var keep := (s, n) => Increasing(s) && AreAllSubsetsFrequent(previous, s);
    Trimming.FilterFind(t.cfg, t.root, 0, keep, s);
    if Lookup(t, s).Some? {
      FindKeys(t.cfg, t.root, 0, s);
      StoredShape(t.cfg, t.root, 0, s);
      AreAllSubsetsFrequentIff(previous, s);
    }
  }

  /** The corrected check is the stricter one: what it accepts, the check as written accepts too. */
  lemma CorrectedCheckIsStricter(t: HashTree, items: seq<int>)
    requires Valid(t) && Increasing(items) && AreAllSubsetsFrequent(t, items)
    ensures AreAllSubsetsFrequentAsWritten(t, items)
  {
    assert [] + items == items;
    Presence.StrictImpliesSkipping(t.cfg, t.root, [], items);
  }

  /** `prune` with `areAllSubsetsFrequent` as written, which passes over empty child slots. */
  function PruneAsWritten(t: HashTree, previous: HashTree): (r: Result<HashTree>)
    requires Valid(t) && Valid(previous)
    ensures r.Failure? <==> previous.cfg.k != t.cfg.k - 1
    ensures r.Failure? ==> r.error == IllegalArgument(PruneMessage(previous.cfg.k, t.cfg.k))
    ensures r.Success? ==> Valid(r.value) && r.value.cfg == t.cfg && Contents(r.value) <= Contents(t)
  {
    if previous.cfg.k != t.cfg.k - 1 then Failure(IllegalArgument(PruneMessage(previous.cfg.k, t.cfg.k)))
    else
      var keep := (s, n) => Increasing(s) && AreAllSubsetsFrequentAsWritten(previous, s);
      Trimming.FilterWf(t.cfg, t.root, 0, keep);
      Success(HashTree(t.cfg, Trimming.Filter(t.root, keep).0))
  }

  /**
   * The prune as written keeps exactly the candidates that the check as written accepts, with their
   * counts. So it keeps every candidate the corrected prune keeps, and nothing that was not a candidate.
   */
  lemma PruneAsWrittenLookup(t: HashTree, previous: HashTree, s: seq<int>)
    requires Valid(t) && Valid(previous) && previous.cfg.k == t.cfg.k - 1
    ensures PruneAsWritten(t, previous).Success? && Prune(t, previous).Success?
    ensures Lookup(PruneAsWritten(t, previous).value, s) ==
      if Lookup(t, s).Some? && Increasing(s) && AreAllSubsetsFrequentAsWritten(previous, s) then Lookup(t, s) else None
    ensures Lookup(Prune(t, previous).value, s).Some? ==>
      Lookup(PruneAsWritten(t, previous).value, s) == Lookup(Prune(t, previous).value, s)
    ensures Lookup(PruneAsWritten(t, previous).value, s) in {None, Lookup(t, s)}
  {
    var keep := (s, n) => Increasing(s) && AreAllSubsetsFrequentAsWritten(previous, s);
    Trimming.FilterFind(t.cfg, t.root, 0, keep, s);
    PruneLookup(t, previous, s);
    if Lookup(t, s).Some? {
      FindKeys(t.cfg, t.root, 0, s);
      StoredShape(t.cfg, t.root, 0, s);
    }
    if Lookup(Prune(t, previous).value, s).Some? {
      FindKeys(t.cfg, t.root, 0, s);
      StoredShape(t.cfg, t.root, 0, s);
      AreAllSubsetsFrequentIff(previous, s);
      CorrectedCheckIsStricter(previous, s);
    }
  }

  /** `incFrequencies`: every stored itemset is counted once more. */
  function IncFrequencies(t: HashTree): (r: HashTree)
    requires Valid(t)
    ensures Valid(r) && r.cfg == t.cfg && Contents(r) == Contents(t)
    ensures Counting.Skeleton(r.root) == Counting.Skeleton(t.root)
  {
    Counting.IncEveryWf(t.cfg, t.root, 0);
    HashTree(t.cfg, Counting.IncEvery(t.root))
  }

  /** After `incFrequencies` each stored itemset's count is one higher. */
  lemma IncFrequenciesLookup(t: HashTree, s: seq<int>)
    requires Valid(t)
    ensures Lookup(IncFrequencies(t), s) == Counting.Count(Lookup(t, s))
  {
    Counting.IncEveryFind(t.cfg, t.root, 0, s);
  }

  /** `toArray`: every stored itemset exactly once, with its count. */
  method ToArray(t: HashTree) returns (r: seq<ItemSet>)
    requires Valid(t)
    ensures Enumeration.ItemsOf(r) == Contents(t)
    ensures Enumeration.Distinct(r)
    ensures forall i :: 0 <= i < |r| ==> Lookup(t, r[i].items) == Some(r[i].frequency)
  {
    r := Enumeration.ToArray(t.cfg, t.root, 0);
  }
}

=== FILE: insert.dfy ===
/**
 * Adding itemsets to a subtree: `add`, `addToBucket`, `addToChildren` and `convertToHashNode`.
 * A node at depth L is always reached with L items chosen, so the depth is `|chosen|`.
 */
module Insertion {
  import opened Outcomes
  import opened ItemSets
  import opened Combinations
  import opened Nodes

  /** The itemsets of a bucket, with their counts, whose item at `level` hashes to slot `j`. */
  function Part(cfg: Config, b: map<seq<int>, nat>, level: nat, j: int): (r: Option<Node>)
    requires ValidConfig(cfg) && forall s :: s in b ==> |s| > level
    ensures r.Some? ==> r.value.Bucket? && r.value.bucket.Keys != {}
    ensures r.Some? ==> forall s :: s in r.value.bucket <==> s in b && Slot(s[level], cfg.numChildren) == j
    ensures r.None? ==> forall s :: s in b ==> Slot(s[level], cfg.numChildren) != j
  {
    var part := map s | s in b && Slot(s[level], cfg.numChildren) == j :: b[s];
    if part.Keys == {} then
      assert forall s :: s in b ==> Slot(s[level], cfg.numChildren) != j by {
        forall s | s in b ensures Slot(s[level], cfg.numChildren) != j {
          assert Slot(s[level], cfg.numChildren) == j ==> s in part.Keys;
        }
      }
      None
    else Some(Bucket(part))
  }

  /**
   * `convertToHashNode`: the bucket becomes a hash node, and each of its itemsets moves, keeping its
   * count, into a new child bucket chosen by the hash of its item at this depth.
   */
  function Convert(cfg: Config, b: map<seq<int>, nat>, level: nat): (r: Node)
    requires ValidConfig(cfg) && forall s :: s in b ==> |s| > level
    ensures r.Hash? && |r.children| == cfg.numChildren
    ensures forall j :: 0 <= j < cfg.numChildren ==> r.children[j] == Part(cfg, b, level, j)
  {
    Hash(seq(cfg.numChildren, j requires 0 <= j < cfg.numChildren => Part(cfg, b, level, j)))
  }

  /** Converting keeps every itemset and its count where a lookup finds it. */
  lemma ConvertFind(cfg: Config, b: map<seq<int>, nat>, level: nat, s: seq<int>)
    requires ValidConfig(cfg) && forall t :: t in b ==> |t| > level
    ensures Find(cfg, Convert(cfg, b, level), level, s) == Find(cfg, Bucket(b), level, s)
  {
    if |s| > level {
      var j := Slot(s[level], cfg.numChildren);
      var p := Part(cfg, b, level, j);
      if p.Some? {
        assert s in p.value.bucket <==> s in b;
        if s in b {
          assert p.value.bucket[s] == b[s];
        }
      }
    }
  }

  /** Converting a bucket above depth k gives a well-formed hash node with the same itemsets. */
  lemma ConvertWf(cfg: Config, b: map<seq<int>, nat>, level: nat)
    requires ValidConfig(cfg) && Wf(cfg, Bucket(b), level) && level < cfg.k
    ensures Wf(cfg, Convert(cfg, b, level), level)
    ensures Keys(Convert(cfg, b, level)) == b.Keys
  {
    var r := Convert(cfg, b, level);
    var ch := r.children;
    forall j | 0 <= j < |ch| && ch[j].Some?
      ensures Wf(cfg, ch[j].value, level + 1) && forall s :: s in Keys(ch[j].value) ==> RoutesTo(cfg, s, level, j)
    {
      assert ch[j] == Part(cfg, b, level, j);
    }
    forall s | s in Keys(r) ensures s in b {
      var j :| 0 <= j < |ch| && ch[j].Some? && s in Keys(ch[j].value);
      assert ch[j] == Part(cfg, b, level, j);
    }
    forall s | s in b ensures s in Keys(r) {
      var j := Slot(s[level], cfg.numChildren);
      assert ch[j] == Part(cfg, b, level, j);
      assert s in Keys(ch[j].value);
    }
  }

  /**
   * `add(chosen, remaining)` on a node at depth |chosen|: a bucket node adds to its bucket, and a
   * hash node passes the next combinations to its children.
   */
  function AddAt(cfg: Config, node: Node, chosen: seq<int>, remaining: seq<int>): (r: Node)
    requires ValidConfig(cfg) && Wf(cfg, node, |chosen|) && |chosen| <= cfg.k
    requires node.Bucket? ==> |chosen| + |remaining| >= cfg.k
    requires Increasing(chosen + remaining)
    ensures Wf(cfg, r, |chosen|)
    ensures Keys(r) == Keys(node) + FinalItemSets(chosen, remaining, cfg.k)
    decreases cfg.k - |chosen|, 1, 0
  {
    match node
    case Bucket(b) => AddToBucket(cfg, b, chosen, remaining)
    case Hash(ch) => Hash(AddToChildren(cfg, ch, chosen, remaining, 0))
  }

  /**
   * `addToBucket`: once k items are chosen the bucket takes the itemset; otherwise it takes all
   * completions if the count of them still fits under the limit, and else turns into a hash node.
   */
  function AddToBucket(cfg: Config, b: map<seq<int>, nat>, chosen: seq<int>, remaining: seq<int>): (r: Node)
    requires ValidConfig(cfg) && Wf(cfg, Bucket(b), |chosen|) && |chosen| <= cfg.k <= |chosen| + |remaining|
    requires Increasing(chosen + remaining)
    ensures Wf(cfg, r, |chosen|)
    ensures Keys(r) == b.Keys + FinalItemSets(chosen, remaining, cfg.k)
    decreases cfg.k - |chosen|, 0, |remaining| + 2
  {
    if |chosen| == cfg.k then
      ChosenSorted(chosen, remaining);
      PutWf(cfg, b, chosen);
      Bucket(Put(b, chosen))
    else if |b| + |FinalItemSets(chosen, remaining, cfg.k)| <= cfg.maxBucketSize then
      FinalSorted(chosen, remaining, cfg.k);
      PutAllWf(cfg, b, FinalItemSets(chosen, remaining, cfg.k));
      Bucket(PutAll(b, FinalItemSets(chosen, remaining, cfg.k)))
    else
      Overflow(cfg, b, chosen, remaining)
  }

  /** Putting one sorted k-itemset keeps a bucket well-formed. */
  lemma PutWf(cfg: Config, b: map<seq<int>, nat>, s: seq<int>)
    requires ValidConfig(cfg) && Wf(cfg, Bucket(b), 0) && |s| == cfg.k && Increasing(s)
    ensures forall level: nat :: Wf(cfg, Bucket(Put(b, s)), level)
    ensures Keys(Bucket(Put(b, s))) == b.Keys + {s}
  {
  }

  /** Putting sorted k-itemsets keeps a bucket well-formed. */
  lemma PutAllWf(cfg: Config, b: map<seq<int>, nat>, items: set<seq<int>>)
    requires ValidConfig(cfg) && Wf(cfg, Bucket(b), 0)
    requires forall s :: s in items ==> |s| == cfg.k && Increasing(s)
    ensures forall level: nat :: Wf(cfg, Bucket(PutAll(b, items)), level)
    ensures Keys(Bucket(PutAll(b, items))) == b.Keys + items
  {
    assert PutAll(b, items).Keys == b.Keys + items;
  }

  /** The items chosen so far are sorted. */
  lemma ChosenSorted(chosen: seq<int>, remaining: seq<int>)
    requires Increasing(chosen + remaining)
    ensures Increasing(chosen)
  {
    assert forall a :: 0 <= a < |chosen| ==> (chosen + remaining)[a] == chosen[a];
  }

  /** Every completion is a sorted k-itemset. */
  lemma FinalSorted(chosen: seq<int>, remaining: seq<int>, k: int)
    requires |chosen| <= k && Increasing(chosen + remaining)
    ensures forall s :: s in FinalItemSets(chosen, remaining, k) ==> |s| == k && Increasing(s)
  {
    RemainingSorted(chosen, remaining);
    FinalMembers(chosen, remaining, k);
    forall s | s in FinalItemSets(chosen, remaining, k) ensures |s| == k && Increasing(s) {
      ExtendsIncreasing(s, chosen, remaining, k);
    }
  }

  /** The bucket is full: convert it, then add the next combinations to the new children. */
  function Overflow(cfg: Config, b: map<seq<int>, nat>, chosen: seq<int>, remaining: seq<int>): (r: Node)
    requires ValidConfig(cfg) && Wf(cfg, Bucket(b), |chosen|) && |chosen| < cfg.k
    requires Increasing(chosen + remaining)
    ensures Wf(cfg, r, |chosen|)
    ensures Keys(r) == b.Keys + FinalItemSets(chosen, remaining, cfg.k)
    decreases cfg.k - |chosen|, 0, |remaining| + 1
  {
    ConvertWf(cfg, b, |chosen|);
    var h := Convert(cfg, b, |chosen|);
    Hash(AddToChildren(cfg, h.children, chosen, remaining, 0))
  }

  /**
   * `addToChildren` from the `i`-th next combination on: each goes to the child its newly chosen item
   * hashes to.
   */
  function AddToChildren(cfg: Config, ch: seq<Option<Node>>, chosen: seq<int>, remaining: seq<int>, i: nat)
    : (r: seq<Option<Node>>)
    requires ValidConfig(cfg) && Wf(cfg, Hash(ch), |chosen|)
    requires Increasing(chosen + remaining) && i <= |remaining|
    ensures Wf(cfg, Hash(r), |chosen|)
    ensures Keys(Hash(r)) == Keys(Hash(ch)) + FinalOf(chosen, remaining, cfg.k, i)
    decreases cfg.k - |chosen|, 0, |remaining| - i
  {
    if i >= |NextCombinations(chosen, remaining, cfg.k)| then ch
    else AddToChildren(cfg, AddToChild(cfg, ch, chosen, remaining, i), chosen, remaining, i + 1)
  }

  /**
   * The body of `addToChildren`'s loop for the `i`-th next combination: it is added to the child its
   * newly chosen item hashes to, a new bucket being created in an empty slot.
   */
  function AddToChild(cfg: Config, ch: seq<Option<Node>>, chosen: seq<int>, remaining: seq<int>, i: nat)
    : (r: seq<Option<Node>>)
    requires ValidConfig(cfg) && Wf(cfg, Hash(ch), |chosen|) && Increasing(chosen + remaining)
    requires i < |NextCombinations(chosen, remaining, cfg.k)|
    ensures Wf(cfg, Hash(r), |chosen|)
    ensures Keys(Hash(r)) == Keys(Hash(ch)) +
      FinalItemSets(NextCombinations(chosen, remaining, cfg.k)[i].chosen, NextCombinations(chosen, remaining, cfg.k)[i].remaining, cfg.k)
    decreases cfg.k - |chosen|, 0, |remaining| - i - 1
  {
    var c := NextCombinations(chosen, remaining, cfg.k)[i];
    NextSorted(chosen, remaining, cfg.k, i);
    assert |c.chosen| == |chosen| + 1 <= cfg.k;
    var j := Slot(c.chosen[|c.chosen| - 1], cfg.numChildren);
    assert 0 <= j < |ch|;
    var child := if ch[j].Some? then ch[j].value else Bucket(map[]);
    assert Wf(cfg, child, |c.chosen|);
    var added := AddAt(cfg, child, c.chosen, c.remaining);
    RemainingSorted(c.chosen, c.remaining);
    FinalRoutes(cfg, c.chosen, c.remaining, |chosen|);
    ReplaceChild(cfg, ch, |chosen|, j, added, FinalItemSets(c.chosen, c.remaining, cfg.k));
    ch[j := Some(added)]
  }

  /** Replacing the child in slot `j` by one that also holds `extra`, all routed to `j`, adds `extra` below the node. */
  lemma ReplaceChild(cfg: Config, ch: seq<Option<Node>>, level: nat, j: int, added: Node, extra: set<seq<int>>)
    requires ValidConfig(cfg) && Wf(cfg, Hash(ch), level) && 0 <= j < |ch| && Wf(cfg, added, level + 1)
    requires Keys(added) == (if ch[j].Some? then Keys(ch[j].value) else {}) + extra
    requires forall s :: s in extra ==> RoutesTo(cfg, s, level, j)
    ensures Wf(cfg, Hash(ch[j := Some(added)]), level)
    ensures Keys(Hash(ch[j := Some(added)])) == Keys(Hash(ch)) + extra
  {
    KeysUpdate(ch, j, added);
    if ch[j].Some? {
      assert Keys(ch[j].value) <= Keys(Hash(ch));
    }
    var ch' := ch[j := Some(added)];
    forall m | 0 <= m < |ch'| && ch'[m].Some?
      ensures Wf(cfg, ch'[m].value, level + 1) && forall s :: s in Keys(ch'[m].value) ==> RoutesTo(cfg, s, level, m)
    {
      if m != j {
        assert ch'[m] == ch[m];
      }
    }
  }

  /** The completions of a combination with `level + 1` items chosen all route through its last item's slot. */
  lemma FinalRoutes(cfg: Config, chosen: seq<int>, remaining: seq<int>, level: nat)
    requires ValidConfig(cfg) && |chosen| == level + 1 <= cfg.k && Increasing(remaining)
    ensures forall s :: s in FinalItemSets(chosen, remaining, cfg.k) ==> RoutesTo(cfg, s, level, Slot(chosen[level], cfg.numChildren))
  {
    FinalMembers(chosen, remaining, cfg.k);
    forall s | s in FinalItemSets(chosen, remaining, cfg.k) ensures RoutesTo(cfg, s, level, Slot(chosen[level], cfg.numChildren)) {
      ExtendsPrefix(s, chosen, remaining, cfg.k, level);
    }
  }

  /** Replacing the child in slot `j` only affects the itemsets routed through that slot. */
  lemma SlotFind(cfg: Config, ch: seq<Option<Node>>, level: nat, j: int, x: Node, s: seq<int>)
    requires ValidConfig(cfg) && 0 <= j < |ch|
    ensures Find(cfg, Hash(ch[j := Some(x)]), level, s) ==
      if RoutesTo(cfg, s, level, j) then Find(cfg, x, level + 1, s) else Find(cfg, Hash(ch), level, s)
    ensures RoutesTo(cfg, s, level, j) ==>
      Find(cfg, Hash(ch), level, s) == Find(cfg, if ch[j].Some? then ch[j].value else Bucket(map[]), level + 1, s)
  {
  }

  /** `addToBucket` with all k items chosen: the itemset itself is put. */
  lemma BucketFullFind(cfg: Config, b: map<seq<int>, nat>, chosen: seq<int>, remaining: seq<int>, s: seq<int>)
    requires ValidConfig(cfg) && Wf(cfg, Bucket(b), |chosen|) && |chosen| == cfg.k
    requires Increasing(chosen + remaining)
    ensures Find(cfg, AddAt(cfg, Bucket(b), chosen, remaining), |chosen|, s) ==
      if Extends(s, chosen, remaining, cfg.k) then Bump(Find(cfg, Bucket(b), |chosen|, s)) else Find(cfg, Bucket(b), |chosen|, s)
  {
    assert AddAt(cfg, Bucket(b), chosen, remaining) == Bucket(Put(b, chosen));
    ExtendsComplete(s, chosen, remaining, cfg.k);
  }

  /** Putting a set of itemsets counts exactly those of them. */
  lemma PutAllFind(cfg: Config, b: map<seq<int>, nat>, items: set<seq<int>>, level: nat, s: seq<int>)
    requires ValidConfig(cfg)
    ensures Find(cfg, Bucket(PutAll(b, items)), level, s) ==
      if s in items then Bump(Find(cfg, Bucket(b), level, s)) else Find(cfg, Bucket(b), level, s)
  {
  }

  /** `addToBucket` when all completions fit: they are put into the bucket. */
  lemma BucketFitsFind(cfg: Config, b: map<seq<int>, nat>, chosen: seq<int>, remaining: seq<int>, s: seq<int>)
    requires ValidConfig(cfg) && Wf(cfg, Bucket(b), |chosen|) && |chosen| < cfg.k <= |chosen| + |remaining|
    requires Increasing(chosen + remaining)
    requires |b| + |FinalItemSets(chosen, remaining, cfg.k)| <= cfg.maxBucketSize
    ensures Find(cfg, AddAt(cfg, Bucket(b), chosen, remaining), |chosen|, s) ==
      if Extends(s, chosen, remaining, cfg.k) then Bump(Find(cfg, Bucket(b), |chosen|, s)) else Find(cfg, Bucket(b), |chosen|, s)
  {
    var extra := FinalItemSets(chosen, remaining, cfg.k);
    FitsBranch(cfg, b, chosen, remaining);
    PutAllFind(cfg, b, extra, |chosen|, s);
    RemainingSorted(chosen, remaining);
    FinalMembers(chosen, remaining, cfg.k);
  }

  /**
   * The effect of `add` on one itemset `s`: if `s` is one of the k-itemsets that `chosen` and
   * `remaining` make, it is counted (entering at 0 when new); every other itemset keeps its count.
   */
  lemma {:induction false} AddAtFind(cfg: Config, node: Node, chosen: seq<int>, remaining: seq<int>, s: seq<int>)
    requires ValidConfig(cfg) && Wf(cfg, node, |chosen|) && |chosen| <= cfg.k
    requires node.Bucket? ==> |chosen| + |remaining| >= cfg.k
    requires Increasing(chosen + remaining)
    ensures Find(cfg, AddAt(cfg, node, chosen, remaining), |chosen|, s) ==
      if Extends(s, chosen, remaining, cfg.k) then Bump(Find(cfg, node, |chosen|, s)) else Find(cfg, node, |chosen|, s)
    decreases cfg.k - |chosen|, 1, 0
  {
    match node
    case Bucket(b) =>
      if |chosen| == cfg.k {
        BucketFullFind(cfg, b, chosen, remaining, s);
      } else if |b| + |FinalItemSets(chosen, remaining, cfg.k)| <= cfg.maxBucketSize {
        BucketFitsFind(cfg, b, chosen, remaining, s);
      } else {
        ConvertWf(cfg, b, |chosen|);
        var h := Convert(cfg, b, |chosen|);
        AddToChildrenFind(cfg, h.children, chosen, remaining, 0, s);
        ConvertedFind(cfg, b, chosen, remaining, s);
      }
    case Hash(ch) =>
      assert AddAt(cfg, node, chosen, remaining) == Hash(AddToChildren(cfg, ch, chosen, remaining, 0));
      AddToChildrenFind(cfg, ch, chosen, remaining, 0, s);
      assert remaining[0..] == remaining;
  }

  /** `addToBucket` when all completions fit: the bucket takes them all. */
  lemma FitsBranch(cfg: Config, b: map<seq<int>, nat>, chosen: seq<int>, remaining: seq<int>)
    requires ValidConfig(cfg) && Wf(cfg, Bucket(b), |chosen|) && |chosen| < cfg.k <= |chosen| + |remaining|
    requires Increasing(chosen + remaining)
    requires |b| + |FinalItemSets(chosen, remaining, cfg.k)| <= cfg.maxBucketSize
    ensures AddAt(cfg, Bucket(b), chosen, remaining) == Bucket(PutAll(b, FinalItemSets(chosen, remaining, cfg.k)))
  {
  }

  /** `addToBucket` when the bucket overflows: it converts, then passes the combinations on. */
  lemma OverflowBranch(cfg: Config, b: map<seq<int>, nat>, chosen: seq<int>, remaining: seq<int>)
    requires ValidConfig(cfg) && Wf(cfg, Bucket(b), |chosen|) && |chosen| < cfg.k <= |chosen| + |remaining|
    requires Increasing(chosen + remaining)
    requires |b| + |FinalItemSets(chosen, remaining, cfg.k)| > cfg.maxBucketSize
    ensures AddAt(cfg, Bucket(b), chosen, remaining) == Overflow(cfg, b, chosen, remaining)
  {
  }

  /**
   * `addToBucket` below depth k, stated with the binomial coefficient `Node.addToBucket` consults: the
   * completions go into the bucket when their number fits under the limit, else the bucket overflows.
   */
  lemma AddToBucketChoice(cfg: Config, b: map<seq<int>, nat>, chosen: seq<int>, remaining: seq<int>)
    requires ValidConfig(cfg) && Wf(cfg, Bucket(b), |chosen|) && |chosen| < cfg.k <= |chosen| + |remaining|
    requires Increasing(chosen + remaining)
    ensures AddAt(cfg, Bucket(b), chosen, remaining) ==
      if |b| + Choose(|remaining|, cfg.k - |chosen|) <= cfg.maxBucketSize
      then Bucket(PutAll(b, FinalItemSets(chosen, remaining, cfg.k)))
      else Overflow(cfg, b, chosen, remaining)
  {
    RemainingSorted(chosen, remaining);
    FinalCount(chosen, remaining, cfg.k);
    if |b| + Choose(|remaining|, cfg.k - |chosen|) <= cfg.maxBucketSize {
      FitsBranch(cfg, b, chosen, remaining);
    } else {
      OverflowBranch(cfg, b, chosen, remaining);
    }
  }

  lemma ConvertedFind(cfg: Config, b: map<seq<int>, nat>, chosen: seq<int>, remaining: seq<int>, s: seq<int>)
    requires ValidConfig(cfg) && Wf(cfg, Bucket(b), |chosen|) && |chosen| < cfg.k <= |chosen| + |remaining|
    requires Increasing(chosen + remaining)
    requires |b| + |FinalItemSets(chosen, remaining, cfg.k)| > cfg.maxBucketSize
    requires Wf(cfg, Convert(cfg, b, |chosen|), |chosen|)
    requires
      var h := Convert(cfg, b, |chosen|);
      Find(cfg, Hash(AddToChildren(cfg, h.children, chosen, remaining, 0)), |chosen|, s) ==
        if Extends(s, chosen, remaining[0..], cfg.k) then Bump(Find(cfg, h, |chosen|, s)) else Find(cfg, h, |chosen|, s)
    ensures Find(cfg, AddAt(cfg, Bucket(b), chosen, remaining), |chosen|, s) ==
      if Extends(s, chosen, remaining, cfg.k) then Bump(Find(cfg, Bucket(b), |chosen|, s)) else Find(cfg, Bucket(b), |chosen|, s)
  {
    var h := Convert(cfg, b, |chosen|);
    OverflowBranch(cfg, b, chosen, remaining);
    assert Overflow(cfg, b, chosen, remaining) == Hash(AddToChildren(cfg, h.children, chosen, remaining, 0));
    assert h == Hash(h.children);
    ConvertFind(cfg, b, |chosen|, s);
    assert remaining[0..] == remaining;
  }

  lemma {:induction false} AddToChildrenFind(cfg: Config, ch: seq<Option<Node>>, chosen: seq<int>, remaining: seq<int>, i: nat, s: seq<int>)
    requires ValidConfig(cfg) && Wf(cfg, Hash(ch), |chosen|)
    requires Increasing(chosen + remaining) && i <= |remaining|
    ensures Find(cfg, Hash(AddToChildren(cfg, ch, chosen, remaining, i)), |chosen|, s) ==
      if Extends(s, chosen, remaining[i..], cfg.k) then Bump(Find(cfg, Hash(ch), |chosen|, s)) else Find(cfg, Hash(ch), |chosen|, s)
    decreases cfg.k - |chosen|, 0, |remaining| - i
  {
    var L := |chosen|;
    var next := NextCombinations(chosen, remaining, cfg.k);
    RemainingSorted(chosen, remaining);
    IncreasingSuffix(remaining, i);
    if i >= |next| {
      ExtendsTooFew(s, chosen, remaining[i..], cfg.k);
    } else {
      var c := next[i];
      AddToChildrenFind(cfg, AddToChild(cfg, ch, chosen, remaining, i), chosen, remaining, i + 1, s);
      AddToChildFind(cfg, ch, chosen, remaining, i, s);
      var rest := remaining[i..];
      assert rest[0] == remaining[i] && rest[1..] == remaining[i + 1..];
      assert c == Combination(chosen + [rest[0]], rest[1..]);
      ExtendsSplit(s, chosen, rest, cfg.k);
    }
  }

  /** Adding the `i`-th next combination bumps exactly the k-itemsets it makes. */
  lemma {:induction false} AddToChildFind(cfg: Config, ch: seq<Option<Node>>, chosen: seq<int>, remaining: seq<int>, i: nat, s: seq<int>)
    requires ValidConfig(cfg) && Wf(cfg, Hash(ch), |chosen|) && Increasing(chosen + remaining)
    requires i < |NextCombinations(chosen, remaining, cfg.k)|
    ensures
      var c := NextCombinations(chosen, remaining, cfg.k)[i];
      Find(cfg, Hash(AddToChild(cfg, ch, chosen, remaining, i)), |chosen|, s) ==
        if Extends(s, c.chosen, c.remaining, cfg.k) then Bump(Find(cfg, Hash(ch), |chosen|, s)) else Find(cfg, Hash(ch), |chosen|, s)
    decreases cfg.k - |chosen|, 0, |remaining| - i - 1
  {
    var L := |chosen|;
    var c := NextCombinations(chosen, remaining, cfg.k)[i];
    var j := Slot(c.chosen[|c.chosen| - 1], cfg.numChildren);
    var child := if ch[j].Some? then ch[j].value else Bucket(map[]);
    NextSorted(chosen, remaining, cfg.k, i);
    var added := AddAt(cfg, child, c.chosen, c.remaining);
    assert AddToChild(cfg, ch, chosen, remaining, i) == ch[j := Some(added)];
    AddAtFind(cfg, child, c.chosen, c.remaining, s);
    SlotFind(cfg, ch, L, j, added, s);
    if Extends(s, c.chosen, c.remaining, cfg.k) {
      ExtendsPrefix(s, c.chosen, c.remaining, cfg.k, L);
      assert RoutesTo(cfg, s, L, j);
    }
  }
}

=== FILE: items.dfy ===
/** The two kinds of item an itemset may hold: integer items and string items. */
module Items {
  import opened Outcomes
  import Decimal

  const TwoTo31: int := 0x8000_0000
  const TwoTo32: int := 0x1_0000_0000

  /** An item wraps either an integer id or a string id. */
  datatype Item = IntegerItem(id: int) | StringItem(text: string)

  /** Items of one mining run must all be of one kind; comparing across kinds ends the process. */
  predicate SameKind(a: Item, b: Item) {
    a.IntegerItem? == b.IntegerItem?
  }

  /**
   * The UTF-16 code units of one character, as a Java `String` holds it: the character itself
   * below 0x10000, otherwise a high surrogate followed by a low surrogate.
   */
  function CodeUnits(c: char): (u: seq<int>)
    ensures 1 <= |u| <= 2
    ensures forall i :: 0 <= i < |u| ==> 0 <= u[i] < 0x1_0000
    ensures |u| == 1 <==> (c as int) < 0x1_0000
  {
    var v := c as int;
    if v < 0x1_0000 then [v]
    else [0xD800 + (v - 0x1_0000) / 0x400, 0xDC00 + (v - 0x1_0000) % 0x400]
  }

  /** The UTF-16 encoding of a string: the sequence of `char`s a Java `String` is made of. */
  function Utf16(s: string): seq<int>
    decreases |s|
  {
    if |s| == 0 then [] else CodeUnits(s[0]) + Utf16(s[1..])
  }

  /** Wrapping 32-bit accumulation of `h = 31 * h + c` over code units, as an unsigned value. */
  function UnsignedHash(u: seq<int>): (h: nat)
    ensures h < TwoTo32
  {
    if |u| == 0 then 0
    else (31 * UnsignedHash(u[..|u| - 1]) + u[|u| - 1]) % TwoTo32
  }

  /** Reinterprets 32 bits as a two's-complement `int`. */
  function ToInt32(u: nat): (i: int)
    requires u < TwoTo32
    ensures -TwoTo31 <= i < TwoTo31
    ensures (i - u) % TwoTo32 == 0
  {
    if u < TwoTo31 then u else u - TwoTo32
  }

  /** The polynomial `u[0]*31^(n-1) + ... + u[n-1]` over unbounded integers. */
  function Polynomial(u: seq<int>): int {
    if |u| == 0 then 0 else 31 * Polynomial(u[..|u| - 1]) + u[|u| - 1]
  }

  /** `String.hashCode`: the 32-bit hash of the string's UTF-16 code units, which may be negative. */
  function StringHashCode(s: string): (h: int)
    ensures -TwoTo31 <= h < TwoTo31
  {
    ToInt32(UnsignedHash(Utf16(s)))
  }

  lemma ModUnique(x: int, q: int, r: int, m: int)
    requires m > 0 && 0 <= r < m && x == q * m + r
    ensures x % m == r
  {
    var q' := x / m;
    var r' := x % m;
    var d := q - q';
    assert x == q' * m + r';
    assert d * m == r' - r by {
      assert q * m - q' * m == (q - q') * m;
    }
    if d >= 1 {
      assert false;
    } else if d <= -1 {
      assert false;
    }
  }

  lemma MulMod(a: int, b: int, c: int, m: int)
    requires m > 0
    ensures (c * (a % m) + b) % m == (c * a + b) % m
  {
    var q := a / m;
    var y := c * (a % m) + b;
    assert a == q * m + a % m;
    assert c * a + b == (c * q) * m + y;
    assert y == (y / m) * m + y % m;
    assert c * a + b == (c * q + y / m) * m + y % m;
    ModUnique(c * a + b, c * q + y / m, y % m, m);
  }

  lemma {:induction false} UnsignedHashIsPolynomial(u: seq<int>)
    ensures UnsignedHash(u) == Polynomial(u) % TwoTo32
    decreases |u|
  {
    if |u| > 0 {
      var init := u[..|u| - 1];
      UnsignedHashIsPolynomial(init);
      MulMod(Polynomial(init), u[|u| - 1], 31, TwoTo32);
    }
  }

  /** The hash is the textbook polynomial hash of the UTF-16 code units, reduced to 32 bits. */
  lemma StringHashCodeIsPolynomial(s: string)
    ensures (StringHashCode(s) - Polynomial(Utf16(s))) % TwoTo32 == 0
  {
    var units := Utf16(s);
    UnsignedHashIsPolynomial(units);
    var h := StringHashCode(s);
    var u := UnsignedHash(units);
    var p := Polynomial(units);
    var a := (h - u) / TwoTo32;
    var b := p / TwoTo32;
    assert h - u == a * TwoTo32;
    assert p - u == b * TwoTo32;
    assert h - p == (a - b) * TwoTo32;
    ModUnique(h - p, a - b, 0, TwoTo32);
  }

  /** In the Basic Multilingual Plane every character is one code unit, its own value. */
  lemma {:induction false} BmpUnits(s: string)
    requires forall i :: 0 <= i < |s| ==> (s[i] as int) < 0x1_0000
    ensures |Utf16(s)| == |s|
    ensures forall i :: 0 <= i < |s| ==> Utf16(s)[i] == s[i] as int
    decreases |s|
  {
    if |s| > 0 {
      BmpUnits(s[1..]);
      assert forall i :: 1 <= i < |s| ==> s[1..][i - 1] == s[i];
    }
  }

  /** A character beyond 0xFFFF is hashed as its two surrogates: U+1F600 is 0xD83D, 0xDE00. */
  lemma SurrogatePairHash()
    ensures Utf16("\U{1F600}") == [0xD83D, 0xDE00]
    ensures StringHashCode("\U{1F600}") == 31 * 0xD83D + 0xDE00
  {
    var s := "\U{1F600}";
    assert s[1..] == [];
    assert Utf16(s) == [0xD83D, 0xDE00];
    var u := Utf16(s);
    assert u[..1] == [0xD83D] && u[..1][..0] == [];
    assert UnsignedHash(u[..1]) == 0xD83D;
    assert UnsignedHash(u) == 31 * 0xD83D + 0xDE00;
  }

  /** Java's `String.compareTo`: the difference of the first differing code units, else of the lengths. */
  function UnitsCompare(x: seq<int>, y: seq<int>): int
    decreases |x|
  {
    if |x| == 0 || |y| == 0 then |x| - |y|
    else if x[0] != y[0] then x[0] - y[0]
    else UnitsCompare(x[1..], y[1..])
  }

  /** `String.compareTo` on the UTF-16 encodings of the two strings. */
  function StringCompare(x: string, y: string): int {
    UnitsCompare(Utf16(x), Utf16(y))
  }

  /** A surrogate pair sorts below a high BMP character, unlike the code points: "～" (U+FF5E) comes after U+1F600. */
  lemma SurrogatesSortLow()
    ensures StringCompare("\U{FF5E}", "\U{1F600}") == 0xFF5E - 0xD83D
    ensures StringCompare("\U{FF5E}", "\U{1F600}") > 0 && ("\U{FF5E}"[0] as int) < ("\U{1F600}"[0] as int)
  {
    var x := "\U{FF5E}";
    var y := "\U{1F600}";
    assert x[1..] == [] && y[1..] == [];
    assert Utf16(x) == [0xFF5E];
    assert Utf16(y) == [0xD83D, 0xDE00];
  }

  /** `compareTo`: numeric order on integer ids, lexicographic order on string ids. */
  function CompareTo(a: Item, b: Item): int
    requires SameKind(a, b)
  {
    match a
    case IntegerItem(x) => if x < b.id then -1 else if x == b.id then 0 else 1
    case StringItem(x) => StringCompare(x, b.text)
  }

  /** `equals` throws for an argument of the other kind and is value equality otherwise. */
  function Equals(a: Item, b: Item): (r: Result<bool>)
    ensures r.Failure? <==> !SameKind(a, b)
    ensures r.Success? ==> (r.value <==> a == b)
  {
    match a
    case IntegerItem(_) =>
      if b.IntegerItem? then Success(a == b)
      else Failure(IllegalArgument("IntegerItem.equals: invalid item object"))
    case StringItem(_) =>
      if b.StringItem? then Success(a == b)
      else Failure(IllegalArgument("StringItem.equals: invalid item object"))
  }

  /** `hashCode`: the integer itself, or the string's hash. */
  function HashCode(a: Item): int {
    match a
    case IntegerItem(x) => x
    case StringItem(x) => StringHashCode(x)
  }

  /** `getIdForHash`, the number the hash tree reduces to a child slot. */
  function GetIdForHash(a: Item): (h: int)
    ensures a.IntegerItem? ==> h == a.id
    ensures a.StringItem? ==> -TwoTo31 <= h < TwoTo31 && (h - Polynomial(Utf16(a.text))) % TwoTo32 == 0
  {
    match a
    case IntegerItem(x) => x
    case StringItem(x) =>
      StringHashCodeIsPolynomial(x);
      StringHashCode(x)
  }

  /** `toString`: the decimal form of an integer id, the raw text of a string id. */
  function ToString(a: Item): string {
    match a
    case IntegerItem(x) => Decimal.IntToString(x)
    case StringItem(x) => x
  }

  lemma {:induction false} UnitsCompareAntisymmetric(x: seq<int>, y: seq<int>)
    ensures UnitsCompare(x, y) == -UnitsCompare(y, x)
    decreases |x|
  {
    if |x| > 0 && |y| > 0 && x[0] == y[0] {
      UnitsCompareAntisymmetric(x[1..], y[1..]);
    }
  }

  lemma {:induction false} UnitsCompareZero(x: seq<int>, y: seq<int>)
    ensures UnitsCompare(x, y) == 0 <==> x == y
    decreases |x|
  {
    if |x| > 0 && |y| > 0 && x[0] == y[0] {
      UnitsCompareZero(x[1..], y[1..]);
      assert x == [x[0]] + x[1..] && y == [y[0]] + y[1..];
    }
  }

  lemma {:induction false} UnitsCompareTransitive(x: seq<int>, y: seq<int>, z: seq<int>)
    requires UnitsCompare(x, y) < 0 && UnitsCompare(y, z) < 0
    ensures UnitsCompare(x, z) < 0
    decreases |x|
  {
    if |x| > 0 && |y| > 0 && |z| > 0 && x[0] == y[0] == z[0] {
      UnitsCompareTransitive(x[1..], y[1..], z[1..]);
    }
  }

  /** The first unit of a character tells whether it is a surrogate pair, and the units give back the character. */
  lemma HeadUnits(a: char, b: char, rx: seq<int>, ry: seq<int>)
    requires CodeUnits(a) + rx == CodeUnits(b) + ry
    ensures a == b && rx == ry
  {
    var ua := CodeUnits(a);
    var ub := CodeUnits(b);
    var va := a as int;
    var vb := b as int;
    assert (ua + rx)[0] == ua[0] && (ub + ry)[0] == ub[0];
    if va < 0x1_0000 && vb < 0x1_0000 {
      assert va == vb;
      assert (ua + rx)[1..] == rx && (ub + ry)[1..] == ry;
    } else if va < 0x1_0000 || vb < 0x1_0000 {
      assert false;
    } else {
      assert (ua + rx)[1] == ua[1] && (ub + ry)[1] == ub[1];
      var da := va - 0x1_0000;
      var db := vb - 0x1_0000;
      assert da / 0x400 == db / 0x400 && da % 0x400 == db % 0x400;
      assert da == 0x400 * (da / 0x400) + da % 0x400;
      assert db == 0x400 * (db / 0x400) + db % 0x400;
      assert (ua + rx)[2..] == rx && (ub + ry)[2..] == ry;
    }
  }

  /** Distinct strings have distinct UTF-16 encodings. */
  lemma {:induction false} Utf16Injective(x: string, y: string)
    requires Utf16(x) == Utf16(y)
    ensures x == y
    decreases |x|
  {
    if |x| == 0 && |y| > 0 {
      assert false;
    } else if |x| > 0 && |y| == 0 {
      assert false;
    } else if |x| > 0 {
      HeadUnits(x[0], y[0], Utf16(x[1..]), Utf16(y[1..]));
      Utf16Injective(x[1..], y[1..]);
      assert x == [x[0]] + x[1..] && y == [y[0]] + y[1..];
    }
  }

  /** `compareTo` is antisymmetric, is zero exactly on equal items, and is transitive. */
  lemma CompareIsOrder(a: Item, b: Item, c: Item)
    requires SameKind(a, b) && SameKind(b, c)
    ensures CompareTo(a, b) == -CompareTo(b, a)
    ensures CompareTo(a, b) == 0 <==> a == b
    ensures CompareTo(a, b) < 0 && CompareTo(b, c) < 0 ==> CompareTo(a, c) < 0
  {
    if a.StringItem? {
      UnitsCompareAntisymmetric(Utf16(a.text), Utf16(b.text));
      UnitsCompareZero(Utf16(a.text), Utf16(b.text));
      if Utf16(a.text) == Utf16(b.text) {
        Utf16Injective(a.text, b.text);
      }
      if CompareTo(a, b) < 0 && CompareTo(b, c) < 0 {
        UnitsCompareTransitive(Utf16(a.text), Utf16(b.text), Utf16(c.text));
      }
    }
  }

  /** On integer items the order is the numeric order of the ids. */
  lemma IntegerOrderIsNumeric(x: int, y: int)
    ensures CompareTo(IntegerItem(x), IntegerItem(y)) < 0 <==> x < y
    ensures CompareTo(IntegerItem(x), IntegerItem(y)) == 0 <==> x == y
  {
  }

  /** `equals` answers exactly when `compareTo` would return zero. */
  lemma EqualsAgreesWithCompare(a: Item, b: Item)
    requires SameKind(a, b)
    ensures Equals(a, b) == Success(CompareTo(a, b) == 0)
  {
    CompareIsOrder(a, b, b);
  }

  /** Equal items have equal hash ids, so they are routed to the same child slot. */
  lemma EqualItemsShareHashId(a: Item, b: Item)
    requires SameKind(a, b) && CompareTo(a, b) == 0
    ensures GetIdForHash(a) == GetIdForHash(b) && HashCode(a) == HashCode(b)
  {
    CompareIsOrder(a, b, b);
  }

  /** The text of an integer item reads back as the same integer. */
  lemma IntegerToStringRoundTrip(x: int)
    ensures Decimal.ParseInt(ToString(IntegerItem(x))) == Some(x)
  {
    Decimal.IntRoundTrip(x);
  }
}

=== FILE: itemsets.dfy ===
/** Itemsets: sorted, duplicate-free sets of integer items with an occurrence counter. */
module ItemSets {
  import opened Outcomes
  import Decimal

  /** Strictly increasing: the canonical, duplicate-free order a `TreeSet` iterates in. */
  predicate Increasing(s: seq<int>) {
    forall i, j :: 0 <= i < j < |s| ==> s[i] < s[j]
  }

  /** The items of `s` as a mathematical set. */
  function Elements(s: seq<int>): set<int> {
    set x | x in s
  }

  /** Every item of `c` occurs in `t`. */
  predicate SubsetOf(c: seq<int>, t: seq<int>) {
    forall i :: 0 <= i < |c| ==> c[i] in t
  }

  /** An itemset: its items in increasing order, and how often it has been counted. */
  datatype ItemSet = ItemSet(items: seq<int>, frequency: nat)

  /** `new ItemSet()`: no items, frequency 0. */
  function Empty(): (r: ItemSet)
    ensures r.items == [] && r.frequency == 0
  {
    ItemSet([], 0)
  }

  /** The copy constructor: copies the items of `source` but not its frequency. */
  function Copy(source: ItemSet): (r: ItemSet)
    ensures r.items == source.items && r.frequency == 0
  {
    ItemSet(source.items, 0)
  }

  /** `incFrequency`. */
  function IncFrequency(x: ItemSet): (r: ItemSet)
    ensures r.items == x.items && r.frequency == x.frequency + 1
  {
    x.(frequency := x.frequency + 1)
  }

  lemma ConsIncreasing(h: int, t: seq<int>)
    requires Increasing(t) && forall y :: y in t ==> h < y
    ensures Increasing([h] + t)
  {
    forall i, j | 0 <= i < j < |[h] + t| ensures ([h] + t)[i] < ([h] + t)[j] {
      if i > 0 {
        assert ([h] + t)[i] == t[i - 1] && ([h] + t)[j] == t[j - 1];
      } else {
        assert ([h] + t)[j] in t;
      }
    }
  }

  /** Inserts `x` into a sorted sequence at its place; nothing changes if `x` is present. */
  function Insert(s: seq<int>, x: int): (r: seq<int>)
    requires Increasing(s)
    ensures Increasing(r)
    ensures forall y :: y in r <==> y in s || y == x
    ensures |r| == if x in s then |s| else |s| + 1
    decreases |s|
  {
    if |s| == 0 then [x]
    else if x < s[0] then
      ConsIncreasing(x, s);
      [x] + s
    else if x == s[0] then s
    else
      var tail := Insert(s[1..], x);
      assert forall y :: y in s <==> y == s[0] || y in s[1..] by {
        assert s == [s[0]] + s[1..];
      }
      ConsIncreasing(s[0], tail);
      [s[0]] + tail
  }

  /** `add(item)` on an itemset: set insertion, frequency unchanged. */
  function Add(x: ItemSet, item: int): (r: ItemSet)
    requires Increasing(x.items)
    ensures Increasing(r.items) && Elements(r.items) == Elements(x.items) + {item}
    ensures r.frequency == x.frequency
  {
    assert Elements(Insert(x.items, item)) == Elements(x.items) + {item};
    x.(items := Insert(x.items, item))
  }

  /** Set equality, as the `equals` a `TreeSet` inherits: the frequency plays no part. */
  predicate Equal(a: ItemSet, b: ItemSet) {
    Elements(a.items) == Elements(b.items)
  }

  lemma {:induction false} IncreasingUnique(a: seq<int>, b: seq<int>)
    requires Increasing(a) && Increasing(b) && Elements(a) == Elements(b)
    ensures a == b
    decreases |a|
  {
    assert |a| == 0 <==> |b| == 0 by {
      if |a| > 0 {
        assert a[0] in Elements(a);
      }
      if |b| > 0 {
        assert b[0] in Elements(b);
      }
    }
    if |a| > 0 {
      assert a[0] == b[0] by {
        assert b[0] in Elements(a) && a[0] in Elements(b);
      }
      assert Elements(a[1..]) == Elements(b[1..]) by {
        forall x | x in Elements(a[1..]) ensures x in Elements(b[1..]) {
          assert x in Elements(b) && x != b[0];
        }
        forall x | x in Elements(b[1..]) ensures x in Elements(a[1..]) {
          assert x in Elements(a) && x != a[0];
        }
      }
      IncreasingUnique(a[1..], b[1..]);
      assert a == [a[0]] + a[1..] && b == [b[0]] + b[1..];
    }
  }

  /** On sorted itemsets, set equality is sequence equality, whatever the frequencies. */
  lemma EqualIsSameItems(a: ItemSet, b: ItemSet)
    requires Increasing(a.items) && Increasing(b.items)
    ensures Equal(a, b) <==> a.items == b.items
  {
    if Equal(a, b) {
      IncreasingUnique(a.items, b.items);
    }
  }

  /** Counting an itemset does not change what it is equal to. */
  lemma FrequencyIgnoredByEqual(x: ItemSet)
    ensures Equal(IncFrequency(x), x) && Equal(Copy(x), x)
  {
  }

  lemma {:induction false} DistinctCard(s: seq<int>)
    requires Increasing(s)
    ensures |Elements(s)| == |s|
    decreases |s|
  {
    if |s| > 0 {
      TailSplit(s);
      DistinctCard(s[1..]);
    }
  }

  /** The tail of an increasing sequence is increasing and misses the head. */
  lemma TailSplit(s: seq<int>)
    requires Increasing(s) && |s| > 0
    ensures Increasing(s[1..])
    ensures Elements(s) == {s[0]} + Elements(s[1..]) && s[0] !in Elements(s[1..])
  {
    assert s == [s[0]] + s[1..];
    forall x | x in Elements(s[1..]) ensures x != s[0] {
      var j :| 0 <= j < |s[1..]| && s[1..][j] == x;
      assert s[j + 1] == x;
    }
  }

  /** A duplicate-free itemset drawn from a finite set of items is no larger than that set. */
  lemma LengthBoundedBy(c: seq<int>, universe: set<int>)
    requires Increasing(c) && Elements(c) <= universe
    ensures |c| <= |universe|
  {
    DistinctCard(c);
    SubsetCard(Elements(c), universe);
  }

  lemma SubsetCard<T>(a: set<T>, b: set<T>)
    requires a <= b
    ensures |a| <= |b|
  {
    assert b == a + (b - a);
    assert a * (b - a) == {};
  }

  /** A sorted itemset whose items all occur in a sorted itemset is no longer than it. */
  lemma SubsetShorter(c: seq<int>, t: seq<int>)
    requires Increasing(c) && Increasing(t) && SubsetOf(c, t)
    ensures |c| <= |t|
  {
    assert Elements(c) <= Elements(t) by {
      forall x | x in Elements(c) ensures x in Elements(t) {
        var i :| 0 <= i < |c| && c[i] == x;
      }
    }
    LengthBoundedBy(c, Elements(t));
    DistinctCard(t);
  }

  // ---------------------------------------------------------------------------------
  // Rendering: `{ 1 2 3 }:7`

  function RenderItems(items: seq<int>): string {
    if |items| == 0 then "" else " " + Decimal.IntToString(items[0]) + RenderItems(items[1..])
  }

  /** `toString`: `{`, then ` item` for each item in increasing order, then ` }:` and the frequency. */
  function ToString(x: ItemSet): string {
    "{" + RenderItems(x.items) + " }:" + Decimal.NatToString(x.frequency)
  }

  /** The number of characters before the next space. */
  function TokenLength(s: string): (n: nat)
    ensures n <= |s|
    ensures forall i :: 0 <= i < n ==> s[i] != ' '
    ensures n < |s| ==> s[n] == ' '
  {
    if |s| == 0 || s[0] == ' ' then 0 else 1 + TokenLength(s[1..])
  }

  function Prepend(item: int, r: Option<(seq<int>, nat)>): Option<(seq<int>, nat)> {
    match r
    case None => None
    case Some(rest) => Some(([item] + rest.0, rest.1))
  }

  /** Reads the part of a rendering after the opening brace. */
  function ParseBody(s: string): Option<(seq<int>, nat)>
    decreases |s|
  {
    if |s| >= 3 && s[0] == ' ' && s[1] == '}' && s[2] == ':' then
      match Decimal.ParseDigits(s[3..])
      case None => None
      case Some(f) => Some(([], f))
    else if |s| >= 1 && s[0] == ' ' then
      var n := TokenLength(s[1..]);
      if n == 0 then None
      else
        match Decimal.ParseInt(s[1..1 + n])
        case None => None
        case Some(item) => Prepend(item, ParseBody(s[1 + n..]))
    else None
  }

  /** Reads a rendering produced by `ToString`. */
  function Parse(s: string): Option<ItemSet> {
    if |s| >= 1 && s[0] == '{' then
      match ParseBody(s[1..])
      case None => None
      case Some(body) => Some(ItemSet(body.0, body.1))
    else None
  }

  lemma TokenOfInt(x: int, rest: string)
    requires |rest| >= 1 && rest[0] == ' '
    ensures TokenLength(Decimal.IntToString(x) + rest) == |Decimal.IntToString(x)|
  {
    var t := Decimal.IntToString(x);
    assert (t + rest)[|t|] == ' ';
    assert forall i :: 0 <= i < |t| ==> (t + rest)[i] == t[i] && t[i] != ' ';
  }

  lemma ParseBodyUnfold(s: string, n: nat, x: int)
    requires |s| >= 2 && s[0] == ' ' && s[1] != '}'
    requires n == TokenLength(s[1..]) && n != 0
    requires Decimal.ParseInt(s[1..1 + n]) == Some(x)
    ensures ParseBody(s) == Prepend(x, ParseBody(s[1 + n..]))
  {
  }

  lemma ParseBodyConcat(t: string, rest: string, x: int)
    requires |t| >= 1 && t[0] != '}'
    requires TokenLength(t + rest) == |t|
    requires Decimal.ParseInt(t) == Some(x)
    ensures ParseBody(" " + t + rest) == Prepend(x, ParseBody(rest))
  {
    var s := " " + t + rest;
    assert s[1..] == t + rest;
    assert s[1..1 + |t|] == t;
    assert s[1 + |t|..] == rest;
    ParseBodyUnfold(s, |t|, x);
  }

  lemma ParseBodyStep(x: int, rest: string)
    requires |rest| >= 1 && rest[0] == ' '
    ensures ParseBody(" " + Decimal.IntToString(x) + rest) == Prepend(x, ParseBody(rest))
  {
    var t := Decimal.IntToString(x);
    TokenOfInt(x, rest);
    Decimal.IntRoundTrip(x);
    assert t[0] != '}';
    ParseBodyConcat(t, rest, x);
  }

  lemma BodyEnd(f: nat)
    ensures ParseBody(" }:" + Decimal.NatToString(f)) == Some(([], f))
  {
    var tail := " }:" + Decimal.NatToString(f);
    assert tail[3..] == Decimal.NatToString(f);
    Decimal.NatRoundTrip(f);
  }

  lemma RenderStartsWithSpace(items: seq<int>, tail: string)
    requires |tail| >= 1 && tail[0] == ' '
    ensures |RenderItems(items) + tail| >= 1 && (RenderItems(items) + tail)[0] == ' '
  {
    if |items| != 0 {
      assert RenderItems(items)[0] == ' ';
    }
  }

  lemma ConcatAssoc(a: string, b: string, c: string, d: string)
    ensures a + b + c + d == a + b + (c + d)
  {
  }

  lemma RenderCons(items: seq<int>, tail: string)
    requires |items| >= 1
    ensures RenderItems(items) + tail == " " + Decimal.IntToString(items[0]) + (RenderItems(items[1..]) + tail)
  {
    ConcatAssoc(" ", Decimal.IntToString(items[0]), RenderItems(items[1..]), tail);
  }

  lemma {:induction false} BodyRoundTrip(items: seq<int>, tail: string, f: nat)
    requires |tail| >= 1 && tail[0] == ' ' && ParseBody(tail) == Some(([], f))
    ensures ParseBody(RenderItems(items) + tail) == Some((items, f))
    decreases |items|
  {
    if |items| == 0 {
      assert RenderItems(items) + tail == tail;
    } else {
      var rest := RenderItems(items[1..]) + tail;
      RenderCons(items, tail);
      RenderStartsWithSpace(items[1..], tail);
      ParseBodyStep(items[0], rest);
      BodyRoundTrip(items[1..], tail, f);
      assert [items[0]] + items[1..] == items;
    }
  }

  /** Rendering an itemset and reading the text back gives the same items and frequency. */
  lemma ToStringRoundTrip(x: ItemSet)
    ensures Parse(ToString(x)) == Some(x)
  {
    var tail := " }:" + Decimal.NatToString(x.frequency);
    var body := RenderItems(x.items) + tail;
    assert ToString(x) == "{" + body;
    BodyEnd(x.frequency);
    BodyRoundTrip(x.items, tail, x.frequency);
    ParseOpen(body, x);
  }

  lemma ParseOpen(body: string, x: ItemSet)
    requires ParseBody(body) == Some((x.items, x.frequency))
    ensures Parse("{" + body) == Some(x)
  {
    assert ("{" + body)[1..] == body;
  }
}

=== FILE: join.dfy ===
/**
 * `generateNextCandidateTree`: the self-join of a tree of k-itemsets. Two itemsets that agree on
 * all but their last item give the (k+1)-itemset holding both; every candidate enters at count 0.
 */
module Joining {
  import opened Outcomes
  import opened ItemSets
  import opened Combinations
  import opened Nodes
  import opened HashTrees
  import Enumeration
  import Bounds

  /** The items of `a` before its last one are the first items of `b` too (always so for 1-itemsets). */
  predicate Joinable(a: seq<int>, b: seq<int>) {
    |a| >= 1 && |a| - 1 <= |b| && a[..|a| - 1] == b[..|a| - 1]
  }

  /** The items of `a` together with the last item of `b`, as a sorted itemset. */
  function Join(a: seq<int>, b: seq<int>): (r: seq<int>)
    requires Increasing(a) && |b| >= 1
    ensures Increasing(r)
    ensures forall y :: y in r <==> y in a || y == b[|b| - 1]
  {
    Insert(a, b[|b| - 1])
  }

  /** Two sorted itemsets of one length that share all but the last item join to that prefix and both last items, in order. */
  lemma JoinShape(a: seq<int>, b: seq<int>)
    requires Increasing(a) && Increasing(b) && |a| == |b| && Joinable(a, b) && a != b
    ensures var k := |a|; var x := a[k - 1]; var y := b[k - 1];
      x != y && Join(a, b) == Ordered(a[..k - 1], x, y)
  {
    var k := |a|;
    var p := a[..k - 1];
    var x := a[k - 1];
    var y := b[k - 1];
    assert a == p + [x] && b == p + [y];
    var w := p + (if x < y then [x, y] else [y, x]);
    assert Increasing(w) by {
      forall i, j | 0 <= i < j < |w| ensures w[i] < w[j] {
        if j < k - 1 {
          assert w[i] == a[i] && w[j] == a[j];
        } else if i < k - 1 {
          assert w[i] == a[i] && a[i] < a[k - 1] && b[i] == a[i] && b[i] < b[k - 1];
        }
      }
    }
    assert Elements(w) == Elements(Join(a, b)) by {
      forall z ensures z in w <==> z in a || z == y {
        assert z in a <==> z in p || z == x;
      }
    }
    IncreasingUnique(w, Join(a, b));
  }

  /** Joining is symmetric. */
  lemma JoinSymmetric(a: seq<int>, b: seq<int>)
    requires Increasing(a) && Increasing(b) && |a| == |b| && Joinable(a, b) && a != b
    ensures Joinable(b, a) && Join(a, b) == Join(b, a)
  {
    JoinShape(a, b);
    JoinShape(b, a);
  }

  /** The prefix and the two last items, in order. */
  function Ordered(prefix: seq<int>, x: int, y: int): seq<int> {
    prefix + (if x < y then [x, y] else [y, x])
  }

  /** A prefix followed by two distinct items in order determines the prefix and the two items. */
  lemma OrderedInjective(p: seq<int>, x: int, y: int, q: seq<int>, u: int, v: int)
    requires |p| == |q| && x != y && u != v && Ordered(p, x, y) == Ordered(q, u, v)
    ensures p == q && ((x == u && y == v) || (x == v && y == u))
  {
    var w := Ordered(p, x, y);
    assert w[..|p|] == p && w[..|q|] == q;
    assert w[|p|] == (if x < y then x else y) == (if u < v then u else v);
    assert w[|p| + 1] == (if x < y then y else x) == (if u < v then v else u);
  }

  /** Two sequences of one length with the same items before the last and the same last item are equal. */
  lemma SameLast(a: seq<int>, b: seq<int>)
    requires |a| == |b| >= 1
    ensures a[..|a| - 1] == b[..|b| - 1] && a[|a| - 1] == b[|b| - 1] ==> a == b
  {
    assert a == a[..|a| - 1] + [a[|a| - 1]] && b == b[..|b| - 1] + [b[|b| - 1]];
  }

  /** The candidate a join produces determines the pair of itemsets it was joined from. */
  lemma JoinDeterminesPair(a: seq<int>, b: seq<int>, c: seq<int>, d: seq<int>)
    requires Increasing(a) && Increasing(b) && |a| == |b| && Joinable(a, b) && a != b
    requires Increasing(c) && Increasing(d) && |c| == |d| == |a| && Joinable(c, d) && c != d
    requires Join(a, b) == Join(c, d)
    ensures (a == c && b == d) || (a == d && b == c)
  {
    var k := |a|;
    JoinShape(a, b);
    JoinShape(c, d);
    OrderedInjective(a[..k - 1], a[k - 1], b[k - 1], c[..k - 1], c[k - 1], d[k - 1]);
    SameLast(a, c);
    SameLast(b, d);
    SameLast(a, d);
    SameLast(b, c);
  }

  /** An itemset holds exactly one itemset of its own length: itself. */
  lemma WholeSubset(s: seq<int>, t: seq<int>)
    requires Increasing(t)
    ensures KSubset(s, t, |t|) <==> s == t
  {
    if KSubset(s, t, |t|) {
      DistinctCard(s);
      DistinctCard(t);
      var es := Elements(s);
      var et := Elements(t);
      assert es <= et;
      assert |et - es| == |et| - |es|;
      assert et - es == {};
      assert es == et;
      IncreasingUnique(s, t);
    }
  }

  /** The listed k-itemsets, each sorted and with at least one item. */
  predicate WellListed(items: seq<ItemSet>, k: int) {
    k >= 1 && forall p :: 0 <= p < |items| ==> |items[p].items| == k && Increasing(items[p].items)
  }

  /** The candidates joined from the pairs (p, q), p < q, that come before the pair (i, j) in loop order. */
  ghost function JoinedBefore(items: seq<ItemSet>, k: int, i: int, j: int): set<seq<int>>
    requires WellListed(items, k)
  {
    set p, q | 0 <= p < q < |items| && (p < i || (p == i && q < j)) && Joinable(items[p].items, items[q].items)
      :: Join(items[p].items, items[q].items)
  }

  /** The pair (i, j) gives a candidate that no earlier pair gave. */
  lemma JoinedNew(items: seq<ItemSet>, k: int, i: int, j: int)
    requires WellListed(items, k) && Enumeration.Distinct(items)
    requires 0 <= i < j < |items| && Joinable(items[i].items, items[j].items)
    ensures Join(items[i].items, items[j].items) !in JoinedBefore(items, k, i, j)
  {
    var a := items[i].items;
    var b := items[j].items;
    if Join(a, b) in JoinedBefore(items, k, i, j) {
      var p, q :| 0 <= p < q < |items| && (p < i || (p == i && q < j)) && Joinable(items[p].items, items[q].items)
        && Join(items[p].items, items[q].items) == Join(a, b);
      JoinDeterminesPair(a, b, items[p].items, items[q].items);
      assert false;
    }
  }

  /** One more pair adds its candidate, if the two are joinable. */
  lemma JoinedStep(items: seq<ItemSet>, k: int, i: int, j: int)
    requires WellListed(items, k) && 0 <= i < j < |items|
    ensures JoinedBefore(items, k, i, j + 1) ==
      JoinedBefore(items, k, i, j) + (if Joinable(items[i].items, items[j].items) then {Join(items[i].items, items[j].items)} else {})
  {
  }

  /** The end of one row of pairs is the start of the next. */
  lemma JoinedRow(items: seq<ItemSet>, k: int, i: int)
    requires WellListed(items, k) && 0 <= i
    ensures JoinedBefore(items, k, i, |items|) == JoinedBefore(items, k, i + 1, i + 2)
  {
  }

  /** Every joinable pair of distinct stored itemsets, in either order. */
  ghost function JoinAll(c: set<seq<int>>, k: int): set<seq<int>>
    requires forall a :: a in c ==> |a| == k && Increasing(a)
    requires k >= 1
  {
    set a, b | a in c && b in c && a != b && Joinable(a, b) :: Join(a, b)
  }

  /** Each listed itemset has its index in the list. */
  lemma IndexOf(items: seq<ItemSet>, a: seq<int>) returns (p: int)
    requires a in Enumeration.ItemsOf(items)
    ensures 0 <= p < |items| && items[p].items == a
  {
    var x :| x in items && x.items == a;
    p :| 0 <= p < |items| && items[p] == x;
  }

  /** The listed itemsets are the stored ones: sorted k-itemsets. */
  lemma ListedShape(items: seq<ItemSet>, k: int)
    requires WellListed(items, k)
    ensures forall a :: a in Enumeration.ItemsOf(items) ==> |a| == k && Increasing(a)
  {
    forall a | a in Enumeration.ItemsOf(items) ensures |a| == k && Increasing(a) {
      var p := IndexOf(items, a);
    }
  }

  /** The join of two stored itemsets, at positions p < q, is made by the loop. */
  lemma PairMade(items: seq<ItemSet>, k: int, p: int, q: int)
    requires WellListed(items, k)
    requires 0 <= p < q < |items| && Joinable(items[p].items, items[q].items)
    ensures Join(items[p].items, items[q].items) in JoinedBefore(items, k, |items|, 0)
  {
  }

  /** Every join of two listed itemsets is made by the loop, in one order or the other. */
  lemma JoinAllMade(items: seq<ItemSet>, k: int, s: seq<int>)
    requires WellListed(items, k)
    requires forall a :: a in Enumeration.ItemsOf(items) ==> |a| == k && Increasing(a)
    requires s in JoinAll(Enumeration.ItemsOf(items), k)
    ensures s in JoinedBefore(items, k, |items|, 0)
  {
    var a, b := JoinWitness(Enumeration.ItemsOf(items), k, s);
    var p := IndexOf(items, a);
    var q := IndexOf(items, b);
    if q < p {
      JoinSymmetric(a, b);
      PairMade(items, k, q, p);
    } else {
      PairMade(items, k, p, q);
    }
  }

  /** A member of the join set names the two itemsets it was joined from. */
  lemma JoinWitness(c: set<seq<int>>, k: int, s: seq<int>) returns (a: seq<int>, b: seq<int>)
    requires forall a :: a in c ==> |a| == k && Increasing(a)
    requires k >= 1 && s in JoinAll(c, k)
    ensures a in c && b in c && a != b && Joinable(a, b) && s == Join(a, b)
  {
    a, b :| a in c && b in c && a != b && Joinable(a, b) && s == Join(a, b);
  }

  /** Every candidate the loop makes is a join of two listed itemsets. */
  lemma MadeInJoinAll(items: seq<ItemSet>, k: int, s: seq<int>)
    requires WellListed(items, k)
    requires forall a :: a in Enumeration.ItemsOf(items) ==> |a| == k && Increasing(a)
    requires Enumeration.Distinct(items)
    requires s in JoinedBefore(items, k, |items|, 0)
    ensures s in JoinAll(Enumeration.ItemsOf(items), k)
  {
    var p, q :| 0 <= p < q < |items| && Joinable(items[p].items, items[q].items) && s == Join(items[p].items, items[q].items);
    assert items[p] in items && items[q] in items;
    InJoinAll(Enumeration.ItemsOf(items), k, items[p].items, items[q].items);
  }

  lemma InJoinAll(c: set<seq<int>>, k: int, a: seq<int>, b: seq<int>)
    requires k >= 1 && forall x :: x in c ==> |x| == k && Increasing(x)
    requires a in c && b in c && a != b && Joinable(a, b)
    ensures Join(a, b) in JoinAll(c, k)
  {
  }

  /** Once the loop is done, the tree holds exactly the joins, each at count 0. */
  lemma JoinResult(t: HashTree, items: seq<ItemSet>, r: HashTree)
    requires Valid(t) && Valid(r) && WellListed(items, t.cfg.k) && Enumeration.Distinct(items)
    requires Enumeration.ItemsOf(items) == Contents(t)
    requires forall s :: Lookup(r, s) == if s in JoinedBefore(items, t.cfg.k, |items|, 0) then Some(0) else None
    ensures forall a :: a in Contents(t) ==> |a| == t.cfg.k && Increasing(a)
    ensures Contents(r) == JoinAll(Contents(t), t.cfg.k)
    ensures forall s :: s in Contents(r) ==> Lookup(r, s) == Some(0)
  {
    var k := t.cfg.k;
    ListedShape(items, k);
    forall s | s in Contents(r) ensures s in JoinAll(Contents(t), k) && Lookup(r, s) == Some(0) {
      LookupContents(r, s);
      MadeInJoinAll(items, k, s);
    }
    forall s | s in JoinAll(Contents(t), k) ensures s in Contents(r) {
      JoinAllMade(items, k, s);
      LookupContents(r, s);
    }
  }

  /** Adding the join of the pair (i, j) to the tree of earlier joins gives the tree of joins up to that pair. */
  lemma AddCandidate(items: seq<ItemSet>, k: int, i: int, j: int, r: HashTree)
    requires WellListed(items, k) && Enumeration.Distinct(items)
    requires 0 <= i < j < |items| && Joinable(items[i].items, items[j].items)
    requires Valid(r) && r.cfg.k == k + 1
    requires forall s :: Lookup(r, s) == if s in JoinedBefore(items, k, i, j) then Some(0) else None
    ensures forall s ::
              Lookup(HashTrees.Add(r, Join(items[i].items, items[j].items)), s) ==
              if s in JoinedBefore(items, k, i, j + 1) then Some(0) else None
  {
    var a := items[i].items;
    var b := items[j].items;
    var candidate := Join(a, b);
    JoinShape(a, b);
    JoinedNew(items, k, i, j);
    JoinedStep(items, k, i, j);
    assert Lookup(r, candidate) == None;
    forall s ensures Lookup(HashTrees.Add(r, candidate), s) ==
      if s in JoinedBefore(items, k, i, j + 1) then Some(0) else None
    {
      AddFresh(r, candidate, JoinedBefore(items, k, i, j), s);
    }
  }

  /** Adding a k-itemset the tree does not hold yet stores it at count 0 and changes nothing else. */
  lemma AddFresh(r: HashTree, c: seq<int>, before: set<seq<int>>, s: seq<int>)
    requires Valid(r) && Increasing(c) && |c| == r.cfg.k && c !in before
    requires Lookup(r, s) == (if s in before then Some(0) else None)
    requires Lookup(r, c) == None
    ensures Lookup(HashTrees.Add(r, c), s) == if s in before + {c} then Some(0) else None
  {
    AddLookup(r, c, s);
    WholeSubset(s, c);
  }

  /** The stored itemsets, as listed, are sorted k-itemsets. */
  lemma ListedWell(t: HashTree, items: seq<ItemSet>)
    requires Valid(t) && Enumeration.ItemsOf(items) == Contents(t)
    ensures WellListed(items, t.cfg.k)
  {
    forall p | 0 <= p < |items| ensures |items[p].items| == t.cfg.k && Increasing(items[p].items) {
      assert items[p].items in Enumeration.ItemsOf(items);
      StoredShape(t.cfg, t.root, 0, items[p].items);
    }
  }

  /**
   * `generateNextCandidateTree`: a new tree for k+1 with the same settings, holding the join of
   * every joinable pair of this tree's itemsets, each at count 0.
   */
  method GenerateNextCandidateTree(t: HashTree) returns (r: HashTree)
    requires Valid(t)
    ensures Valid(r) && r.cfg == t.cfg.(k := t.cfg.k + 1)
    ensures forall a :: a in Contents(t) ==> |a| == t.cfg.k && Increasing(a)
    ensures Contents(r) == JoinAll(Contents(t), t.cfg.k)
    ensures forall s :: s in Contents(r) ==> Lookup(r, s) == Some(0)
    ensures Bounds.TreeBounded(r)
  {
    var k := t.cfg.k;
    var items := HashTrees.ToArray(t);
    ListedWell(t, items);
    r := New(k + 1, t.cfg.minSupport, t.cfg.maxBucketSize, t.cfg.numChildren);
    Bounds.NewBounded(k + 1, t.cfg.minSupport, t.cfg.maxBucketSize, t.cfg.numChildren);
    var i := 0;
    while i < |items| - 1
      invariant 0 <= i <= |items|
      invariant i >= |items| - 1 ==> JoinedBefore(items, k, i, i + 1) == JoinedBefore(items, k, |items|, 0)
      invariant Valid(r) && r.cfg == t.cfg.(k := k + 1) && Bounds.TreeBounded(r)
      invariant forall s :: Lookup(r, s) == if s in JoinedBefore(items, k, i, i + 1) then Some(0) else None
    {
      var j := i + 1;
      while j < |items|
        invariant i + 1 <= j <= |items|
        invariant Valid(r) && r.cfg == t.cfg.(k := k + 1) && Bounds.TreeBounded(r)
        invariant forall s :: Lookup(r, s) == if s in JoinedBefore(items, k, i, j) then Some(0) else None
      {
        var a := items[i].items;
        var b := items[j].items;
        JoinedStep(items, k, i, j);
        if Joinable(a, b) {
          var candidate := Join(a, b);
          AddCandidate(items, k, i, j, r);
          Bounds.AddBounded(r, candidate);
          r := HashTrees.Add(r, candidate);
        }
        j := j + 1;
      }
      JoinedRow(items, k, i);
      i := i + 1;
    }
    JoinResult(t, items, r);
  }
}

=== FILE: nodes.dfy ===
/**
 * The nodes of a k-itemset hash tree. A hash node holds one optional child per hash slot;
 * a bucket node maps each itemset it stores to that itemset's frequency count.
 */
module Nodes {
  import opened Outcomes
  import opened ItemSets
  import Items

  /** What every node of one tree shares: k, the minimum support, the bucket limit, the fan-out. */
  datatype Config = Config(k: int, minSupport: int, maxBucketSize: int, numChildren: int)

  /** The tree stores itemsets of at least one item and hashes into at least one slot. */
  predicate ValidConfig(cfg: Config) {
    cfg.k >= 1 && cfg.numChildren >= 1
  }

  /** A bucket node keeps its itemsets as a map from the items to the frequency. */
  datatype Node = Bucket(bucket: map<seq<int>, nat>) | Hash(children: seq<Option<Node>>)

  /** The child slot an item id hashes to: its remainder modulo the fan-out, always a valid index. */
  function Slot(id: int, n: int): (j: int)
    requires n >= 1
    ensures 0 <= j < n
  {
    id % n
  }

  /** The slot as `Node.hash` computes it, with Java's `%`, which keeps the sign of the dividend. */
  function JavaSlot(id: int, n: int): int
    requires n >= 1
  {
    if id >= 0 then id % n else -((-id) % n)
  }

  /** Java's remainder is a valid child index exactly when the id is non-negative or a multiple of n. */
  lemma JavaSlotInRange(id: int, n: int)
    requires n >= 1
    ensures 0 <= JavaSlot(id, n) < n <==> id >= 0 || (-id) % n == 0
    ensures 0 <= JavaSlot(id, n) ==> JavaSlot(id, n) == Slot(id, n)
  {
    if id < 0 && (-id) % n == 0 {
      var m := -id;
      var q := m / n;
      assert m == q * n;
      assert id == (-q) * n + 0;
      Items.ModUnique(id, -q, 0, n);
    }
  }

  /** The item `IntegerItem(-1)` in a node with three children hashes to slot -1. */
  lemma JavaSlotNegativeItem()
    ensures JavaSlot(-1, 3) == -1 && Slot(-1, 3) == 2
  {
  }

  /** `s` is at least as long as `level + 1` and its item at `level` hashes to slot `j`. */
  predicate RoutesTo(cfg: Config, s: seq<int>, level: nat, j: int)
    requires ValidConfig(cfg)
  {
    |s| > level && Slot(s[level], cfg.numChildren) == j
  }

  /** Every itemset stored anywhere below `node`. */
  function Keys(node: Node): set<seq<int>> {
    match node
    case Bucket(b) => b.Keys
    case Hash(ch) => set j, s | 0 <= j < |ch| && ch[j].Some? && s in Keys(ch[j].value) :: s
  }

  /**
   * The invariant of a subtree rooted at depth `level`: buckets hold sorted k-itemsets; hash nodes
   * sit above depth k, have one slot per child, and every itemset below slot `j` hashes to `j` on
   * its item at this depth.
   */
  predicate Wf(cfg: Config, node: Node, level: nat)
    requires ValidConfig(cfg)
  {
    match node
    case Bucket(b) => forall s :: s in b ==> |s| == cfg.k && Increasing(s)
    case Hash(ch) =>
      level < cfg.k && |ch| == cfg.numChildren &&
      forall j :: 0 <= j < |ch| && ch[j].Some? ==>
        Wf(cfg, ch[j].value, level + 1) && forall s :: s in Keys(ch[j].value) ==> RoutesTo(cfg, s, level, j)
  }

  /** Every child that is present stores at least one itemset. */
  predicate Compact(node: Node) {
    match node
    case Bucket(_) => true
    case Hash(ch) => forall j :: 0 <= j < |ch| && ch[j].Some? ==> Keys(ch[j].value) != {} && Compact(ch[j].value)
  }

  /** Follows the route of `s` from a node at depth `level` to a bucket and reads the count there. */
  function Find(cfg: Config, node: Node, level: nat, s: seq<int>): Option<nat>
    requires ValidConfig(cfg)
  {
    match node
    case Bucket(b) => if s in b then Some(b[s]) else None
    case Hash(ch) =>
      if |s| <= level then None
      else
        var j := Slot(s[level], cfg.numChildren);
        if j < |ch| && ch[j].Some? then Find(cfg, ch[j].value, level + 1, s) else None
  }

  /** In a well-formed subtree, an itemset is stored somewhere exactly when its route leads to it. */
  lemma {:induction false} FindKeys(cfg: Config, node: Node, level: nat, s: seq<int>)
    requires ValidConfig(cfg) && Wf(cfg, node, level)
    ensures s in Keys(node) <==> Find(cfg, node, level, s).Some?
    decreases node
  {
    match node
    case Bucket(b) =>
    case Hash(ch) =>
      if s in Keys(node) {
        var j :| 0 <= j < |ch| && ch[j].Some? && s in Keys(ch[j].value);
        FindKeys(cfg, ch[j].value, level + 1, s);
      }
      if Find(cfg, node, level, s).Some? {
        var j := Slot(s[level], cfg.numChildren);
        FindKeys(cfg, ch[j].value, level + 1, s);
      }
  }

  /** Growing one child grows the itemsets below the node by exactly that child's new itemsets. */
  lemma KeysUpdate(ch: seq<Option<Node>>, j: int, x: Node)
    requires 0 <= j < |ch| && (ch[j].Some? ==> Keys(ch[j].value) <= Keys(x))
    ensures Keys(Hash(ch[j := Some(x)])) == Keys(Hash(ch)) + Keys(x)
  {
    var ch' := ch[j := Some(x)];
    forall s | s in Keys(Hash(ch)) ensures s in Keys(Hash(ch')) {
      var i :| 0 <= i < |ch| && ch[i].Some? && s in Keys(ch[i].value);
      if i != j {
        assert ch'[i] == ch[i];
      } else {
        assert s in Keys(ch'[j].value);
      }
    }
    forall s | s in Keys(Hash(ch')) ensures s in Keys(Hash(ch)) + Keys(x) {
      var i :| 0 <= i < |ch'| && ch'[i].Some? && s in Keys(ch'[i].value);
      if i != j {
        assert ch'[i] == ch[i];
      }
    }
    assert ch'[j] == Some(x);
  }

  /** A hash node without children stores nothing. */
  lemma NoChildrenNoKeys(ch: seq<Option<Node>>)
    requires forall j :: 0 <= j < |ch| ==> ch[j].None?
    ensures Keys(Hash(ch)) == {}
  {
  }

  /** The root of a compact tree stores nothing exactly when it has no child at all. */
  lemma NoChildrenIffEmpty(ch: seq<Option<Node>>)
    requires Compact(Hash(ch))
    ensures (forall j :: 0 <= j < |ch| ==> ch[j].None?) <==> Keys(Hash(ch)) == {}
  {
    if exists j :: 0 <= j < |ch| && ch[j].Some? {
      var j :| 0 <= j < |ch| && ch[j].Some?;
      var s :| s in Keys(ch[j].value);
      assert s in Keys(Hash(ch));
    }
  }

  /** A fresh frequency for an itemset seen for the first time is 0; otherwise it goes up by one. */
  function Bump(f: Option<nat>): Option<nat> {
    match f
    case None => Some(0)
    case Some(n) => Some(n + 1)
  }

  /** `putInBucket(itemSet)`: a new itemset enters with frequency 0, a known one is counted again. */
  function Put(b: map<seq<int>, nat>, s: seq<int>): (r: map<seq<int>, nat>)
    ensures r.Keys == b.Keys + {s}
    ensures forall t :: t in b && t != s ==> r[t] == b[t]
    ensures s in b ==> r[s] == b[s] + 1
    ensures s !in b ==> r[s] == 0
  {
    if s in b then b[s := b[s] + 1] else b[s := 0]
  }

  /** Putting a whole set of distinct itemsets, as a reference definition independent of any order. */
  function PutAll(b: map<seq<int>, nat>, items: set<seq<int>>): map<seq<int>, nat> {
    map s | s in b.Keys + items :: if s in items then (if s in b then b[s] + 1 else 0) else b[s]
  }

  lemma PutAllNone(b: map<seq<int>, nat>)
    ensures PutAll(b, {}) == b
  {
    assert PutAll(b, {}).Keys == b.Keys;
  }

  lemma PutAllStep(b: map<seq<int>, nat>, done: set<seq<int>>, s: seq<int>)
    requires s !in done
    ensures Put(PutAll(b, done), s) == PutAll(b, done + {s})
  {
    var lhs := Put(PutAll(b, done), s);
    var rhs := PutAll(b, done + {s});
    assert lhs.Keys == rhs.Keys;
    forall t | t in lhs ensures lhs[t] == rhs[t] {
    }
  }

  /**
   * `putInBucket(Set)`: puts the itemsets one by one, in whatever order the set yields them; every
   * order gives the same bucket.
   */
  method PutInBucket(b: map<seq<int>, nat>, items: set<seq<int>>) returns (r: map<seq<int>, nat>)
    ensures r == PutAll(b, items)
  {
    r := b;
    var todo := items;
    ghost var done: set<seq<int>> := {};
    PutAllNone(b);
    while todo != {}
      invariant done !! todo
      invariant forall t :: t in items <==> t in done || t in todo
      invariant r == PutAll(b, done)
      decreases |todo|
    {
      if forall t :: t !in todo {
        assert false;
      }
      var s :| s in todo;
      PutAllStep(b, done, s);
      r := Put(r, s);
      todo := todo - {s};
      done := done + {s};
    }
    assert done == items;
  }
}

=== FILE: outcomes.dfy ===
/** Optional values and error-carrying results shared by every module of the model. */
module Outcomes {

  /** A value that may be absent: a Java reference that may be null. */
  datatype Option<+T> = None | Some(value: T)

  /** The unchecked exceptions the engine throws on a contract violation. */
  datatype Error = IllegalArgument(message: string) | IndexOutOfBounds(index: int, size: int)

  /** Either a value or the exception the Java code would have thrown instead. */
  datatype Result<+T> = Success(value: T) | Failure(error: Error)
}

=== FILE: presence.dfy ===
/**
 * `areAllSubsetsPresent`: whether every k-itemset that `chosen` and `remaining` make is stored in a
 * subtree. The walk is the one insertion and counting make. As `Node.areAllSubsetsPresentInChildren`
 * is written, a combination that hashes to an empty child slot is skipped rather than reported missing.
 */
module Presence {
  import opened Outcomes
  import opened ItemSets
  import opened Combinations
  import opened Nodes
  import Counting

  /**
   * The check at a node at depth |chosen|. With `skipEmpty` an empty child slot is passed over, as
   * `Node.areAllSubsetsPresentInChildren` does; without it an empty slot means its itemsets are missing.
   */
  function SubsetsPresent(cfg: Config, node: Node, chosen: seq<int>, remaining: seq<int>, skipEmpty: bool): bool
    requires ValidConfig(cfg) && Wf(cfg, node, |chosen|) && |chosen| <= cfg.k
    requires Increasing(chosen + remaining)
    decreases cfg.k - |chosen|, 1, 0
  {
    match node
    case Bucket(b) =>
      if |chosen| == cfg.k then chosen in b
      else forall s :: s in FinalItemSets(chosen, remaining, cfg.k) ==> s in b
    case Hash(ch) => ChildrenPresent(cfg, ch, chosen, remaining, 0, skipEmpty)
  }

  /** `areAllSubsetsPresentInChildren` from the `i`-th next combination on. */
  function ChildrenPresent(cfg: Config, ch: seq<Option<Node>>, chosen: seq<int>, remaining: seq<int>, i: nat, skipEmpty: bool): bool
    requires ValidConfig(cfg) && Wf(cfg, Hash(ch), |chosen|)
    requires Increasing(chosen + remaining) && i <= |remaining|
    decreases cfg.k - |chosen|, 0, |remaining| - i
  {
    var next := NextCombinations(chosen, remaining, cfg.k);
    if i >= |next| then true
    else
      var c := next[i];
      var j := Slot(c.chosen[|c.chosen| - 1], cfg.numChildren);
      if ch[j].None? then skipEmpty && ChildrenPresent(cfg, ch, chosen, remaining, i + 1, skipEmpty)
      else
        NextSorted(chosen, remaining, cfg.k, i);
        SubsetsPresent(cfg, ch[j].value, c.chosen, c.remaining, skipEmpty) &&
        ChildrenPresent(cfg, ch, chosen, remaining, i + 1, skipEmpty)
  }

  /** Every k-itemset made of `chosen` and items of `remaining` is stored below the node. */
  ghost predicate AllStored(cfg: Config, node: Node, chosen: seq<int>, remaining: seq<int>)
    requires ValidConfig(cfg)
  {
    StoredFrom(cfg, node, |chosen|, chosen, remaining)
  }

  /** Every k-itemset made of `chosen` and items of `remaining` is found from the node at depth `level`. */
  ghost predicate StoredFrom(cfg: Config, node: Node, level: nat, chosen: seq<int>, remaining: seq<int>)
    requires ValidConfig(cfg)
  {
    forall s :: Extends(s, chosen, remaining, cfg.k) ==> Find(cfg, node, level, s).Some?
  }

  /** The k-itemsets are all stored exactly when those that pick the first remaining item and those that skip it are. */
  lemma StoredSplit(cfg: Config, node: Node, level: nat, chosen: seq<int>, rest: seq<int>)
    requires ValidConfig(cfg) && |chosen| < cfg.k && |rest| >= 1 && Increasing(rest)
    ensures StoredFrom(cfg, node, level, chosen, rest) <==>
      StoredFrom(cfg, node, level, chosen + [rest[0]], rest[1..]) && StoredFrom(cfg, node, level, chosen, rest[1..])
  {
    forall s ensures Extends(s, chosen, rest, cfg.k) <==>
      Extends(s, chosen + [rest[0]], rest[1..], cfg.k) || Extends(s, chosen, rest[1..], cfg.k)
    {
      ExtendsSplit(s, chosen, rest, cfg.k);
    }
  }

  /**
   * The k-itemsets a next combination makes are all stored below a hash node exactly when the
   * child its last item hashes to exists and stores them all.
   */
  lemma ChildStored(cfg: Config, ch: seq<Option<Node>>, level: nat, c: Combination, j: int)
    requires ValidConfig(cfg) && Wf(cfg, Hash(ch), level)
    requires |c.chosen| == level + 1 && j == Slot(c.chosen[level], cfg.numChildren)
    requires |c.chosen| <= cfg.k <= |c.chosen| + |c.remaining| && Increasing(c.remaining)
    ensures 0 <= j < |ch|
    ensures StoredFrom(cfg, Hash(ch), level, c.chosen, c.remaining) <==>
      ch[j].Some? && StoredFrom(cfg, ch[j].value, level + 1, c.chosen, c.remaining)
  {
    if ch[j].None? {
      var w := c.chosen + c.remaining[..cfg.k - |c.chosen|];
      ExtendsWitness(c.chosen, c.remaining, cfg.k);
      Counting.EmptySlotFind(cfg, ch, level, j, c.chosen, c.remaining, w);
    } else {
      forall s | Extends(s, c.chosen, c.remaining, cfg.k)
        ensures Find(cfg, Hash(ch), level, s) == Find(cfg, ch[j].value, level + 1, s)
      {
        ExtendsPrefix(s, c.chosen, c.remaining, cfg.k, level);
      }
    }
  }

  /** Without skipping, the check answers exactly whether all the k-itemsets are stored. */
  lemma {:induction false} PresentIff(cfg: Config, node: Node, chosen: seq<int>, remaining: seq<int>)
    requires ValidConfig(cfg) && Wf(cfg, node, |chosen|) && |chosen| <= cfg.k
    requires Increasing(chosen + remaining)
    ensures SubsetsPresent(cfg, node, chosen, remaining, false) <==> AllStored(cfg, node, chosen, remaining)
    decreases cfg.k - |chosen|, 1, 0
  {
    RemainingSorted(chosen, remaining);
    match node
    case Bucket(b) =>
      if |chosen| == cfg.k {
        forall s ensures Extends(s, chosen, remaining, cfg.k) <==> s == chosen {
          ExtendsComplete(s, chosen, remaining, cfg.k);
        }
        assert Extends(chosen, chosen, remaining, cfg.k);
      } else {
        FinalMembers(chosen, remaining, cfg.k);
      }
    case Hash(ch) =>
      ChildrenPresentIff(cfg, ch, chosen, remaining, 0);
      assert remaining[0..] == remaining;
  }

  lemma {:induction false} ChildrenPresentIff(cfg: Config, ch: seq<Option<Node>>, chosen: seq<int>, remaining: seq<int>, i: nat)
    requires ValidConfig(cfg) && Wf(cfg, Hash(ch), |chosen|)
    requires Increasing(chosen + remaining) && i <= |remaining|
    ensures ChildrenPresent(cfg, ch, chosen, remaining, i, false) <==> AllStored(cfg, Hash(ch), chosen, remaining[i..])
    decreases cfg.k - |chosen|, 0, |remaining| - i
  {
    var L := |chosen|;
    var next := NextCombinations(chosen, remaining, cfg.k);
    RemainingSorted(chosen, remaining);
    IncreasingSuffix(remaining, i);
    if i >= |next| {
      forall s ensures !Extends(s, chosen, remaining[i..], cfg.k) {
        ExtendsTooFew(s, chosen, remaining[i..], cfg.k);
      }
    } else {
      var c := next[i];
      var j := Slot(c.chosen[|c.chosen| - 1], cfg.numChildren);
      var rest := remaining[i..];
      assert rest[0] == remaining[i] && rest[1..] == remaining[i + 1..];
      assert c == Combination(chosen + [rest[0]], rest[1..]);
      NextSorted(chosen, remaining, cfg.k, i);
      RemainingSorted(c.chosen, c.remaining);
      StoredSplit(cfg, Hash(ch), L, chosen, rest);
      ChildStored(cfg, ch, L, c, j);
      ChildrenPresentIff(cfg, ch, chosen, remaining, i + 1);
      if ch[j].Some? {
        PresentIff(cfg, ch[j].value, c.chosen, c.remaining);
      }
    }
  }

  /** Whatever the strict check accepts, the skipping check accepts too: skipping only adds answers of true. */
  lemma {:induction false} StrictImpliesSkipping(cfg: Config, node: Node, chosen: seq<int>, remaining: seq<int>)
    requires ValidConfig(cfg) && Wf(cfg, node, |chosen|) && |chosen| <= cfg.k
    requires Increasing(chosen + remaining)
    requires SubsetsPresent(cfg, node, chosen, remaining, false)
    ensures SubsetsPresent(cfg, node, chosen, remaining, true)
    decreases cfg.k - |chosen|, 1, 0
  {
    RemainingSorted(chosen, remaining);
    match node
    case Bucket(b) =>
    case Hash(ch) =>
      ChildrenStrictImpliesSkipping(cfg, ch, chosen, remaining, 0);
  }

  lemma {:induction false} ChildrenStrictImpliesSkipping(cfg: Config, ch: seq<Option<Node>>, chosen: seq<int>, remaining: seq<int>, i: nat)
    requires ValidConfig(cfg) && Wf(cfg, Hash(ch), |chosen|)
    requires Increasing(chosen + remaining) && i <= |remaining|
    requires ChildrenPresent(cfg, ch, chosen, remaining, i, false)
    ensures ChildrenPresent(cfg, ch, chosen, remaining, i, true)
    decreases cfg.k - |chosen|, 0, |remaining| - i
  {
    var next := NextCombinations(chosen, remaining, cfg.k);
    if i < |next| {
      var c := next[i];
      var j := Slot(c.chosen[|c.chosen| - 1], cfg.numChildren);
      NextSorted(chosen, remaining, cfg.k, i);
      ChildrenStrictImpliesSkipping(cfg, ch, chosen, remaining, i + 1);
      if ch[j].Some? {
        StrictImpliesSkipping(cfg, ch[j].value, c.chosen, c.remaining);
      }
    }
  }

  /** The route of `s` from a node at depth `level` runs into an empty child slot. */
  predicate Blocked(cfg: Config, node: Node, level: nat, s: seq<int>)
    requires ValidConfig(cfg)
  {
    match node
    case Bucket(_) => false
    case Hash(ch) =>
      |s| > level &&
      var j := Slot(s[level], cfg.numChildren);
      j < |ch| && (ch[j].None? || Blocked(cfg, ch[j].value, level + 1, s))
  }

  /** Every k-itemset made of `chosen` and items of `remaining` is found from the node, or its route is blocked. */
  ghost predicate CoveredFrom(cfg: Config, node: Node, level: nat, chosen: seq<int>, remaining: seq<int>)
    requires ValidConfig(cfg)
  {
    forall s :: Extends(s, chosen, remaining, cfg.k) ==> Find(cfg, node, level, s).Some? || Blocked(cfg, node, level, s)
  }

  lemma CoveredSplit(cfg: Config, node: Node, level: nat, chosen: seq<int>, rest: seq<int>)
    requires ValidConfig(cfg) && |chosen| < cfg.k && |rest| >= 1 && Increasing(rest)
    ensures CoveredFrom(cfg, node, level, chosen, rest) <==>
      CoveredFrom(cfg, node, level, chosen + [rest[0]], rest[1..]) && CoveredFrom(cfg, node, level, chosen, rest[1..])
  {
    forall s ensures Extends(s, chosen, rest, cfg.k) <==>
      Extends(s, chosen + [rest[0]], rest[1..], cfg.k) || Extends(s, chosen, rest[1..], cfg.k)
    {
      ExtendsSplit(s, chosen, rest, cfg.k);
    }
  }

  /**
   * The k-itemsets a next combination makes are covered below a hash node exactly when the child
   * slot its last item hashes to is empty, or the child covers them all.
   */
  lemma ChildCovered(cfg: Config, ch: seq<Option<Node>>, level: nat, c: Combination, j: int)
    requires ValidConfig(cfg) && Wf(cfg, Hash(ch), level)
    requires |c.chosen| == level + 1 && j == Slot(c.chosen[level], cfg.numChildren)
    requires |c.chosen| <= cfg.k <= |c.chosen| + |c.remaining| && Increasing(c.remaining)
    ensures 0 <= j < |ch|
    ensures CoveredFrom(cfg, Hash(ch), level, c.chosen, c.remaining) <==>
      ch[j].None? || CoveredFrom(cfg, ch[j].value, level + 1, c.chosen, c.remaining)
  {
    forall s | Extends(s, c.chosen, c.remaining, cfg.k)
      ensures |s| > level && Slot(s[level], cfg.numChildren) == j
    {
      ExtendsPrefix(s, c.chosen, c.remaining, cfg.k, level);
    }
  }

  /**
   * As `Node.areAllSubsetsPresentInChildren` is written, the check answers exactly whether every
   * k-itemset that `chosen` and `remaining` make is stored, apart from those routed into an empty slot.
   */
  lemma {:induction false} SkippingIff(cfg: Config, node: Node, chosen: seq<int>, remaining: seq<int>)
    requires ValidConfig(cfg) && Wf(cfg, node, |chosen|) && |chosen| <= cfg.k
    requires Increasing(chosen + remaining)
    ensures SubsetsPresent(cfg, node, chosen, remaining, true) <==> CoveredFrom(cfg, node, |chosen|, chosen, remaining)
    decreases cfg.k - |chosen|, 1, 0
  {
    RemainingSorted(chosen, remaining);
    match node
    case Bucket(b) =>
      if |chosen| == cfg.k {
        forall s ensures Extends(s, chosen, remaining, cfg.k) <==> s == chosen {
          ExtendsComplete(s, chosen, remaining, cfg.k);
        }
        assert Extends(chosen, chosen, remaining, cfg.k);
      } else {
        FinalMembers(chosen, remaining, cfg.k);
      }
    case Hash(ch) =>
      ChildrenSkippingIff(cfg, ch, chosen, remaining, 0);
      assert remaining[0..] == remaining;
  }

  lemma {:induction false} ChildrenSkippingIff(cfg: Config, ch: seq<Option<Node>>, chosen: seq<int>, remaining: seq<int>, i: nat)
    requires ValidConfig(cfg) && Wf(cfg, Hash(ch), |chosen|)
    requires Increasing(chosen + remaining) && i <= |remaining|
    ensures ChildrenPresent(cfg, ch, chosen, remaining, i, true) <==> CoveredFrom(cfg, Hash(ch), |chosen|, chosen, remaining[i..])
    decreases cfg.k - |chosen|, 0, |remaining| - i
  {
    var L := |chosen|;
    var next := NextCombinations(chosen, remaining, cfg.k);
    RemainingSorted(chosen, remaining);
    IncreasingSuffix(remaining, i);
    if i >= |next| {
      forall s ensures !Extends(s, chosen, remaining[i..], cfg.k) {
        ExtendsTooFew(s, chosen, remaining[i..], cfg.k);
      }
    } else {
      var c := next[i];
      var j := Slot(c.chosen[|c.chosen| - 1], cfg.numChildren);
      var rest := remaining[i..];
      assert rest[0] == remaining[i] && rest[1..] == remaining[i + 1..];
      assert c == Combination(chosen + [rest[0]], rest[1..]);
      NextSorted(chosen, remaining, cfg.k, i);
      RemainingSorted(c.chosen, c.remaining);
      CoveredSplit(cfg, Hash(ch), L, chosen, rest);
      ChildCovered(cfg, ch, L, c, j);
      ChildrenSkippingIff(cfg, ch, chosen, remaining, i + 1);
      if ch[j].Some? {
        SkippingIff(cfg, ch[j].value, c.chosen, c.remaining);
        assert ChildrenPresent(cfg, ch, chosen, remaining, i, true) ==
          (SubsetsPresent(cfg, ch[j].value, c.chosen, c.remaining, true) && ChildrenPresent(cfg, ch, chosen, remaining, i + 1, true));
      } else {
        assert ChildrenPresent(cfg, ch, chosen, remaining, i, true) == ChildrenPresent(cfg, ch, chosen, remaining, i + 1, true);
      }
    }
  }

  /** The 1-itemset tree holding only {1}, with three slots; {1} hashes to slot 1. */
  lemma SmallTreeWf()
    ensures ValidConfig(Config(1, 1, 3, 3))
    ensures Wf(Config(1, 1, 3, 3), Hash([None, Some(Bucket(map[[1] := 1])), None]), 0)
  {
    var cfg := Config(1, 1, 3, 3);
    var leaf := Bucket(map[[1] := 1]);
    var ch := [None, Some(leaf), None];
    assert Keys(leaf) == {[1]};
    assert Slot(1, 3) == 1;
    forall j | 0 <= j < |ch| && ch[j].Some?
      ensures Wf(cfg, ch[j].value, 1) && forall s :: s in Keys(ch[j].value) ==> RoutesTo(cfg, s, 0, j)
    {
      assert j == 1;
    }
  }

  /** The candidate {1, 2} is split into the combinations {1} | {2} and {2} | {}. */
  lemma SmallCandidateSplit()
    ensures NextCombinations([], [1, 2], 1) == [Combination([1], [2]), Combination([2], [])]
  {
    var next := NextCombinations([], [1, 2], 1);
    assert [1, 2][1..] == [2] && [1, 2][2..] == [];
    assert |next| == 2;
    assert next[0] == Combination([1], [2]);
    assert next[1] == Combination([2], []);
  }

  /**
   * `Node.areAllSubsetsPresentInChildren` as written, on a 1-itemset tree holding only {1} with three slots:
   * for the candidate {1, 2} it answers that all subsets are present though {2} is not stored.
   */
  lemma SkipEmptyCounterexample()
    ensures
      var cfg := Config(1, 1, 3, 3);
      var root := Hash([None, Some(Bucket(map[[1] := 1])), None]);
      ValidConfig(cfg) && Wf(cfg, root, 0) &&
      SubsetsPresent(cfg, root, [], [1, 2], true) &&
      !SubsetsPresent(cfg, root, [], [1, 2], false) &&
      Find(cfg, root, 0, [2]) == None
  {
    var cfg := Config(1, 1, 3, 3);
    var leaf := Bucket(map[[1] := 1]);
    var ch := [None, Some(leaf), None];
    SmallTreeWf();
    SmallCandidateSplit();
    assert Slot(1, 3) == 1 && Slot(2, 3) == 2;
    assert ChildrenPresent(cfg, ch, [], [1, 2], 2, true);
    assert ChildrenPresent(cfg, ch, [], [1, 2], 1, true);
    assert ChildrenPresent(cfg, ch, [], [1, 2], 0, true);
    assert !ChildrenPresent(cfg, ch, [], [1, 2], 1, false);
    assert !ChildrenPresent(cfg, ch, [], [1, 2], 0, false);
  }
}

=== FILE: trim.dfy ===
/**
 * `removeNoMinSupport` and `prune` share one shape: drop the bucket itemsets a test rejects, detach
 * every child that is left with nothing, and report whether the node itself is now empty.
 */
module Trimming {
  import opened Outcomes
  import opened Nodes

  /**
   * Keeps the itemsets `keep` accepts (given the itemset and its count). The flag says whether the
   * node should be removed by its parent: its bucket emptied, or none of its children survived.
   */
  function Filter(node: Node, keep: (seq<int>, nat) -> bool): (r: (Node, bool))
    ensures r.0.Bucket? <==> node.Bucket?
    ensures node.Hash? ==> |r.0.children| == |node.children|
    ensures Compact(r.0)
    ensures Keys(r.0) <= Keys(node)
    ensures r.1 <==> Keys(r.0) == {}
  {
    match node
    case Bucket(b) =>
      var kept := map s | s in b && keep(s, b[s]) :: b[s];
      (Bucket(kept), |kept| == 0)
    case Hash(ch) =>
      var ch' := seq(|ch|, j requires 0 <= j < |ch| =>
        if ch[j].None? then None
        else
          var f := Filter(ch[j].value, keep);
          if f.1 then None else Some(f.0));
      assert Keys(Hash(ch')) <= Keys(node) by {
        forall s | s in Keys(Hash(ch')) ensures s in Keys(node) {
          var j :| 0 <= j < |ch'| && ch'[j].Some? && s in Keys(ch'[j].value);
        }
      }
      NoChildrenIffEmpty(ch');
      (Hash(ch'), forall j :: 0 <= j < |ch'| ==> ch'[j].None?)
  }

  /** A lookup only succeeds for an itemset that is stored. */
  lemma {:induction false} FindStored(cfg: Config, node: Node, level: nat, s: seq<int>)
    requires ValidConfig(cfg) && Find(cfg, node, level, s).Some?
    ensures s in Keys(node)
    decreases node
  {
    match node
    case Bucket(b) =>
    case Hash(ch) =>
      var j := Slot(s[level], cfg.numChildren);
      FindStored(cfg, ch[j].value, level + 1, s);
  }

  /** What a lookup finds after filtering: the same count if the itemset was kept, else nothing. */
  function Kept(keep: (seq<int>, nat) -> bool, s: seq<int>, f: Option<nat>): Option<nat> {
    match f
    case None => None
    case Some(n) => if keep(s, n) then Some(n) else None
  }

  /** Filtering keeps exactly the stored itemsets that pass the test, with their counts. */
  lemma {:induction false} FilterFind(cfg: Config, node: Node, level: nat, keep: (seq<int>, nat) -> bool, s: seq<int>)
    requires ValidConfig(cfg)
    ensures Find(cfg, Filter(node, keep).0, level, s) == Kept(keep, s, Find(cfg, node, level, s))
    decreases node
  {
    match node
    case Bucket(b) =>
    case Hash(ch) =>
      if |s| > level {
        var j := Slot(s[level], cfg.numChildren);
        if j < |ch| && ch[j].Some? {
          var f := Filter(ch[j].value, keep);
          FilterFind(cfg, ch[j].value, level + 1, keep, s);
          if f.1 && Find(cfg, f.0, level + 1, s).Some? {
            FindStored(cfg, f.0, level + 1, s);
          }
        }
      }
  }

  /** Filtering keeps a well-formed subtree well-formed. */
  lemma {:induction false} FilterWf(cfg: Config, node: Node, level: nat, keep: (seq<int>, nat) -> bool)
    requires ValidConfig(cfg) && Wf(cfg, node, level)
    ensures Wf(cfg, Filter(node, keep).0, level)
    decreases node
  {
    match node
    case Bucket(b) =>
    case Hash(ch) =>
      var ch' := Filter(node, keep).0.children;
      forall j | 0 <= j < |ch'| && ch'[j].Some?
        ensures Wf(cfg, ch'[j].value, level + 1) && forall s :: s in Keys(ch'[j].value) ==> RoutesTo(cfg, s, level, j)
      {
        FilterWf(cfg, ch[j].value, level + 1, keep);
      }
  }
}
